=== FILE: README.md ===
# h5darkframes: the darkframe store, modelled in Dafny

h5darkframes keeps camera darkframes in an HDF5 file. Each camera control
("controllable": exposure, gain, temperature, …) is swept over a
`ControlRange`. Every combination of values is a parameter tuple, and each
tuple names a path of nested groups, one level per controllable, whose
last group holds the image and its camera configuration. A library can be
opened for reading, listed, queried exactly, by the closest stored tuple,
or by the neighbours of a target, edited (add, rm), and several libraries
can be fused into one.

The model keeps the tree in memory as an immutable datatype. Each group
holds its children as a sequence of `Child(key, group)`, in name order,
and optionally a `Leaf(image, config)`. All operations are pure functions
over it. Module by module:

- `Outcomes`: the `Result`/`Option` wrappers and the Python exceptions the
  code raises (KeyError, IndexError, ValueError, AttributeError,
  ZeroDivisionError, TypeError, ImageNotFound, a fusion mismatch, an existing
  target).
- `ControlRanges`: `ControlRange` and `get_values`, over Python's `range`.
- `Iteration`: `iterate_ints` / `iterate_controls`, the Cartesian product.
- `Names`: group names are `str(k)` of an integer. Children are listed by
  the string order of their names, which is not numeric order.
- `Tuples`: parameter tuples, their lexicographic order, and `Prepend`.
- `Groups`: the child list of a group (find, set, insert, remove) and the
  invariant that names are unique and in name order.
- `H5`: `get_params`, `get_group`, `add` and `rm` of `h5darkframes/h5.py`.
  `add` and `rm` are modelled twice: as the code is written, and corrected
  (see Findings); the rest of the model uses the corrected ones.
- `ImageLibrary`: `_get_controllables`, `_get_params`, the observed bounds
  of `ImageLibrary.__init__`, `nb_pics`, `name`, and the mode dispatch and
  fallback of `get`. Closest retrieval is a descent that, level by level,
  enters the child whose name is nearest the target's component (ties go
  to the smaller value). Opening is modelled as written and with the
  parameters kept as tuples; the rest of the model uses the latter.
- `Neighbors`: `_normalize`, `_distance`, `_closest` and `get_neighbors`,
  twice: with exact `real` arithmetic on Python integers, where a flat axis
  (min == max) raises ZeroDivisionError, and on the numpy integers an
  opened library holds as its bounds, where that division gives nan or an
  infinity instead. `get` uses the numpy one.
- `Fusion`: `_add`, `_fuse_libraries` and `fuse_libraries`.

The run-time environment enters as parameters. Whether the fusion target
file already exists is a boolean, and each source file is its root group
plus its `controls` and `name` attributes, already evaluated.

## Model

| member | source | states |
|---|---|---|
| ControlRanges.NewRange | h5darkframes/control_range.py:33-49 | the constructor stores min, max, step, threshold and timeout unchanged; threshold defaults to 0 and timeout to 0.1 |
| ControlRanges.Up | h5darkframes/control_range.py:59 | an increasing `range` is empty iff start >= stop, starts at start, stays in [start, stop), steps by exactly `step` and is strictly increasing |
| ControlRanges.Down | h5darkframes/control_range.py:59 | a decreasing `range` is empty iff start <= stop, starts at start, stays in (stop, start] and steps by exactly `step` |
| ControlRanges.PyRange | h5darkframes/control_range.py:59 | `range` with a zero step raises ValueError, and only then |
| ControlRanges.GetValues | h5darkframes/control_range.py:55-59 | `get_values` fails (ValueError) iff the step is 0; with a positive step every value lies in [min, max], with a negative one in (max+1, min] |
| ControlRanges.UpExact | h5darkframes/control_range.py:59 | element k of an increasing range is start + k·step, and there are exactly Count(start, stop, step) of them |
| ControlRanges.ValuesExact | h5darkframes/control_range.py:55-59 | with step > 0, `get_values` is min, min+step, …; its length is 0 if min > max and (max−min) div step + 1 otherwise |
| ControlRanges.MaxIncluded | h5darkframes/control_range.py:59 | max is one of the values iff min <= max and (max−min) mod step == 0: max is a ceiling, not always reached |
| ControlRanges.ValuesExamples | tests/test_image_library.py:11-21 | the test ranges (0,10,5), (0,3,1) and (0,15,3) give [0,5,10], [0,1,2,3] and [0,3,6,9,12,15] |
| Iteration.IterateInts | h5darkframes/iteration.py:6-12 | every produced tuple has one component per list |
| Iteration.SpreadMember | h5darkframes/iteration.py:10 | one level of the product: a tuple is produced iff its head is in the first list and its tail is a product of the rest |
| Iteration.IterateIntsMembers | h5darkframes/iteration.py:6-12 | a tuple is produced iff it has one component per list and component i is in list i |
| Iteration.IterateIntsCount | h5darkframes/iteration.py:6-12 | the number of tuples is the product of the list lengths |
| Iteration.IterateIntsEmpty | h5darkframes/iteration.py:10 | if any list is empty, nothing is produced |
| Iteration.IterateIntsSorted | h5darkframes/iteration.py:10-11 | when each list ascends, the tuples come out in strictly increasing lexicographic order, so each combination appears exactly once |
| Iteration.AllValues | h5darkframes/iteration.py:22 | the value lists of the ranges; fails (ValueError) iff some range has step 0, otherwise list i is range i's `get_values` |
| Iteration.IterateControls | h5darkframes/iteration.py:15-23 | fails iff some range has step 0; every tuple has one component per range |
| Iteration.IterateControlsFacts | h5darkframes/iteration.py:15-23 | with positive steps, a tuple is produced iff component i is a value of range i; the output is strictly increasing, duplicate-free and has the product of the lengths as its size |
| Iteration.TestValues | tests/test_image_library.py:13-21 | the value lists of the three test ranges |
| Iteration.ExampleCount | tests/test_image_library.py:13-21 | the three test ranges give 3 × 4 × 6 = 72 combinations |
| Iteration.ExampleMembers | h5darkframes/iteration.py:15-23 | (10, 3, 15) is a combination of the test ranges and (10, 3, 16) is not |
| Names.Digits | h5darkframes/h5.py:55 | the decimal digits of a natural number: at least one, all in '0'..'9' |
| Names.Name | h5darkframes/h5.py:55 | `str(k)`: a minus sign exactly when k is negative, then decimal digits |
| Names.ParseName | h5darkframes/h5.py:28 | `int(key)`: a string of digits reads as a natural number, a minus sign followed by digits as a non-positive one; NameRoundTrip makes it the inverse of `str` |
| Names.NameRoundTrip | h5darkframes/h5.py:28 | reading a group name back gives its integer: int(str(k)) == k |
| Names.NameInjective | h5darkframes/h5.py:55 | different integers have different group names |
| Names.StrBelowAsymmetric | h5darkframes/h5.py:26 | Python string order is asymmetric |
| Names.StrBelowTransitive | h5darkframes/h5.py:26 | Python string order is transitive |
| Names.StrBelowTotal | h5darkframes/h5.py:26 | any two different strings are ordered one way or the other |
| Names.NameOrderFacts | h5darkframes/h5.py:26 | the order children are listed in is a strict total order on integers |
| Names.NameOrderIsNotNumeric | h5darkframes/h5.py:26 | name order puts 100 before 60, although 60 < 100 |
| Tuples.Prepend | h5darkframes/h5.py:27-29 | putting a head before every tuple keeps their number and order |
| Tuples.PrependMember | h5darkframes/h5.py:27-29 | a tuple is in the prepended list iff it is the head followed by one of the tails |
| Tuples.SortedDistinct | h5darkframes/h5.py:26 | a strictly sorted list of tuples repeats none |
| Tuples.PrependKeepsOrder | h5darkframes/h5.py:26-29 | prepending a common head keeps a sorted list sorted |
| Tuples.ConcatSorted | h5darkframes/h5.py:26-29 | two sorted runs, each tuple of the first below each of the second, concatenate into a sorted list |
| Groups.FindChild | h5darkframes/h5.py:55 | `group[str(k)]` finds a child iff one is named k, and then it is a child of the group |
| Groups.FindSetChild | h5darkframes/h5.py:58 | after setting the child named k it is found under k, and every other name finds what it found before |
| Groups.SetChildSame | h5darkframes/h5.py:55-58 | setting a child to the group it already is changes nothing |
| Groups.SetChildMembers | h5darkframes/h5.py:58 | after setting, every child is the new one or an old one, and the new one is present |
| Groups.SetChildSorted | h5darkframes/h5.py:58 | setting a child keeps the names unique and in name order |
| Groups.RemoveChildFacts | h5darkframes/h5.py:120-123 | unlinking the child named k keeps the order; k is no longer found, every other name is |
| Groups.FindSortedMember | h5darkframes/h5.py:26-29 | in a sorted child list each child is found under its own name |
| H5.Walk | h5darkframes/h5.py:16-29 | every tuple the recursion of `get_params` lists is as long as its depth |
| H5.WalkMembers | h5darkframes/h5.py:16-29 | the recursion lists a tuple iff it is as long as the depth and names a complete path of groups |
| H5.GetParams | h5darkframes/h5.py:7-36 | `get_params` raises ValueError exactly when a group above the depth holds an image (its member "image" is read with `int`); otherwise every listed tuple has one component per controllable |
| H5.GetParamsMembers | h5darkframes/h5.py:7-36 | when `get_params` does not raise, it lists a tuple iff it has one component per controllable and names a complete path of groups |
| H5.ShapedClean | h5darkframes/h5.py:23-29 | a library tree holds no image above its depth, so `get_params` on it does not raise |
| H5.StoredGetParams | h5darkframes/h5.py:7-36 | on a library tree `get_params` succeeds and lists exactly the tuples holding an image |
| H5.GetParamsRaisesExample | h5darkframes/h5.py:26-28 | an image at the root of a one-controllable file makes `get_params` raise ValueError |
| H5.WalkSorted | h5darkframes/h5.py:26 | `get_params` lists tuples in strictly increasing name order, so each exactly once |
| H5.WalkSortedBy | h5darkframes/h5.py:26-29 | the same for any irreflexive order the children are sorted by at every level |
| H5.WalkChildrenSortedBy | h5darkframes/h5.py:26-29 | the walk over a sorted child list is sorted: each child's block is sorted and precedes the next child's |
| H5.GetGroup | h5darkframes/h5.py:39-62 | without create the tree is unchanged and the group is the path's (None if a level is missing, never created); with create the whole path exists afterwards and `created` holds iff some level was missing |
| H5.PutLookup | h5darkframes/h5.py:85-86 | writing at a path changes the data there and nowhere else |
| H5.PutWellFormed | h5darkframes/h5.py:85-86 | writing keeps names unique at every level |
| H5.GetGroupThenPut | h5darkframes/h5.py:79-86 | creating the path and then writing is the same as writing |
| H5.GetGroupKeepsLeaves | h5darkframes/h5.py:51-62 | `get_group` never changes a stored image, with or without create |
| H5.GetGroupCreatedEmpty | h5darkframes/h5.py:57-59 | a level `get_group` creates holds no image |
| H5.GetGroupRootUnchanged | h5darkframes/h5.py:53-56 | when every level exists, `get_group(create=True)` leaves the tree as it was |
| H5.Add | h5darkframes/h5.py:65-88 | the corrected `add`: without overwrite on an existing path nothing changes and False is returned; otherwise True, and an exact lookup gives the new image and config (replacing an old one under overwrite); no other tuple changes |
| H5.AddAsWritten | h5darkframes/h5.py:65-88 | `add` as written raises ValueError exactly when overwrite is on and an image is already stored at the tuple; otherwise it does what the corrected `add` does |
| H5.AddAsWrittenCounterexample | h5darkframes/h5.py:82-85 | one image at (1,): adding at (1,) with overwrite raises ValueError as written, and the corrected `add` stores the new image |
| H5.ImageMember | h5darkframes/h5.py:107-110 | a group has the member "image" exactly when it holds an image; no child name can collide with it |
| H5.ConfigNotMember | h5darkframes/h5.py:112-115 | the configuration is an attribute, so "camera_config" is never a member of a group |
| H5.AddParams | h5darkframes/h5.py:65-88 | on a library tree, `add` keeps the library shape and lists exactly the old tuples plus the added one |
| H5.Rm | h5darkframes/h5.py:92-125 | an absent tuple gives None and an unchanged tree; a present one gives (param, image, config) |
| H5.PruneLookup | h5darkframes/h5.py:117-123 | clearing the data and unlinking the emptied groups removes exactly the data at the path |
| H5.Prune | h5darkframes/h5.py:117-123 | the pruning the final loop intends; it has no contract of its own, and H5.PruneLookup states what it does: the data at the path is gone, every other image stays, names stay unique |
| H5.RmLookup | h5darkframes/h5.py:92-125 | after `rm` nothing is stored at the tuple and every other image is where it was |
| H5.RmParams | h5darkframes/h5.py:92-125 | on a library tree, after `rm` the tuple is no longer listed by `get_params` and every other tuple still is |
| H5.StoredWalk | h5darkframes/h5.py:7-36 | in a library tree `get_params` lists exactly the full-length tuples that hold an image |
| H5.PutStored | h5darkframes/h5.py:85-86 | writing an image at a full-length path keeps the library shape |
| H5.RmAsWrittenRemovesNothing | h5darkframes/h5.py:92-115 | `rm` as written returns None and leaves the tree unchanged for every input, since reading the configuration as a member raises KeyError; the intended `rm` returns the stored image of a present tuple |
| H5.RmAsWritten | h5darkframes/h5.py:92-115 | as written, `rm` changes the tree only when it reports a removal, and what it reports is the tuple with its stored image and configuration |
| H5.RmAsWrittenCounterexample | h5darkframes/h5.py:107-115 | a one-image library: `rm` as written returns None and the tuple stays listed; the intended `rm` returns the image and config and nothing stays listed |
| H5.RmUnpruned | h5darkframes/h5.py:117-125 | with the configuration read repaired and the final loop as written, `rm` reports the same removal as the intended `rm` |
| H5.RmUnprunedStillListed | h5darkframes/h5.py:117-123 | without pruning, a removed tuple is still listed by `get_params` |
| H5.RmUnprunedCounterexample | h5darkframes/h5.py:117-123 | a one-image library: without pruning, after `rm` its tuple is still listed; after the intended `rm` nothing is |
| ImageLibrary.AxisNames | h5darkframes/image_library.py:32 | the keys of an ordered map of ranges, in order |
| ImageLibrary.GetControllables | h5darkframes/image_library.py:21-33 | `_get_controllables` succeeds iff the ranges are an ordered map, a non-empty list whose first entry is a map, or a non-empty list of named tuples |
| ImageLibrary.ControllablesFacts | h5darkframes/image_library.py:21-33 | an ordered map gives its keys; a plain dict KeyError; an empty list IndexError; a list whose first entry is a list AttributeError; a list of maps the keys of the first |
| ImageLibrary.Named | h5darkframes/image_library.py:52-58 | the mapping built for one tuple has exactly the controllables as keys |
| ImageLibrary.NamedAt | h5darkframes/image_library.py:57 | with unique names, controllable i maps to component i |
| ImageLibrary.Values | h5darkframes/image_library.py:134 | the lookup tuple: succeeds iff every controllable is named, and then component i is the value of controllable i; otherwise KeyError |
| ImageLibrary.NamedRoundTrip | h5darkframes/image_library.py:52-58 | reading a named tuple back in controllable order gives the tuple again |
| ImageLibrary.NamedParams | h5darkframes/image_library.py:36-65 | `_get_params` raises ValueError exactly when an image sits above the depth (`int(key)` on "image"); otherwise it yields one mapping per listed tuple |
| ImageLibrary.NamedParamsFacts | h5darkframes/image_library.py:36-65 | when `_get_params` does not raise, each mapping has exactly the controllables as keys and reads back as the listed tuple at the same position |
| ImageLibrary.MinOf | h5darkframes/image_library.py:96 | the minimum is one of the values and below all of them |
| ImageLibrary.MaxOf | h5darkframes/image_library.py:97 | the maximum is one of the values and above all of them |
| ImageLibrary.BoundsFacts | h5darkframes/image_library.py:93-97 | the observed bounds hold every stored tuple between them, component-wise, and each bound is attained |
| ImageLibrary.Open | h5darkframes/image_library.py:75-97 | the corrected opening (parameters kept as tuples): a successfully opened library lists the complete paths as its tuples, with the bounds of those tuples |
| ImageLibrary.OpenFacts | h5darkframes/image_library.py:75-97 | the corrected opening fails with KeyError without `controls`, with the controllables' error when they cannot be read, with ValueError when an image sits above the depth or nothing is stored, and otherwise lists every stored tuple |
| ImageLibrary.OpenAsWritten | h5darkframes/image_library.py:75-97 | as written, opening without a `controls` attribute is KeyError, and only a library of exactly one image gets past the bounds |
| ImageLibrary.ValidWithin | h5darkframes/image_library.py:93-97 | every stored tuple lies, axis by axis, within the observed bounds |
| ImageLibrary.SingleBounds | h5darkframes/image_library.py:93-97 | a library of one tuple has that tuple as its minimum and its maximum |
| ImageLibrary.OpenAsWrittenFacts | h5darkframes/image_library.py:84-97 | as written, opening fails wherever the corrected opening fails, with the same error, and also with TypeError exactly when two or more tuples are stored |
| ImageLibrary.OpenAsWrittenCounterexample | h5darkframes/image_library.py:90-97 | two dark frames at exposure 0 and 5: the corrected opening lists (0,) and (5,), and as written opening raises TypeError |
| ImageLibrary.NbPics | h5darkframes/image_library.py:102-107 | `nb_pics` counts each stored tuple of an opened library once |
| ImageLibrary.Name | h5darkframes/image_library.py:119-128 | the stored name, or "(not named)" without one |
| ImageLibrary.NearestChild | h5darkframes/image_library.py:140-142 | the child a descent enters: no child's name is nearer the target component, or as near and smaller |
| ImageLibrary.Descend | h5darkframes/image_library.py:140-142 | the closest tuple has the target's length; failure is ImageNotFound |
| ImageLibrary.DescendGreedy | h5darkframes/image_library.py:140-142 | the first component of the closest tuple is the child name nearest the target's first component |
| ImageLibrary.DescendStored | h5darkframes/image_library.py:140-142 | what the descent finds holds an image |
| ImageLibrary.DescendSucceeds | h5darkframes/image_library.py:140-142 | in a library tree the descent always finds something |
| ImageLibrary.DescendExact | h5darkframes/image_library.py:140-142 | a stored target is its own closest tuple |
| ImageLibrary.Get | h5darkframes/image_library.py:130-151 | exact and closest retrieval give an image, never a neighbour list |
| ImageLibrary.ExactImage | h5darkframes/image_library.py:136-138 | exact retrieval succeeds iff an image is stored at the tuple, and gives that image under that tuple; otherwise ImageNotFound |
| ImageLibrary.ClosestImage | h5darkframes/image_library.py:140-142 | closest retrieval gives an image stored at a tuple of the target's length; its only failure is ImageNotFound |
| ImageLibrary.GetMissing | h5darkframes/image_library.py:134 | a controllable missing from the controls is KeyError in every mode |
| ImageLibrary.GetExact | h5darkframes/image_library.py:136-138 | exact retrieval gives the stored image of the named tuple, or ImageNotFound |
| ImageLibrary.GetClosest | h5darkframes/image_library.py:140-142 | closest retrieval gives the image of the tuple the descent reaches |
| ImageLibrary.NeighborsFallBack | h5darkframes/image_library.py:144-151 | a stored target averages itself; a target that is not stored falls back to the closest image exactly when every axis is flat (min == max), and otherwise averages a non-empty list of stored tuples |
| ImageLibrary.NeighborsFallBackExample | h5darkframes/image_library.py:146-147 | one frame at (60,10) and the target (70,10): the neighbours mode falls back and returns the image stored at (60,10) |
| ImageLibrary.EditThenGet | tests/test_image_library.py:180-202 | after `rm` exact retrieval of the tuple is ImageNotFound; adding there again with overwrite does not raise even as written, and exact retrieval then gives the added image and config; with the corrected `add` the same holds without the `rm` |
| ImageLibrary.ClosestInLibrary | h5darkframes/image_library.py:140-142 | in an opened library the closest tuple is always found, is a stored tuple, and is the target when the target is stored |
| ImageLibrary.NearestKey | h5darkframes/image_library.py:140-142 | the child the descent enters is the best name computed from the names alone |
| ImageLibrary.GridDescend | tests/test_image_library.py:69-120 | on the 3 × 4 test library the descent picks the best width, then the best height |
| ImageLibrary.GridClosest | tests/test_image_library.py:97-120 | on the test library (61,11)→(60,11), (75,11)→(80,11), (75,14)→(80,13), (75,9)→(80,10), and (70,11)→(60,11) |
| Neighbors.Normalize | h5darkframes/neighbors.py:7-15 | component i of the rescaled tuple is (v−min)/(max−min) on axis i |
| Neighbors.SqDist | h5darkframes/neighbors.py:18-19 | the squared distance is non-negative |
| Neighbors.SqDistSymmetric | h5darkframes/neighbors.py:18-19 | the distance from v1 to v2 is the distance from v2 to v1, and a point is at distance 0 from itself |
| Neighbors.NormalizeAxis | h5darkframes/neighbors.py:7-15 | rescaling maps min to 0 and max to 1 and is strictly monotone on each axis (increasing when max > min, decreasing when max < min) |
| Neighbors.ClosestIndex | h5darkframes/neighbors.py:22-27 | the stable sort puts first a candidate of minimal distance, with every earlier one strictly farther |
| Neighbors.Subparams | h5darkframes/neighbors.py:47-54 | the candidates on the side are exactly those on the side |
| Neighbors.NearestOnIsScan | h5darkframes/neighbors.py:44-57 | filtering to a side then taking the first of the sorted list is the same as a one-pass scan |
| Neighbors.ScanSpec | h5darkframes/neighbors.py:44-57 | the scan picks none iff no candidate is on the side, otherwise the earliest of the nearest on the side |
| Neighbors.SideNeighborSpec | h5darkframes/neighbors.py:44-57 | `_side_neighbor` returns None iff no candidate is on the side, otherwise the parameter of the earliest nearest candidate on it |
| Neighbors.SideNeighbor | h5darkframes/neighbors.py:44-57 | `_side_neighbor` returns None iff no candidate is on the side, otherwise the parameter of a candidate on it |
| Neighbors.Candidates | h5darkframes/neighbors.py:47-60 | candidate j is stored tuple j with its rescaled distance and whether it lies at or above (>=) or strictly below (<) the target on the axis |
| Neighbors.SideSpec | h5darkframes/neighbors.py:44-57 | a side has a neighbour iff some stored tuple lies on it, and then it is the earliest nearest one there |
| Neighbors.SideAt | h5darkframes/neighbors.py:44-57 | conversely, the earliest nearest stored tuple on a side is that side's neighbour |
| Neighbors.SideStored | h5darkframes/neighbors.py:26-27 | every side neighbour is a stored tuple |
| Neighbors.Searches | h5darkframes/neighbors.py:61-66 | two searches per axis |
| Neighbors.SearchesMember | h5darkframes/neighbors.py:61-66 | the neighbours found are exactly the side neighbours of some axis and side |
| Neighbors.GetNeighbors | h5darkframes/neighbors.py:30-67 | a stored target gives exactly [target]; otherwise ZeroDivisionError iff some axis has min == max; at most 2 × (number of axes) results, all stored tuples |
| Neighbors.NeighborsFacts | h5darkframes/neighbors.py:59-67 | for a target that is not stored, a tuple is returned iff it is the neighbour of some side of some axis; the list is empty iff nothing is stored |
| Neighbors.GridStoredTargets | tests/test_image_library.py:229-237 | on the test grid, (60,10) and (80,12) are their own only neighbours |
| Neighbors.GridNeighbors | tests/test_image_library.py:239-242 | on the test grid, (70,11) has the neighbours (80,11), (60,11), (60,11) and (60,10) |
| Neighbors.Quotient | h5darkframes/neighbors.py:12 | numpy division: x/d for d != 0, nan for 0/0, and otherwise an infinity, positive exactly when the numerator is |
| Neighbors.NpNormalize | h5darkframes/neighbors.py:7-15 | component i of the rescaled tuple is the numpy quotient of (v−min) by (max−min) on axis i |
| Neighbors.NpSqDist | h5darkframes/neighbors.py:18-19 | the float sum of squared differences is never below zero: nan, +inf or a non-negative number |
| Neighbors.NpSqDistNums | h5darkframes/neighbors.py:18-19 | on finite coordinates the numpy sum of squares is the exact one |
| Neighbors.NpSqDistNaN | h5darkframes/neighbors.py:18-19 | one nan coordinate makes the whole distance nan |
| Neighbors.NpKey | h5darkframes/neighbors.py:26 | for a tuple within the bounds the sort key is its exact distance when no axis is flat, and nan otherwise |
| Neighbors.NpCandidates | h5darkframes/neighbors.py:47-60 | candidate j is stored tuple j with its sort key and whether its rescaled coordinate is at or above, or below, the target's on the axis, by IEEE comparison |
| Neighbors.NpSide | h5darkframes/neighbors.py:44-57 | `_side_neighbor` on the numpy rescaling: None iff no stored tuple passes the float side test, otherwise a stored tuple that passes it |
| Neighbors.NpSearches | h5darkframes/neighbors.py:61-66 | two searches per axis, in the loop's order |
| Neighbors.NpGetNeighbors | h5darkframes/neighbors.py:30-67 | the `get_neighbors` the library uses: a stored target gives [target], every neighbour is a stored tuple, and there are at most two per axis |
| Neighbors.NpAgreesNonFlat | h5darkframes/neighbors.py:30-67 | with no flat axis the numpy `get_neighbors` gives exactly the list of the exact one |
| Neighbors.NpSideFlat | h5darkframes/neighbors.py:44-57 | with a flat axis every key is nan, so a side has no neighbour iff nothing is on it, and otherwise its neighbour is the first tuple on it in list order |
| Neighbors.NpFlatAxisEmpty | h5darkframes/neighbors.py:47-54 | along a flat axis both sides are empty: every rescaled coordinate is nan and fails both comparisons |
| Neighbors.NpNonFlatAxisFound | h5darkframes/neighbors.py:47-54 | along a non-flat axis some stored tuple is on one of the two sides |
| Neighbors.NpNeighborsFacts | h5darkframes/neighbors.py:30-67 | numpy `get_neighbors`: a stored target gives [target], every result is stored, and on a non-empty library the list is empty iff the target is not stored and every axis is flat |
| Neighbors.NpSingleExample | h5darkframes/neighbors.py:30-67 | one stored tuple (60,10) and the target (70,10): both axes are flat and the list is empty |
| Fusion.AddNew | h5darkframes/fuse_libraries.py:18-37 | `_add` writes and returns True iff the tuple's group did not exist; otherwise it returns False and changes nothing; no other tuple changes |
| Fusion.AddNewStored | h5darkframes/fuse_libraries.py:18-37 | in a library tree a full-length tuple is written iff it holds no image, and an existing image is kept |
| Fusion.Reorder | h5darkframes/fuse_libraries.py:56-58 | the re-ordered key succeeds iff every target controllable is one of the source's, else KeyError; it has one component per target controllable |
| Fusion.ReorderAt | h5darkframes/fuse_libraries.py:56-58 | the component for a controllable is the source's component for that controllable |
| Fusion.ReorderRoundTrip | h5darkframes/fuse_libraries.py:56-58 | between two orders of the same names, re-ordering there and back gives the tuple again |
| Fusion.ReorderInjective | h5darkframes/fuse_libraries.py:56-58 | different tuples of a source stay different once re-ordered |
| Fusion.Fetch | h5darkframes/fuse_libraries.py:60-65 | the exact retrieval in the fusion loop can fail only with KeyError (a missing controllable); FetchStored states that a tuple without an image comes back as None |
| Fusion.FetchStored | h5darkframes/fuse_libraries.py:60-65 | fetching a tuple by its own named controls gives what is stored there |
| Fusion.FirstLeaf | h5darkframes/fuse_libraries.py:50-71 | the first copy of a key: none iff no copy has the key, else a copy with that key and image |
| Fusion.FirstLeafConcat | h5darkframes/fuse_libraries.py:50-71 | the first copy in two runs comes from the first run if it has one |
| Fusion.InsertAllLookup | h5darkframes/fuse_libraries.py:50-71 | inserting copies one by one through `_add` keeps a library tree; each tuple keeps an existing image and otherwise gets its first copy |
| Fusion.OpenAll | h5darkframes/fuse_libraries.py:98 | opening every source succeeds iff each file opens, giving those libraries in order; otherwise the error of the first file that fails |
| Fusion.ControllableSets | h5darkframes/fuse_libraries.py:103 | one set of controllables per source |
| Fusion.FirstMismatch | h5darkframes/fuse_libraries.py:104-109 | the first adjacent pair of different sets: none iff all adjacent pairs agree |
| Fusion.Provenance | h5darkframes/fuse_libraries.py:116 | the corrected provenance: one range entry per source, in order |
| Fusion.FuseLibraries | h5darkframes/fuse_libraries.py:75-117 | an existing target is refused; a source that fails to open stops the fusion with its error; otherwise the result is the fusion of the opened sources |
| Fusion.FuseOpened | h5darkframes/fuse_libraries.py:100-117 | a fused library has at least one source, the given name and one provenance entry per source |
| Fusion.FuseRefusals | h5darkframes/fuse_libraries.py:100-113 | no source is IndexError; the fusion succeeds iff all adjacent sets agree; otherwise it fails at the first differing pair, before anything is written |
| Fusion.AllEntriesSucceed | h5darkframes/fuse_libraries.py:50-65 | when all sources have the same controllables, collecting the copies cannot fail |
| Fusion.LibEntries | h5darkframes/fuse_libraries.py:50-71 | every copy one source offers has a key of the target's length |
| Fusion.AllEntries | h5darkframes/fuse_libraries.py:50-71 | every copy the fusion loop collects has a key of the target's length |
| Fusion.InsertAll | h5darkframes/fuse_libraries.py:50-71 | inserting copies through `_add` never replaces an image the target already holds |
| Fusion.LibEntriesAreCopies | h5darkframes/fuse_libraries.py:52-65 | the copies one source offers are its stored tuples, re-ordered, with their images |
| Fusion.CopiesNone | h5darkframes/fuse_libraries.py:52-65 | a source offers a copy of a key iff one of its stored tuples re-orders to it |
| Fusion.CopiesFirstAt | h5darkframes/fuse_libraries.py:52-65 | the first copy of a key a source offers carries the image of the tuple that re-orders to it |
| Fusion.AllEntriesAreCopies | h5darkframes/fuse_libraries.py:50-65 | the fusion loop's copies are the copies of every source, in the order given |
| Fusion.AllNone | h5darkframes/fuse_libraries.py:50-71 | the copies of all sources hold a key iff some source offers it |
| Fusion.AllFirstAt | h5darkframes/fuse_libraries.py:50-71 | the first copy of a key comes from the first source offering it |
| Fusion.InsertAllWellFormed | h5darkframes/fuse_libraries.py:67 | inserting copies keeps names unique at every level |
| Fusion.FusedRoot | h5darkframes/fuse_libraries.py:113-115 | a fusion that went through inserts into an empty target exactly the copies the loop collected, in the first source's controllable order |
| Fusion.FusedIsCopies | h5darkframes/fuse_libraries.py:50-71 | the target's tree is the insertion of all the sources' copies |
| Fusion.FusedKeys | tests/test_fusing.py:52-84 | the target is a library tree, and holds a tuple iff some source holds that tuple (re-ordered): every source key arrives and nothing else |
| Fusion.FirstSourceWins | tests/test_fusing.py:103-116 | on a tuple several sources hold, the target has the image of the first source listed |
| Fusion.FusedReopens | h5darkframes/fuse_libraries.py:116-117 | with the corrected provenance the target keeps names unique, records one entry per source and, when the first source was not itself fused, reopens with its controllables and the given name |
| Fusion.FusedOpens | h5darkframes/fuse_libraries.py:100-117 | with the corrected provenance, when the first source is a library tree that was not itself fused, the target of a fusion over at least one controllable opens |
| Fusion.ProvenanceAsWritten | h5darkframes/fuse_libraries.py:116 | as written, each source contributes its list of named tuples instead of its ranges |
| Fusion.FuseOpenedAsWritten | h5darkframes/fuse_libraries.py:100-117 | the as-written fusion succeeds exactly when the corrected one does, with the same tree and name |
| Fusion.AsWrittenCannotReopen | h5darkframes/fuse_libraries.py:116 | as written, opening the fused library fails with AttributeError |

## Left out

- `average_neighbors` (h5darkframes/neighbors.py:70-116): floating-point pixel averaging of numpy arrays. `get` in neighbours mode returns the neighbour tuples (`Average`) instead of their averaged image.
- The `get_image` module is not part of this model. Closest retrieval is modelled as the greedy descent described above, which agrees with every closest example of the library tests.
- HDF5 I/O: opening and closing files, context managers, the file-existence and parent-folder checks of `fuse_libraries` (FileNotFoundError), and `repr`/`eval` of the `controls`, `name` and `camera_config` attributes. Attributes enter already evaluated, and the target's existence enters as a boolean.
- `_distance` (neighbors.py:18-19) takes a square root; the model compares squared distances, which on exact reals orders parameters as the distances do, since the square root is monotone.
- Neighbors.NpGetNeighbors: stated only for stored tuples within the library's bounds, which the observed bounds of an opened library guarantee (ImageLibrary.ValidWithin); outside them nan and numeric keys would mix, and the order Python's sort then gives is not modelled.
- Floats are modelled as exact reals; ties made or broken by rounding (of the rescaling or of `math.sqrt`) are not modelled.
- Names in draft code that are not defined are modelled as what they evidently call: `get_type` and `GetType.neighnors` (image_library.py:18, 136-151), `group_exists` (h5.py:80, meaning `get_group`), `create_library._get_group` (fuse_libraries.py:32, meaning `h5.get_group` on the values of `control_`), `lib.configs()` (fuse_libraries.py:52, meaning `params()`), the missing `gettype` of `lib.get` (fuse_libraries.py:61, an exact retrieval), `_iterate_ints` (iteration.py:23, meaning `iterate_ints`), and `ParamImage` (h5.py:93, not imported; meaning a tuple with its image and configuration).
- `target_values=Param` (neighbors.py:34) gives `get_neighbors` a default value where a type annotation was meant; the model always passes a target.
- `self._h5` (image_library.py:138, 142) and `self._h5file` (image_library.py:145) are undefined; the opened file is `self._hdf5_file` (image_library.py:81), and both are modelled as the library's root group.
- `get_neighbors(self._h5file, values)` (image_library.py:145) does not match the signature of `get_neighbors` (neighbors.py:30-35) and would raise TypeError; it is modelled as `GetNeighbors(params, mins, maxs, values)`, the library's tuples and bounds with the target.
- `ImageNotFoundError`: fuse_libraries.py:13 imports it from `image_library`, which neither defines nor imports it, so that import fails; `get_image.py` (imported at image_library.py:11) is not part of this model. It is modelled as the `ImageNotFound` error.
- `copy` (h5.py:27) and `Params` (h5.py:10) are not imported in h5.py; they are modelled as `copy.deepcopy` of a list and a list of tuples.
- ImageLibrary.OpenAsWritten: with exactly one stored tuple, `min(axis=0)` returns that tuple's mapping and the bounds become its key names; the model returns the mappings and does not build a library from them.
- A fusion that raises half-way leaves a partly written target. The model refuses before writing, which is where the controllable check stands. The only later error would be KeyError from a source, and FuseRefusals shows it cannot occur once the sets agree.
- Fusion.FusedKeys and Fusion.FirstSourceWins: stated only for libraries with at least one controllable, since a depth-0 tree has a single path.
- Fusion.FusedReopens: states how the target reopens only when the first source's ranges are an ordered map; fusing an already fused library (a list of lists) is left out.
- Fusion.FusedOpens: states that the target opens only when the first source is a library tree with at least one controllable and an ordered map of ranges.
- Fusion.FusedIsCopies: needs every source's controllables to be distinct names, which holds for the keys of a Python map.
- ControlRanges.NewRange: min and max are integers by type, so the ValueError for non-integer bounds (control_range.py:41-44) cannot arise; `threshold` and `timeout` are stored but used only by the camera code, which is out of scope.
- `ControlRange.__repr__` / `to_dict`, logging and progress reporting: formatting only.
- Pixel data is an opaque `seq<int>`; dtype and shape are not modelled.

## Findings

| source | as written | input that shows it | evidently intended | confidence | as-written member | corrected member |
|---|---|---|---|---|---|---|
| h5darkframes/h5.py:113-115 | the configuration, written as an attribute of the group (h5.py:86), is read as a member (`group["camera_config"]`), which raises KeyError, so `rm` returns None before deleting anything | a library holding one image at (1,): `rm((1,))` returns None and (1,) stays listed | read the attribute, delete the image and return (param, image, config) | not executed | H5.RmAsWrittenCounterexample | H5.RmParams |
| h5darkframes/h5.py:120-123 | the loop meant to prune emptied groups only unbinds the loop variable (`del group`), so no group is ever removed and the path stays | with the configuration read repaired, a library holding one image at (1,): after `rm((1,))`, `get_params` still lists (1,) | emptied groups are unlinked, so the removed tuple is no longer listed (as the library tests expect after `rm`) | not executed | H5.RmUnprunedCounterexample | H5.RmParams |
| h5darkframes/h5.py:85 | `create_dataset("image")` raises ValueError when the group already holds an image, which is exactly when `overwrite` matters | one image at (1,): `add((1,), img, config, True)` raises | with overwrite the stored image is replaced | not executed | H5.AddAsWrittenCounterexample | H5.AddParams |
| h5darkframes/image_library.py:90-97 | `_params` holds one mapping per tuple, and `np.array(...).min(axis=0)` over two or more mappings compares dicts, which raises TypeError | a library holding images at exposure 0 and 5 cannot be opened | parameters kept as tuples (types.py:31), with per-axis bounds | not executed | ImageLibrary.OpenAsWrittenCounterexample | ImageLibrary.OpenFacts |
| h5darkframes/fuse_libraries.py:116 | the target's `controls` attribute records `[lib.params() for lib in libs]`, lists of named tuples, where `_get_controllables` expects range maps | any successful fusion: reopening the target evaluates `ranges[0].keys()` on a list and raises AttributeError | record each source's ranges, so the fused file reopens with the first source's controllables | not executed | Fusion.AsWrittenCannotReopen | Fusion.FusedReopens |

=== FILE: control_range.dfy ===
/** The range of values one camera control is swept over when a library is
    built (h5darkframes/control_range.py). */
module ControlRanges {
  import opened Outcomes

  /** `ControlRange(min, max, step, threshold, timeout)`; the timeout is a
      duration in seconds. */
  datatype ControlRange = ControlRange(min: int, max: int, step: int, threshold: int, timeout: real)

  /** The constructor with its defaults: a threshold of 0 and a timeout of
      a tenth of a second. */
  function NewRange(min: int, max: int, step: int, threshold: int := 0, timeout: real := 0.1): (r: ControlRange)
    ensures r.min == min && r.max == max && r.step == step
    ensures r.threshold == threshold && r.timeout == timeout
  {
    ControlRange(min, max, step, threshold, timeout)
  }

  // ---------------------------------------------------------------------
  // Python's range(start, stop, step)

  /** The values of an increasing range: from `start` by `step`, all below
      `stop`. */
  function Up(start: int, stop: int, step: int): (r: seq<int>)
    requires step > 0
    ensures r == [] <==> start >= stop
    ensures r != [] ==> r[0] == start
    ensures forall x :: x in r ==> start <= x < stop
    ensures forall i :: 0 < i < |r| ==> r[i] == r[i - 1] + step
    ensures forall i, j :: 0 <= i < j < |r| ==> r[i] < r[j]
    decreases stop - start
  {
    if start >= stop then []
    else
      var rest := Up(start + step, stop, step);
      assert forall i :: 1 < i < |rest| + 1 ==> ([start] + rest)[i] == rest[i - 1];
      [start] + rest
  }

  /** The values of a decreasing range: from `start` by `step`, all above
      `stop`. */
  function Down(start: int, stop: int, step: int): (r: seq<int>)
    requires step < 0
    ensures r == [] <==> start <= stop
    ensures r != [] ==> r[0] == start
    ensures forall x :: x in r ==> stop < x <= start
    ensures forall i :: 0 < i < |r| ==> r[i] == r[i - 1] + step
    decreases start - stop
  {
    if start <= stop then []
    else
      var rest := Down(start + step, stop, step);
      assert forall i :: 1 < i < |rest| + 1 ==> ([start] + rest)[i] == rest[i - 1];
      [start] + rest
  }

  /** `list(range(start, stop, step))`; a zero step raises ValueError. */
  function PyRange(start: int, stop: int, step: int): (r: Result<seq<int>>)
    ensures r.Failure? <==> step == 0
    ensures r.Failure? ==> r.error == ValueError
  {
    if step == 0 then Failure(ValueError)
    else if step > 0 then Success(Up(start, stop, step))
    else Success(Down(start, stop, step))
  }

  /** `get_values`: `range(min, max + 1, step)`, so `max` is included when
      the steps land on it. */
  function GetValues(cr: ControlRange): (r: Result<seq<int>>)
    ensures r.Failure? <==> cr.step == 0
    ensures r.Failure? ==> r.error == ValueError
    ensures r.Success? && cr.step > 0 ==>
      && (r.value == [] <==> cr.min > cr.max)
      && (forall x :: x in r.value ==> cr.min <= x <= cr.max)
      && (forall i :: 0 < i < |r.value| ==> r.value[i] == r.value[i - 1] + cr.step)
      && (forall i, j :: 0 <= i < j < |r.value| ==> r.value[i] < r.value[j])
    ensures r.Success? && cr.step < 0 ==>
      && (r.value == [] <==> cr.min <= cr.max + 1)
      && (forall x :: x in r.value ==> cr.max + 1 < x <= cr.min)
  {
    PyRange(cr.min, cr.max + 1, cr.step)
  }

  // ---------------------------------------------------------------------
  // The closed form of an increasing range

  /** The number of values of an increasing range. */
  function Count(start: int, stop: int, step: int): nat
    requires step > 0
  {
    if start >= stop then 0 else (stop - start - 1) / step + 1
  }

  lemma MulAtLeast(d: int, t: int)
    requires d > 0 && t >= 1
    ensures d * t >= d
    decreases t
  {
    if t > 1 {
      MulAtLeast(d, t - 1);
      assert d * t == d * (t - 1) + d;
    }
  }

  lemma QuotientGap(d: int, q: int, q': int)
    requires d > 0 && q > q'
    ensures d * q - d * q' >= d
  {
    MulAtLeast(d, q - q');
    assert d * (q - q') == d * q - d * q';
  }

  /** Euclidean division has one quotient and one remainder. */
  lemma DivUnique(x: int, d: int, q: int, m: int)
    requires d > 0 && x == d * q + m && 0 <= m < d
    ensures x / d == q && x % d == m
  {
    var q', m' := x / d, x % d;
    assert x == d * q' + m' && 0 <= m' < d;
    if q > q' {
      QuotientGap(d, q, q');
      assert false;
    } else if q < q' {
      QuotientGap(d, q', q);
      assert false;
    }
  }

  lemma DivStep(x: int, step: int)
    requires step > 0 && x >= step
    ensures (x - step) / step == x / step - 1
  {
    var q, m := x / step, x % step;
    assert x == step * q + m && 0 <= m < step;
    assert x - step == step * (q - 1) + m;
    DivUnique(x - step, step, q - 1, m);
  }

  lemma ScaleStep(k: int, step: int)
    ensures step + k * step == (k + 1) * step
  {
  }

  /** Element `k` of an increasing range is `start + k * step`, and there
      are `Count` of them. */
  lemma {:induction false} UpExact(start: int, stop: int, step: int)
    requires step > 0
    ensures |Up(start, stop, step)| == Count(start, stop, step)
    ensures forall k :: 0 <= k < |Up(start, stop, step)| ==> Up(start, stop, step)[k] == start + k * step
    decreases stop - start
  {
    if start < stop {
      var rest := Up(start + step, stop, step);
      UpExact(start + step, stop, step);
      UpStep(start, stop, step, rest);
    }
  }

  lemma UpStep(start: int, stop: int, step: int, rest: seq<int>)
    requires step > 0 && start < stop && rest == Up(start + step, stop, step)
    requires |rest| == Count(start + step, stop, step)
    requires forall k :: 0 <= k < |rest| ==> rest[k] == start + step + k * step
    ensures |Up(start, stop, step)| == Count(start, stop, step)
    ensures forall k :: 0 <= k < |Up(start, stop, step)| ==> Up(start, stop, step)[k] == start + k * step
  {
    var r := Up(start, stop, step);
    assert r == [start] + rest;
    CountStep(start, stop, step);
    forall k | 0 < k < |r| ensures r[k] == start + k * step {
      assert r[k] == rest[k - 1];
      ScaleStep(k - 1, step);
    }
  }

  /** One step from the start leaves one value fewer. */
  lemma CountStep(start: int, stop: int, step: int)
    requires step > 0 && start < stop
    ensures Count(start, stop, step) == Count(start + step, stop, step) + 1
  {
    var x := stop - start - 1;
    if start + step < stop {
      DivStep(x, step);
    } else {
      DivUnique(x, step, 0, x);
    }
  }

  /** With a positive step, `get_values` is exactly `min, min + step, …`
      for as long as the values stay at most `max`. */
  lemma ValuesExact(cr: ControlRange)
    requires cr.step > 0
    ensures GetValues(cr).Success?
    ensures |GetValues(cr).value| == if cr.min > cr.max then 0 else (cr.max - cr.min) / cr.step + 1
    ensures forall k :: 0 <= k < |GetValues(cr).value| ==> GetValues(cr).value[k] == cr.min + k * cr.step
  {
    UpExact(cr.min, cr.max + 1, cr.step);
  }

  /** `max` is one of the values exactly when it is reached from `min` in
      whole steps: it is a ceiling, not a promise. */
  lemma MaxIncluded(cr: ControlRange)
    requires cr.step > 0
    ensures cr.max in GetValues(cr).value <==> cr.min <= cr.max && (cr.max - cr.min) % cr.step == 0
  {
    var v := GetValues(cr).value;
    ValuesExact(cr);
    if cr.max in v {
      var k :| 0 <= k < |v| && v[k] == cr.max;
      assert cr.max - cr.min == k * cr.step;
      MultipleMod(k, cr.step);
    }
    if cr.min <= cr.max && (cr.max - cr.min) % cr.step == 0 {
      var k := (cr.max - cr.min) / cr.step;
      assert cr.max - cr.min == cr.step * k + (cr.max - cr.min) % cr.step;
      assert v[k] == cr.max;
    }
  }

  lemma MultipleMod(k: int, step: int)
    requires step > 0
    ensures (k * step) % step == 0
  {
    DivUnique(k * step, step, k, 0);
  }

  /** The three ranges of the library tests. */
  lemma ValuesExamples()
    ensures GetValues(NewRange(0, 10, 5)) == Success([0, 5, 10])
    ensures GetValues(NewRange(0, 3, 1)) == Success([0, 1, 2, 3])
    ensures GetValues(NewRange(0, 15, 3)) == Success([0, 3, 6, 9, 12, 15])
  {
    var a, b, c := NewRange(0, 10, 5), NewRange(0, 3, 1), NewRange(0, 15, 3);
    ValuesExact(a);
    ValuesExact(b);
    ValuesExact(c);
    var va, vb, vc := GetValues(a).value, GetValues(b).value, GetValues(c).value;
    assert |va| == 3 && |vb| == 4 && |vc| == 6;
    assert va[0] == 0 && va[1] == 5 && va[2] == 10;
    assert vb[0] == 0 && vb[1] == 1 && vb[2] == 2 && vb[3] == 3;
    assert vc[0] == 0 && vc[1] == 3 && vc[2] == 6 && vc[3] == 9 && vc[4] == 12 && vc[5] == 15;
    assert va == [0, 5, 10] && vb == [0, 1, 2, 3] && vc == [0, 3, 6, 9, 12, 15];
  }
}

=== FILE: fusion.dfy ===
/** Fusing several darkframe libraries into a new one
    (h5darkframes/fuse_libraries.py): every image of every source is
    copied into the target under its tuple re-ordered into the first
    source's controllable order; on a tuple several sources hold, the
    first source listed wins. */
module Fusion {
  import opened Outcomes
  import opened Tuples
  import opened Groups
  import opened H5
  import opened ImageLibrary

  // ---------------------------------------------------------------------
  // _add

  /** `_add`: creates the group of `key` and writes the image and its
      configuration there, unless the group already existed, in which case
      nothing changes. */
  function AddNew(g: Group, key: Param, leaf: Leaf): (r: Added)
    ensures r.added <==> Sub(g, key).None?
    ensures r.added ==> Lookup(r.root, key) == Some(leaf)
    ensures !r.added ==> r.root == g
    ensures forall q :: q != key ==> Lookup(r.root, q) == Lookup(g, q)
  {
    Add(g, key, leaf.image, leaf.config, false)
  }

  /** In a library tree, a tuple of full length is written iff it holds no
      image yet, and the tree stays a library tree. */
  lemma AddNewStored(g: Group, n: nat, key: Param, leaf: Leaf)
    requires Stored(g, n) && |key| == n
    ensures Stored(AddNew(g, key, leaf).root, n)
    ensures AddNew(g, key, leaf).added <==> Lookup(g, key).None?
    ensures Lookup(AddNew(g, key, leaf).root, key) == if Lookup(g, key).None? then Some(leaf) else Lookup(g, key)
  {
    AddParams(g, n, key, leaf.image, leaf.config, false);
    if Sub(g, key).Some? {
      ShapedPathHasImage(g, n, key);
    }
  }

  // ---------------------------------------------------------------------
  // Re-ordering a tuple into the first source's controllable order

  /** The tuple `p` of a source with controllables `cs`, as the fusion
      re-orders it: named by `cs`, then read in the order of `params`. A
      name of `params` the source lacks is KeyError. */
  function Reorder(cs: seq<string>, p: Param, params: seq<string>): (r: Result<Param>)
    requires |p| == |cs|
    ensures r.Success? <==> forall j :: 0 <= j < |params| ==> params[j] in NameSet(cs)
    ensures r.Success? ==> |r.value| == |params|
    ensures r.Failure? ==> r.error == KeyError
  {
    Values(Named(cs, p), params)
  }

  /** The component named `params[j]` is the source's component of that
      name. */
  lemma ReorderAt(cs: seq<string>, p: Param, params: seq<string>, i: int, j: int)
    requires |p| == |cs| && UniqueNames(cs) && Reorder(cs, p, params).Success?
    requires 0 <= i < |cs| && 0 <= j < |params| && params[j] == cs[i]
    ensures Reorder(cs, p, params).value[j] == p[i]
  {
    NamedAt(cs, p, i);
  }

  /** Between two orders of the same names, re-ordering there and back
      gives the tuple again. */
  lemma ReorderRoundTrip(cs: seq<string>, p: Param, params: seq<string>)
    requires |p| == |cs| && UniqueNames(cs) && UniqueNames(params) && NameSet(cs) == NameSet(params)
    ensures Reorder(cs, p, params).Success?
    ensures Reorder(params, Reorder(cs, p, params).value, cs) == Success(p)
  {
    assert forall j :: 0 <= j < |params| ==> params[j] in NameSet(params);
    var q := Reorder(cs, p, params).value;
    var m := Named(params, q);
    forall i | 0 <= i < |cs| ensures cs[i] in m && m[cs[i]] == p[i] {
      ReorderBack(cs, p, params, i);
    }
    var r := Values(m, cs);
    assert r.Success?;
    assert r.value == p;
  }

  /** The re-ordered tuple, named by `params`, gives each name of `cs`
      its component in `p`. */
  lemma ReorderBack(cs: seq<string>, p: Param, params: seq<string>, i: int)
    requires |p| == |cs| && UniqueNames(cs) && UniqueNames(params) && NameSet(cs) == NameSet(params)
    requires 0 <= i < |cs|
    requires Reorder(cs, p, params).Success?
    ensures var m := Named(params, Reorder(cs, p, params).value);
      cs[i] in m && m[cs[i]] == p[i]
  {
    var q := Reorder(cs, p, params).value;
    assert cs[i] in NameSet(cs);
    var j :| 0 <= j < |params| && params[j] == cs[i];
    NamedAt(params, q, j);
    ReorderAt(cs, p, params, i, j);
  }

  /** Different tuples of a source stay different once re-ordered. */
  lemma ReorderInjective(cs: seq<string>, p1: Param, p2: Param, params: seq<string>)
    requires |p1| == |cs| && |p2| == |cs|
    requires UniqueNames(cs) && UniqueNames(params) && NameSet(cs) == NameSet(params)
    requires Reorder(cs, p1, params) == Reorder(cs, p2, params)
    ensures p1 == p2
  {
    ReorderRoundTrip(cs, p1, params);
    ReorderRoundTrip(cs, p2, params);
  }

  // ---------------------------------------------------------------------
  // _fuse_libraries

  /** `lib.get(control_)` in the fusion loop, an exact retrieval: the image
      and configuration stored, or nothing when ImageNotFound is caught. */
  function Fetch(lib: Library, control: map<string, int>): (r: Result<Option<Leaf>>)
    requires Valid(lib)
    ensures r.Failure? ==> r.error == KeyError
  {
    match Get(lib, control, Exact)
    case Success(got) => Success(Some(got.leaf))
    case Failure(e) => if e == ImageNotFound then Success(None) else Failure(e)
  }

  /** Fetching a stored tuple, named by the source's own controllables,
      gives what is stored there. */
  lemma FetchStored(lib: Library, p: Param)
    requires Valid(lib) && UniqueNames(lib.controllables) && |p| == |lib.controllables|
    ensures Fetch(lib, Named(lib.controllables, p)) == Success(Lookup(lib.root, p))
  {
    NamedRoundTrip(lib.controllables, p);
    GetExact(lib, Named(lib.controllables, p));
  }

  /** One copy the fusion makes: a re-ordered tuple and its image. */
  datatype Entry = Entry(key: Param, leaf: Leaf)

  /** The copies one source offers, in its walk order: each tuple is
      re-ordered into `params`, then its image fetched; a tuple without an
      image is skipped. */
  function LibEntries(lib: Library, ps: seq<Param>, params: seq<string>): (r: Result<seq<Entry>>)
    requires Valid(lib) && forall k :: 0 <= k < |ps| ==> |ps[k]| == |lib.controllables|
    ensures r.Success? ==> forall e :: e in r.value ==> |e.key| == |params|
    decreases |ps|
  {
    if ps == [] then Success([])
    else
      var control := Named(lib.controllables, ps[0]);
      var key :- Reorder(lib.controllables, ps[0], params);
      var got :- Fetch(lib, control);
      var rest :- LibEntries(lib, ps[1..], params);
      if got.Some? then Success([Entry(key, got.value)] + rest) else Success(rest)
  }

  predicate AllValid(libs: seq<Library>)
  {
    forall i :: 0 <= i < |libs| ==> Valid(libs[i])
  }

  /** The copies of all sources, source by source in the order given. */
  function AllEntries(libs: seq<Library>, params: seq<string>): (r: Result<seq<Entry>>)
    requires AllValid(libs)
    ensures r.Success? ==> forall e :: e in r.value ==> |e.key| == |params|
    decreases |libs|
  {
    if libs == [] then Success([])
    else
      var lib := libs[0];
      assert forall k :: 0 <= k < |lib.params| ==> lib.params[k] in Walk(lib.root, |lib.controllables|);
      var first :- LibEntries(lib, lib.params, params);
      var rest :- AllEntries(libs[1..], params);
      Success(first + rest)
  }

  /** Every copy in turn, through `_add`: an image already in the target
      is never replaced. */
  function InsertAll(g: Group, es: seq<Entry>): (r: Group)
    ensures forall q :: Lookup(g, q).Some? ==> Lookup(r, q) == Lookup(g, q)
    decreases |es|
  {
    if es == [] then g else InsertAll(AddNew(g, es[0].key, es[0].leaf).root, es[1..])
  }

  /** The image of the first copy of `q`, if any: the reference the
      fused target is measured against. */
  function FirstLeaf(es: seq<Entry>, q: Param): (r: Option<Leaf>)
    ensures r.None? <==> forall k :: 0 <= k < |es| ==> es[k].key != q
    ensures r.Some? ==> exists k :: 0 <= k < |es| && es[k] == Entry(q, r.value)
    decreases |es|
  {
    if es == [] then None
    else if es[0].key == q then Some(es[0].leaf)
    else
      assert forall k :: 1 <= k < |es| ==> es[k] == es[1..][k - 1];
      FirstLeaf(es[1..], q)
  }

  lemma {:induction false} FirstLeafConcat(a: seq<Entry>, b: seq<Entry>, q: Param)
    ensures FirstLeaf(a + b, q) == if FirstLeaf(a, q).Some? then FirstLeaf(a, q) else FirstLeaf(b, q)
    decreases |a|
  {
    if a == [] {
      assert a + b == b;
    } else {
      assert (a + b)[0] == a[0] && (a + b)[1..] == a[1..] + b;
      FirstLeafConcat(a[1..], b, q);
    }
  }

  /** Inserting copies into a library tree keeps it one, and each tuple
      ends up with what it held, or else with its first copy: the first
      writer wins. */
  lemma {:induction false} InsertAllLookup(g: Group, n: nat, es: seq<Entry>, q: Param)
    requires Stored(g, n) && forall k :: 0 <= k < |es| ==> |es[k].key| == n
    ensures Stored(InsertAll(g, es), n)
    ensures Lookup(InsertAll(g, es), q) == if Lookup(g, q).Some? then Lookup(g, q) else FirstLeaf(es, q)
    decreases |es|
  {
    if es != [] {
      var e := es[0];
      var g' := AddNew(g, e.key, e.leaf).root;
      AddNewStored(g, n, e.key, e.leaf);
      InsertAllLookup(g', n, es[1..], q);
    }
  }

  // ---------------------------------------------------------------------
  // fuse_libraries

  /** A library file as it is opened: its root group and its `controls`
      and `name` attributes, if present. */
  datatype LibraryFile = LibraryFile(root: Group, controls: Option<Ranges>, name: Option<string>)

  /** The files are containers whose group names are unique per level. */
  predicate Readable(files: seq<LibraryFile>)
  {
    forall i :: 0 <= i < |files| ==> WellFormed(files[i].root)
  }

  function OpenFile(f: LibraryFile): Result<Library>
    requires WellFormed(f.root)
  {
    Open(f.root, f.controls, f.name)
  }

  /** `[ImageLibrary(l_) for l_ in libraries]`: the first file that fails
      to open raises its error. */
  function OpenAll(files: seq<LibraryFile>): (r: Result<seq<Library>>)
    requires Readable(files)
    ensures r.Success? <==> forall i :: 0 <= i < |files| ==> OpenFile(files[i]).Success?
    ensures r.Success? ==> |r.value| == |files| && forall i :: 0 <= i < |files| ==> r.value[i] == OpenFile(files[i]).value
    ensures r.Success? ==> AllValid(r.value)
    ensures r.Failure? ==> exists i :: FirstFailure(files, i) && r.error == OpenFile(files[i]).error
  {
    var i := FirstFailing(files);
    if i == |files| then
      Success(seq(|files|, i requires 0 <= i < |files| => OpenFile(files[i]).value))
    else
      assert FirstFailure(files, i);
      Failure(OpenFile(files[i]).error)
  }

  /** The position of the first file that fails to open, or the number of
      files when all open. */
  function FirstFailing(files: seq<LibraryFile>): (i: nat)
    requires Readable(files)
    ensures i <= |files|
    ensures i < |files| ==> OpenFile(files[i]).Failure?
    ensures forall j :: 0 <= j < i ==> OpenFile(files[j]).Success?
    decreases |files|
  {
    if files == [] then 0
    else if OpenFile(files[0]).Failure? then 0
    else
      assert forall j :: 1 <= j < |files| ==> files[j] == files[1..][j - 1];
      1 + FirstFailing(files[1..])
  }

  /** `files[i]` is the first file that fails to open. */
  predicate FirstFailure(files: seq<LibraryFile>, i: int)
    requires Readable(files)
  {
    && 0 <= i < |files| && OpenFile(files[i]).Failure?
    && forall j :: 0 <= j < i ==> OpenFile(files[j]).Success?
  }

  /** `[set(lib.controllables()) for lib in libs]`. */
  function ControllableSets(libs: seq<Library>): (r: seq<set<string>>)
    ensures |r| == |libs| && forall i :: 0 <= i < |libs| ==> r[i] == NameSet(libs[i].controllables)
  {
    seq(|libs|, i requires 0 <= i < |libs| => NameSet(libs[i].controllables))
  }

  /** The first adjacent pair of different sets, by the index of its first
      member. */
  function FirstMismatch(sets: seq<set<string>>): (r: Option<nat>)
    ensures r.None? <==> forall i :: 0 <= i < |sets| - 1 ==> sets[i] == sets[i + 1]
    ensures r.Some? ==> r.value + 1 < |sets| && sets[r.value] != sets[r.value + 1]
    ensures r.Some? ==> forall i :: 0 <= i < r.value ==> sets[i] == sets[i + 1]
    decreases |sets|
  {
    if |sets| < 2 then None
    else if sets[0] != sets[1] then Some(0)
    else
      assert forall i :: 1 <= i < |sets| ==> sets[i] == sets[1..][i - 1];
      match FirstMismatch(sets[1..])
      case None => None
      case Some(i) => Some(i + 1)
  }

  /** What the target records about its sources: one entry per source,
      the ranges that source was built from. */
  function Provenance(libs: seq<Library>): (r: Ranges)
    ensures r.Listed? && |r.parts| == |libs|
    ensures forall i :: 0 <= i < |libs| ==> r.parts[i] == libs[i].ranges
  {
    Listed(seq(|libs|, i requires 0 <= i < |libs| => libs[i].ranges))
  }

  /** `fuse_libraries(name, target, libraries)`: an existing target is
      refused, then the sources are opened and fused. */
  function FuseLibraries(name: string, targetExists: bool, files: seq<LibraryFile>): (r: Result<LibraryFile>)
    requires Readable(files)
    ensures targetExists ==> r == Failure(TargetExists)
    ensures !targetExists && OpenAll(files).Failure? ==> r == Failure(OpenAll(files).error)
    ensures !targetExists && OpenAll(files).Success? ==> r == FuseOpened(name, OpenAll(files).value)
  {
    if targetExists then Failure(TargetExists)
    else
      var libs :- OpenAll(files);
      FuseOpened(name, libs)
  }

  /** The fusion of the opened sources: adjacent sources on different
      controllables are refused before anything is written; with no
      source there is no first one to take the controllables from; the
      target records where its images came from and carries the name. */
  function FuseOpened(name: string, libs: seq<Library>): (r: Result<LibraryFile>)
    requires AllValid(libs)
    ensures r.Success? ==> libs != [] && r.value.name == Some(name) && r.value.controls == Some(Provenance(libs))
  {
    match FirstMismatch(ControllableSets(libs))
    case Some(i) => Failure(Mismatch(i))
    case None =>
      if libs == [] then Failure(IndexError)
      else
        var es :- AllEntries(libs, libs[0].controllables);
        Success(LibraryFile(InsertAll(EmptyGroup, es), Some(Provenance(libs)), Some(name)))
  }

  // ---------------------------------------------------------------------
  // What a fusion that passed its checks produces

  /** Adjacent sets agreeing makes them all agree with the first. */
  lemma {:induction false} ChainedEqual(sets: seq<set<string>>, i: int)
    requires forall j :: 0 <= j < |sets| - 1 ==> sets[j] == sets[j + 1]
    requires 0 <= i < |sets|
    ensures sets[i] == sets[0]
    decreases i
  {
    if i > 0 {
      ChainedEqual(sets, i - 1);
    }
  }

  /** The fetch inside the loop cannot raise: the mapping it gets has every
      controllable of the source. */
  lemma FetchNamed(lib: Library, p: Param)
    requires Valid(lib) && |p| == |lib.controllables|
    ensures Fetch(lib, Named(lib.controllables, p)).Success?
  {
    NamedValues(lib.controllables, p);
    GetExact(lib, Named(lib.controllables, p));
  }

  lemma {:induction false} LibEntriesSucceed(lib: Library, ps: seq<Param>, params: seq<string>)
    requires Valid(lib) && forall k :: 0 <= k < |ps| ==> |ps[k]| == |lib.controllables|
    requires forall j :: 0 <= j < |params| ==> params[j] in NameSet(lib.controllables)
    ensures LibEntries(lib, ps, params).Success?
    decreases |ps|
  {
    if ps != [] {
      FetchNamed(lib, ps[0]);
      LibEntriesSucceed(lib, ps[1..], params);
      LibEntriesStep(lib, ps, params);
    }
  }

  lemma LibEntriesStep(lib: Library, ps: seq<Param>, params: seq<string>)
    requires Valid(lib) && ps != [] && forall k :: 0 <= k < |ps| ==> |ps[k]| == |lib.controllables|
    requires Reorder(lib.controllables, ps[0], params).Success?
    requires Fetch(lib, Named(lib.controllables, ps[0])).Success?
    requires LibEntries(lib, ps[1..], params).Success?
    ensures LibEntries(lib, ps, params).Success?
  {
  }

  lemma AllValidTail(libs: seq<Library>)
    requires AllValid(libs) && libs != []
    ensures Valid(libs[0]) && AllValid(libs[1..])
    ensures forall i :: 1 <= i < |libs| ==> libs[1..][i - 1] == libs[i]
  {
    assert forall i :: 1 <= i < |libs| ==> libs[i] == libs[1..][i - 1];
  }

  /** When every source has the names of `params`, collecting the copies
      raises nothing. */
  lemma {:induction false} AllEntriesSucceed(libs: seq<Library>, params: seq<string>)
    requires AllValid(libs)
    requires forall i :: 0 <= i < |libs| ==> NameSet(libs[i].controllables) == NameSet(params)
    ensures AllEntries(libs, params).Success?
    decreases |libs|
  {
    if libs != [] {
      var lib := libs[0];
      AllValidTail(libs);
      ParamsLength(lib);
      assert forall j :: 0 <= j < |params| ==> params[j] in NameSet(params);
      LibEntriesSucceed(lib, lib.params, params);
      AllEntriesSucceed(libs[1..], params);
    }
  }

  // ---------------------------------------------------------------------
  // The copies, as a reference definition without errors

  /** Every name of `params` is one of `cs`, and every tuple has one
      component per name of `cs`. */
  predicate Covers(cs: seq<string>, ps: seq<Param>, params: seq<string>)
  {
    && (forall k :: 0 <= k < |ps| ==> |ps[k]| == |cs|)
    && (forall j :: 0 <= j < |params| ==> params[j] in NameSet(cs))
  }

  /** The copy one tuple contributes: its image under the re-ordered
      tuple, if it holds one. */
  function Head(cs: seq<string>, root: Group, p: Param, params: seq<string>): (r: seq<Entry>)
    requires |p| == |cs| && forall j :: 0 <= j < |params| ==> params[j] in NameSet(cs)
    ensures FirstLeaf(r, Reorder(cs, p, params).value) == Lookup(root, p)
    ensures forall q :: q != Reorder(cs, p, params).value ==> FirstLeaf(r, q).None?
  {
    if Lookup(root, p).Some? then [Entry(Reorder(cs, p, params).value, Lookup(root, p).value)] else []
  }

  /** The copies of the tuples `ps` of a source. */
  function Copies(cs: seq<string>, root: Group, ps: seq<Param>, params: seq<string>): seq<Entry>
    requires Covers(cs, ps, params)
    decreases |ps|
  {
    if ps == [] then [] else Head(cs, root, ps[0], params) + Copies(cs, root, ps[1..], params)
  }

  /** With unique controllables and every name of `params` present, the
      fusion loop over a source produces exactly its copies. */
  lemma {:induction false} LibEntriesAreCopies(lib: Library, ps: seq<Param>, params: seq<string>)
    requires Valid(lib) && UniqueNames(lib.controllables) && Covers(lib.controllables, ps, params)
    ensures LibEntries(lib, ps, params) == Success(Copies(lib.controllables, lib.root, ps, params))
    decreases |ps|
  {
    if ps != [] {
      var cs := lib.controllables;
      var key := Reorder(cs, ps[0], params);
      assert key.Success?;
      FetchStored(lib, ps[0]);
      LibEntriesAreCopies(lib, ps[1..], params);
      var rest := Copies(cs, lib.root, ps[1..], params);
      var head := Head(cs, lib.root, ps[0], params);
      assert Copies(cs, lib.root, ps, params) == head + rest;
      if Lookup(lib.root, ps[0]).None? {
        assert head + rest == rest;
      }
    }
  }

  /** Tuple `ps[k]` holds an image, and re-ordered it is `q`. */
  predicate Offers(cs: seq<string>, root: Group, ps: seq<Param>, params: seq<string>, k: int, q: Param)
  {
    && 0 <= k < |ps| && |ps[k]| == |cs|
    && Lookup(root, ps[k]).Some?
    && Reorder(cs, ps[k], params) == Success(q)
  }

  lemma OffersTail(cs: seq<string>, root: Group, ps: seq<Param>, params: seq<string>, k: int, q: Param)
    requires ps != [] && 0 <= k < |ps| - 1
    ensures Offers(cs, root, ps[1..], params, k, q) <==> Offers(cs, root, ps, params, k + 1, q)
  {
    assert ps[1..][k] == ps[k + 1];
  }

  /** A source's copies hold a copy of `q` iff one of its tuples offers
      it. */
  lemma {:induction false} CopiesNone(cs: seq<string>, root: Group, ps: seq<Param>, params: seq<string>, q: Param)
    requires Covers(cs, ps, params)
    ensures FirstLeaf(Copies(cs, root, ps, params), q).None? <==>
      forall k :: 0 <= k < |ps| ==> !Offers(cs, root, ps, params, k, q)
    decreases |ps|
  {
    if ps != [] {
      var head, rest := Head(cs, root, ps[0], params), Copies(cs, root, ps[1..], params);
      CopiesNone(cs, root, ps[1..], params, q);
      FirstLeafConcat(head, rest, q);
      assert FirstLeaf(head, q).None? <==> !Offers(cs, root, ps, params, 0, q);
      if FirstLeaf(head + rest, q).None? {
        forall k | 0 <= k < |ps| ensures !Offers(cs, root, ps, params, k, q) {
          if k > 0 {
            OffersTail(cs, root, ps, params, k - 1, q);
          }
        }
      } else if FirstLeaf(head, q).None? {
        var k :| 0 <= k < |ps| - 1 && Offers(cs, root, ps[1..], params, k, q);
        OffersTail(cs, root, ps, params, k, q);
      }
    }
  }

  /** The first copy of `q` a source offers carries the image of the one
      tuple that re-orders to `q`. */
  lemma {:induction false} CopiesFirstAt(cs: seq<string>, root: Group, ps: seq<Param>, params: seq<string>, q: Param, k: int)
    requires Covers(cs, ps, params) && UniqueNames(cs) && UniqueNames(params) && NameSet(cs) == NameSet(params)
    requires Offers(cs, root, ps, params, k, q)
    ensures FirstLeaf(Copies(cs, root, ps, params), q) == Lookup(root, ps[k])
    decreases |ps|
  {
    CopiesTail(cs, root, ps, params);
    var head, rest := Head(cs, root, ps[0], params), Copies(cs, root, ps[1..], params);
    FirstLeafConcat(head, rest, q);
    if Offers(cs, root, ps, params, 0, q) {
      ReorderInjective(cs, ps[0], ps[k], params);
    } else {
      assert k != 0 && FirstLeaf(head, q).None?;
      OffersTail(cs, root, ps, params, k - 1, q);
      CopiesFirstAt(cs, root, ps[1..], params, q, k - 1);
    }
  }

  /** The copies of a source are those of its first tuple, then those of
      the others. */
  lemma CopiesTail(cs: seq<string>, root: Group, ps: seq<Param>, params: seq<string>)
    requires Covers(cs, ps, params) && ps != []
    ensures Covers(cs, ps[1..], params)
    ensures Copies(cs, root, ps, params) == Head(cs, root, ps[0], params) + Copies(cs, root, ps[1..], params)
  {
    assert forall k :: 0 <= k < |ps| - 1 ==> ps[1..][k] == ps[k + 1];
  }

  /** The sources' controllables and `params` are the same names, each
      listed once, and every stored tuple has one component per name. */
  predicate Uniform(libs: seq<Library>, params: seq<string>)
  {
    && UniqueNames(params)
    && forall i :: 0 <= i < |libs| ==>
         && UniqueNames(libs[i].controllables)
         && NameSet(libs[i].controllables) == NameSet(params)
         && Covers(libs[i].controllables, libs[i].params, params)
  }

  /** The copies of all sources, source by source. */
  function AllCopies(libs: seq<Library>, params: seq<string>): seq<Entry>
    requires Uniform(libs, params)
    decreases |libs|
  {
    if libs == [] then []
    else
      assert forall i :: 1 <= i < |libs| ==> libs[i] == libs[1..][i - 1];
      Copies(libs[0].controllables, libs[0].root, libs[0].params, params) + AllCopies(libs[1..], params)
  }

  /** The copies of all sources are those of the first source, then those
      of the others. */
  lemma AllCopiesTail(libs: seq<Library>, params: seq<string>)
    requires Uniform(libs, params) && libs != []
    ensures Uniform(libs[1..], params)
    ensures AllCopies(libs, params) ==
      Copies(libs[0].controllables, libs[0].root, libs[0].params, params) + AllCopies(libs[1..], params)
  {
    assert forall i :: 1 <= i < |libs| ==> libs[i] == libs[1..][i - 1];
  }

  /** Every copy is keyed by a tuple in the order of `params`. */
  lemma {:induction false} CopiesKeyLengths(cs: seq<string>, root: Group, ps: seq<Param>, params: seq<string>)
    requires Covers(cs, ps, params)
    ensures forall e :: e in Copies(cs, root, ps, params) ==> |e.key| == |params|
    decreases |ps|
  {
    if ps != [] {
      CopiesKeyLengths(cs, root, ps[1..], params);
    }
  }

  lemma {:induction false} AllCopiesKeyLengths(libs: seq<Library>, params: seq<string>)
    requires Uniform(libs, params)
    ensures forall k :: 0 <= k < |AllCopies(libs, params)| ==> |AllCopies(libs, params)[k].key| == |params|
    decreases |libs|
  {
    if libs != [] {
      var es := AllCopies(libs, params);
      CopiesKeyLengths(libs[0].controllables, libs[0].root, libs[0].params, params);
      assert forall i :: 1 <= i < |libs| ==> libs[i] == libs[1..][i - 1];
      AllCopiesKeyLengths(libs[1..], params);
      assert forall k :: 0 <= k < |es| ==> es[k] in es;
    }
  }

  /** The tuples of a source all have its controllables' length. */
  lemma ParamsLength(lib: Library)
    requires Valid(lib)
    ensures forall k :: 0 <= k < |lib.params| ==> |lib.params[k]| == |lib.controllables|
  {
    assert forall k :: 0 <= k < |lib.params| ==> lib.params[k] in Walk(lib.root, |lib.controllables|);
  }

  lemma {:induction false} AllEntriesAreCopies(libs: seq<Library>, params: seq<string>)
    requires AllValid(libs) && Uniform(libs, params)
    ensures AllEntries(libs, params) == Success(AllCopies(libs, params))
    decreases |libs|
  {
    if libs != [] {
      AllValidTail(libs);
      AllCopiesTail(libs, params);
      LibEntriesAreCopies(libs[0], libs[0].params, params);
      AllEntriesAreCopies(libs[1..], params);
    }
  }

  /** Source `i` offers `q` through its stored tuple number `k`. */
  predicate Contributes(libs: seq<Library>, params: seq<string>, i: int, k: int, q: Param)
  {
    0 <= i < |libs| && Offers(libs[i].controllables, libs[i].root, libs[i].params, params, k, q)
  }

  lemma ContributesTail(libs: seq<Library>, params: seq<string>, i: int, k: int, q: Param)
    requires libs != [] && 0 <= i < |libs| - 1
    ensures Contributes(libs[1..], params, i, k, q) <==> Contributes(libs, params, i + 1, k, q)
  {
    assert libs[1..][i] == libs[i + 1];
  }

  /** No source offers `q` iff the first does not and no other does. */
  lemma ContributesSplit(libs: seq<Library>, params: seq<string>, q: Param)
    requires libs != []
    ensures (forall i, k :: !Contributes(libs, params, i, k, q)) <==>
      && (forall k :: !Offers(libs[0].controllables, libs[0].root, libs[0].params, params, k, q))
      && (forall i, k :: !Contributes(libs[1..], params, i, k, q))
  {
    if forall i, k :: !Contributes(libs, params, i, k, q) {
      forall k ensures !Offers(libs[0].controllables, libs[0].root, libs[0].params, params, k, q) {
        assert !Contributes(libs, params, 0, k, q);
      }
      forall i, k ensures !Contributes(libs[1..], params, i, k, q) {
        if 0 <= i < |libs| - 1 {
          ContributesTail(libs, params, i, k, q);
        }
      }
    }
    if exists i, k :: Contributes(libs, params, i, k, q) {
      var i, k :| Contributes(libs, params, i, k, q);
      if i > 0 {
        ContributesTail(libs, params, i - 1, k, q);
      }
    }
  }

  /** All the copies hold a copy of `q` iff some source offers it. */
  lemma {:induction false} AllNone(libs: seq<Library>, params: seq<string>, q: Param)
    requires Uniform(libs, params)
    ensures FirstLeaf(AllCopies(libs, params), q).None? <==>
      forall i, k :: !Contributes(libs, params, i, k, q)
    decreases |libs|
  {
    if libs != [] {
      var lib := libs[0];
      var first := Copies(lib.controllables, lib.root, lib.params, params);
      AllCopiesTail(libs, params);
      var rest := AllCopies(libs[1..], params);
      CopiesNone(lib.controllables, lib.root, lib.params, params, q);
      AllNone(libs[1..], params, q);
      FirstLeafConcat(first, rest, q);
      ContributesSplit(libs, params, q);
    }
  }

  /** The first copy of `q` comes from the first source that offers it. */
  lemma {:induction false} AllFirstAt(libs: seq<Library>, params: seq<string>, q: Param, i: int, k: int)
    requires Uniform(libs, params)
    requires Contributes(libs, params, i, k, q)
    requires forall j, k' :: 0 <= j < i ==> !Contributes(libs, params, j, k', q)
    ensures FirstLeaf(AllCopies(libs, params), q) == Lookup(libs[i].root, libs[i].params[k])
    decreases |libs|
  {
    var lib := libs[0];
    var first := Copies(lib.controllables, lib.root, lib.params, params);
    AllCopiesTail(libs, params);
    var rest := AllCopies(libs[1..], params);
    FirstLeafConcat(first, rest, q);
    if i == 0 {
      CopiesFirstAt(lib.controllables, lib.root, lib.params, params, q, k);
    } else {
      CopiesNone(lib.controllables, lib.root, lib.params, params, q);
      forall k' | 0 <= k' < |lib.params| ensures !Offers(lib.controllables, lib.root, lib.params, params, k', q) {
        assert !Contributes(libs, params, 0, k', q);
      }
      ContributesTail(libs, params, i - 1, k, q);
      forall j, k' | 0 <= j < i - 1 ensures !Contributes(libs[1..], params, j, k', q) {
        ContributesTail(libs, params, j, k', q);
      }
      AllFirstAt(libs[1..], params, q, i - 1, k);
      assert libs[1..][i - 1] == libs[i];
    }
  }

  // ---------------------------------------------------------------------
  // fuse_libraries: refusals and results

  /** Once the sources open: the first adjacent pair on different
      controllables is refused, no source at all is refused, and when the
      sources agree nothing else fails. */
  lemma FuseRefusals(name: string, libs: seq<Library>)
    requires AllValid(libs)
    ensures libs == [] ==> FuseOpened(name, libs) == Failure(IndexError)
    ensures var sets := ControllableSets(libs);
      && (FuseOpened(name, libs).Success? <==>
            libs != [] && forall i :: 0 <= i < |libs| - 1 ==> sets[i] == sets[i + 1])
      && (FuseOpened(name, libs).Failure? && libs != [] ==>
            var e := FuseOpened(name, libs).error;
            && e.Mismatch? && e.index + 1 < |libs| && sets[e.index] != sets[e.index + 1]
            && forall j :: 0 <= j < e.index ==> sets[j] == sets[j + 1])
  {
    var sets := ControllableSets(libs);
    FuseOpenedCases(name, libs);
    if libs != [] && FirstMismatch(sets).None? {
      var params := libs[0].controllables;
      forall i | 0 <= i < |libs| ensures NameSet(libs[i].controllables) == NameSet(params) {
        ChainedEqual(sets, i);
      }
      AllEntriesSucceed(libs, params);
    }
  }

  /** The branches of the fusion of the opened sources. */
  lemma FuseOpenedCases(name: string, libs: seq<Library>)
    requires AllValid(libs)
    ensures var m := FirstMismatch(ControllableSets(libs));
      && (m.Some? ==> FuseOpened(name, libs) == Failure(Mismatch(m.value)))
      && (m.None? && libs == [] ==> FuseOpened(name, libs) == Failure(IndexError))
      && (m.None? && libs != [] ==>
            (FuseOpened(name, libs).Success? <==> AllEntries(libs, libs[0].controllables).Success?))
  {
  }

  /** `_add` keeps names unique at every level. */
  lemma AddNewWellFormed(g: Group, key: Param, leaf: Leaf)
    requires WellFormed(g)
    ensures WellFormed(AddNew(g, key, leaf).root)
  {
    GetGroupThenPut(g, key, Some(leaf));
    PutWellFormed(g, key, Some(leaf));
  }

  lemma {:induction false} InsertAllWellFormed(g: Group, es: seq<Entry>)
    requires WellFormed(g)
    ensures WellFormed(InsertAll(g, es))
    decreases |es|
  {
    if es != [] {
      AddNewWellFormed(g, es[0].key, es[0].leaf);
      InsertAllWellFormed(AddNew(g, es[0].key, es[0].leaf).root, es[1..]);
    }
  }

  /** Controllables are the keys of a map, so no source lists one
      twice. */
  predicate DistinctlyNamed(libs: seq<Library>)
  {
    forall i :: 0 <= i < |libs| ==> UniqueNames(libs[i].controllables)
  }

  /** A fusion that went through inserts what the fusion loop produced
      into an empty tree. */
  lemma FusedRoot(name: string, libs: seq<Library>)
    requires AllValid(libs) && FuseOpened(name, libs).Success?
    ensures FirstMismatch(ControllableSets(libs)).None?
    ensures AllEntries(libs, libs[0].controllables).Success?
    ensures FuseOpened(name, libs).value.root == InsertAll(EmptyGroup, AllEntries(libs, libs[0].controllables).value)
  {
  }

  /** A fusion that went through is the insertion of all the sources'
      copies into an empty tree, in the first source's controllable
      order. */
  lemma FusedIsCopies(name: string, libs: seq<Library>)
    requires AllValid(libs) && FuseOpened(name, libs).Success? && DistinctlyNamed(libs)
    ensures Uniform(libs, libs[0].controllables)
    ensures FuseOpened(name, libs).value.root == InsertAll(EmptyGroup, AllCopies(libs, libs[0].controllables))
  {
    var params := libs[0].controllables;
    var sets := ControllableSets(libs);
    FusedRoot(name, libs);
    assert forall j :: 0 <= j < |params| ==> params[j] in NameSet(params);
    forall i | 0 <= i < |libs|
      ensures NameSet(libs[i].controllables) == NameSet(params)
      ensures Covers(libs[i].controllables, libs[i].params, params)
    {
      ChainedEqual(sets, i);
      ParamsLength(libs[i]);
    }
    AllEntriesAreCopies(libs, params);
  }

  /** Inserting the copies into an empty tree makes a library tree that
      holds the first copy of each tuple. */
  lemma InsertedCopies(libs: seq<Library>, params: seq<string>, q: Param)
    requires Uniform(libs, params) && |params| > 0
    ensures Stored(InsertAll(EmptyGroup, AllCopies(libs, params)), |params|)
    ensures Lookup(InsertAll(EmptyGroup, AllCopies(libs, params)), q) == FirstLeaf(AllCopies(libs, params), q)
  {
    AllCopiesKeyLengths(libs, params);
    InsertAllLookup(EmptyGroup, |params|, AllCopies(libs, params), q);
    EmptyLookup(q);
  }

  /** The target of a fusion over at least one controllable is a library
      tree holding an image at `q` iff some source holds an image at a
      tuple that re-orders to `q`: every source tuple is copied, and
      nothing else is there. */
  lemma FusedKeys(name: string, libs: seq<Library>, q: Param)
    requires AllValid(libs) && FuseOpened(name, libs).Success? && DistinctlyNamed(libs)
    requires |libs[0].controllables| > 0
    ensures Stored(FuseOpened(name, libs).value.root, |libs[0].controllables|)
    ensures Lookup(FuseOpened(name, libs).value.root, q).Some? <==>
      exists i, k :: Contributes(libs, libs[0].controllables, i, k, q)
  {
    var params := libs[0].controllables;
    FusedIsCopies(name, libs);
    InsertedCopies(libs, params, q);
    AllNone(libs, params, q);
  }

  /** On a tuple several sources offer, the target holds the image of the
      first source listed that offers it. */
  lemma FirstSourceWins(name: string, libs: seq<Library>, q: Param, i: int, k: int)
    requires AllValid(libs) && FuseOpened(name, libs).Success? && DistinctlyNamed(libs)
    requires |libs[0].controllables| > 0
    requires Contributes(libs, libs[0].controllables, i, k, q)
    requires forall j, k' :: 0 <= j < i ==> !Contributes(libs, libs[0].controllables, j, k', q)
    ensures Lookup(FuseOpened(name, libs).value.root, q) == Lookup(libs[i].root, libs[i].params[k])
  {
    var params := libs[0].controllables;
    FusedIsCopies(name, libs);
    InsertedCopies(libs, params, q);
    AllFirstAt(libs, params, q, i, k);
  }

  /** The target keeps names unique and records one entry per source;
      when the first source was not itself fused, the target reads back
      that source's controllables and the given name. */
  lemma FusedReopens(name: string, libs: seq<Library>)
    requires AllValid(libs) && FuseOpened(name, libs).Success?
    ensures WellFormed(FuseOpened(name, libs).value.root)
    ensures var f := FuseOpened(name, libs).value;
      f.controls.value.Listed? && |f.controls.value.parts| == |libs|
    ensures var f := FuseOpened(name, libs).value;
      libs[0].ranges.Ordered? ==>
        && GetControllables(f.controls.value) == Success(libs[0].controllables)
        && (Open(f.root, f.controls, f.name).Success? ==>
              && Open(f.root, f.controls, f.name).value.controllables == libs[0].controllables
              && Name(Open(f.root, f.controls, f.name).value) == name)
  {
    var f := FuseOpened(name, libs).value;
    FusedRoot(name, libs);
    InsertAllWellFormed(EmptyGroup, AllEntries(libs, libs[0].controllables).value);
    if libs[0].ranges.Ordered? {
      assert Valid(libs[0]);
      assert f.controls.value.parts[0] == libs[0].ranges;
      ControllablesFacts(f.controls.value);
      OpenFacts(f.root, f.controls, f.name);
    }
  }

  /** When the first source is a library tree that was not itself fused,
      the target of a fusion over at least one controllable opens: it
      holds the first source's first tuple, re-ordered, and nothing above
      the depth. */
  lemma FusedOpens(name: string, libs: seq<Library>)
    requires AllValid(libs) && FuseOpened(name, libs).Success? && DistinctlyNamed(libs)
    requires |libs[0].controllables| > 0 && libs[0].ranges.Ordered?
    requires Stored(libs[0].root, |libs[0].controllables|)
    ensures var f := FuseOpened(name, libs).value;
      WellFormed(f.root) && Open(f.root, f.controls, f.name).Success?
  {
    var f := FuseOpened(name, libs).value;
    var cs := libs[0].controllables;
    var n := |cs|;
    assert Valid(libs[0]);
    var p := libs[0].params[0];
    assert p in Walk(libs[0].root, n);
    StoredWalk(libs[0].root, n, p);
    assert forall j :: 0 <= j < |cs| ==> cs[j] in NameSet(cs);
    var q := Reorder(cs, p, cs).value;
    assert Contributes(libs, cs, 0, 0, q);
    FusedKeys(name, libs, q);
    StoredWalk(f.root, n, q);
    ShapedClean(f.root, n);
    FusedReopens(name, libs);
    OpenFacts(f.root, f.controls, f.name);
  }

  // ---------------------------------------------------------------------
  // The provenance as the code records it

  /** Line 116 of the fusion stores `params()` of each source, a list of
      named tuples, where the ranges belong. */
  function ProvenanceAsWritten(libs: seq<Library>): (r: Ranges)
    ensures r.Listed? && |r.parts| == |libs|
    ensures forall i :: 0 <= i < |libs| ==> r.parts[i] == NamedList(libs[i].controllables, libs[i].params)
  {
    Listed(seq(|libs|, i requires 0 <= i < |libs| => NamedList(libs[i].controllables, libs[i].params)))
  }

  /** The fusion of the opened sources with the provenance the code
      records. */
  function FuseOpenedAsWritten(name: string, libs: seq<Library>): (r: Result<LibraryFile>)
    requires AllValid(libs)
    ensures r.Success? <==> FuseOpened(name, libs).Success?
    ensures r.Success? ==> r.value.root == FuseOpened(name, libs).value.root && r.value.name == Some(name)
  {
    var f :- FuseOpened(name, libs);
    Success(f.(controls := Some(ProvenanceAsWritten(libs))))
  }

  /** As written, no fused library can be opened again: the first entry of
      its `controls` list is itself a list, which has no keys. */
  lemma AsWrittenCannotReopen(name: string, libs: seq<Library>)
    requires AllValid(libs) && FuseOpenedAsWritten(name, libs).Success?
    ensures var f := FuseOpenedAsWritten(name, libs).value;
      WellFormed(f.root) && Open(f.root, f.controls, f.name) == Failure(AttributeError)
  {
    var f := FuseOpenedAsWritten(name, libs).value;
    FusedReopens(name, libs);
    assert f.controls.value.parts[0] == NamedList(libs[0].controllables, libs[0].params);
  }
}

=== FILE: groups.dfy ===
/** The hierarchical container a library lives in: nested groups, each
    holding named child groups and, at a complete parameter path, the
    `image` dataset with its `camera_config` attribute. A group's children
    are kept in name order, as the container lists them. */
module Groups {
  import opened Outcomes
  import opened Names

  /** An image (its pixels, opaque here) and the camera configuration
      recorded when it was taken. */
  datatype Leaf = Leaf(image: seq<int>, config: map<string, int>)

  datatype Group = Group(children: seq<Child>, data: Option<Leaf>)

  /** A child group together with the integer its name spells. */
  datatype Child = Child(key: int, group: Group)

  const EmptyGroup := Group([], None)

  /** The children are listed in strictly increasing name order, so no name
      occurs twice. */
  predicate Sorted(cs: seq<Child>)
  {
    forall i, j :: 0 <= i < j < |cs| ==> NameBelow(cs[i].key, cs[j].key)
  }

  /** Names are unique at every level of the tree. */
  predicate WellFormed(g: Group)
    decreases g
  {
    && Sorted(g.children)
    && forall i :: 0 <= i < |g.children| ==> WellFormed(g.children[i].group)
  }

  predicate HasKey(cs: seq<Child>, k: int)
  {
    exists i :: 0 <= i < |cs| && cs[i].key == k
  }

  /** `group[str(k)]`: the first child named `k`, if any. */
  function FindChild(cs: seq<Child>, k: int): (r: Option<Group>)
    ensures r.None? <==> !HasKey(cs, k)
    ensures r.Some? ==> Child(k, r.value) in cs
    decreases |cs|
  {
    if cs == [] then None
    else if cs[0].key == k then Some(cs[0].group)
    else
      assert forall i :: 1 <= i < |cs| ==> cs[i] == cs[1..][i - 1];
      FindChild(cs[1..], k)
  }

  /** Replaces the first child named `k`. */
  function Replace(cs: seq<Child>, k: int, h: Group): (r: seq<Child>)
    ensures |r| == |cs|
    decreases |cs|
  {
    if cs == [] then []
    else if cs[0].key == k then [Child(k, h)] + cs[1..]
    else [cs[0]] + Replace(cs[1..], k, h)
  }

  /** Inserts a child named `k` before the first child whose name follows
      `k`'s. */
  function Insert(cs: seq<Child>, k: int, h: Group): (r: seq<Child>)
    ensures |r| == |cs| + 1
    decreases |cs|
  {
    if cs == [] then [Child(k, h)]
    else if NameBelow(k, cs[0].key) then [Child(k, h)] + cs
    else [cs[0]] + Insert(cs[1..], k, h)
  }

  /** Makes `h` the child named `k`: replaced if present, otherwise linked
      in at its place in name order. */
  function SetChild(cs: seq<Child>, k: int, h: Group): (r: seq<Child>)
  {
    if HasKey(cs, k) then Replace(cs, k, h) else Insert(cs, k, h)
  }

  /** Unlinks the first child named `k`. */
  function RemoveChild(cs: seq<Child>, k: int): (r: seq<Child>)
    decreases |cs|
  {
    if cs == [] then []
    else if cs[0].key == k then cs[1..]
    else [cs[0]] + RemoveChild(cs[1..], k)
  }

  // ---------------------------------------------------------------------
  // Child-list lemmas

  lemma {:induction false} FindReplace(cs: seq<Child>, k: int, h: Group, j: int)
    requires HasKey(cs, k)
    ensures FindChild(Replace(cs, k, h), j) == if j == k then Some(h) else FindChild(cs, j)
    decreases |cs|
  {
    if cs[0].key != k {
      var i :| 0 <= i < |cs| && cs[i].key == k;
      assert cs[1..][i - 1].key == k;
      FindReplace(cs[1..], k, h, j);
    }
  }

  lemma {:induction false} FindInsert(cs: seq<Child>, k: int, h: Group, j: int)
    ensures FindChild(Insert(cs, k, h), j) == if j == k then Some(h) else FindChild(cs, j)
    requires !HasKey(cs, k)
    decreases |cs|
  {
    if cs != [] && !NameBelow(k, cs[0].key) {
      assert !HasKey(cs[1..], k);
      FindInsert(cs[1..], k, h, j);
    }
  }

  /** After setting the child named `k`, it is found; every other name
      resolves as before. */
  lemma FindSetChild(cs: seq<Child>, k: int, h: Group, j: int)
    ensures FindChild(SetChild(cs, k, h), j) == if j == k then Some(h) else FindChild(cs, j)
  {
    if HasKey(cs, k) {
      FindReplace(cs, k, h, j);
    } else {
      FindInsert(cs, k, h, j);
    }
  }

  /** Setting a child to the group it already is changes nothing. */
  lemma {:induction false} SetChildSame(cs: seq<Child>, k: int)
    requires HasKey(cs, k)
    ensures SetChild(cs, k, FindChild(cs, k).value) == cs
    decreases |cs|
  {
    if cs[0].key != k {
      var i :| 0 <= i < |cs| && cs[i].key == k;
      assert cs[1..][i - 1].key == k;
      SetChildSame(cs[1..], k);
    }
  }

  lemma {:induction false} ReplaceMembers(cs: seq<Child>, k: int, h: Group)
    ensures forall c :: c in Replace(cs, k, h) ==> c == Child(k, h) || c in cs
    decreases |cs|
  {
    if cs != [] && cs[0].key != k {
      ReplaceMembers(cs[1..], k, h);
    }
  }

  lemma {:induction false} InsertMembers(cs: seq<Child>, k: int, h: Group)
    ensures forall c :: c in Insert(cs, k, h) ==> c == Child(k, h) || c in cs
    decreases |cs|
  {
    if cs != [] && !NameBelow(k, cs[0].key) {
      InsertMembers(cs[1..], k, h);
    }
  }

  /** Every child after setting is the new one or an old one. */
  lemma SetChildMembers(cs: seq<Child>, k: int, h: Group)
    ensures forall c :: c in SetChild(cs, k, h) ==> c == Child(k, h) || c in cs
    ensures Child(k, h) in SetChild(cs, k, h)
  {
    ReplaceMembers(cs, k, h);
    InsertMembers(cs, k, h);
    FindSetChild(cs, k, h, k);
  }

  lemma {:induction false} ReplaceSorted(cs: seq<Child>, k: int, h: Group)
    requires Sorted(cs)
    ensures Sorted(Replace(cs, k, h))
    decreases |cs|
  {
    if cs != [] && cs[0].key != k {
      ReplaceSorted(cs[1..], k, h);
      ReplaceKeys(cs[1..], k, h);
      var r := Replace(cs, k, h);
      forall i, j | 0 <= i < j < |r|
        ensures NameBelow(r[i].key, r[j].key)
      {
        if i == 0 {
          assert r[j].key == cs[1..][j - 1].key;
        }
      }
    }
  }

  lemma {:induction false} ReplaceKeys(cs: seq<Child>, k: int, h: Group)
    ensures forall i :: 0 <= i < |cs| ==> Replace(cs, k, h)[i].key == cs[i].key
    decreases |cs|
  {
    if cs != [] && cs[0].key != k {
      ReplaceKeys(cs[1..], k, h);
    }
  }

  lemma {:induction false} InsertSorted(cs: seq<Child>, k: int, h: Group)
    requires Sorted(cs) && !HasKey(cs, k)
    ensures Sorted(Insert(cs, k, h))
    ensures forall c :: c in Insert(cs, k, h) && c.key != k ==> !NameBelow(k, cs[0].key) || c in cs
    decreases |cs|
  {
    NameOrderFacts();
    if cs != [] {
      var r := Insert(cs, k, h);
      if NameBelow(k, cs[0].key) {
        forall i, j | 0 <= i < j < |r|
          ensures NameBelow(r[i].key, r[j].key)
        {
          if i == 0 && j > 1 {
            assert NameBelow(cs[0].key, cs[j - 1].key);
          }
        }
      } else {
        assert !HasKey(cs[1..], k);
        assert cs[0].key != k;
        assert NameBelow(cs[0].key, k);
        InsertSorted(cs[1..], k, h);
        InsertMembers(cs[1..], k, h);
        forall i, j | 0 <= i < j < |r|
          ensures NameBelow(r[i].key, r[j].key)
        {
          if i == 0 {
            var c := r[j];
            assert c in Insert(cs[1..], k, h);
            if c.key != k {
              assert c in cs[1..];
              var m :| 0 <= m < |cs[1..]| && cs[1..][m] == c;
              assert cs[m + 1] == c;
            }
          }
        }
      }
    }
  }

  /** Setting a child keeps the list in name order. */
  lemma SetChildSorted(cs: seq<Child>, k: int, h: Group)
    requires Sorted(cs)
    ensures Sorted(SetChild(cs, k, h))
  {
    if HasKey(cs, k) {
      ReplaceSorted(cs, k, h);
    } else {
      InsertSorted(cs, k, h);
    }
  }

  lemma {:induction false} RemoveMembers(cs: seq<Child>, k: int)
    ensures forall c :: c in RemoveChild(cs, k) ==> c in cs
    decreases |cs|
  {
    if cs != [] && cs[0].key != k {
      RemoveMembers(cs[1..], k);
    }
  }

  /** Unlinking a child keeps the list in name order; the name is gone
      afterwards and every other name resolves as before. */
  lemma {:induction false} RemoveChildFacts(cs: seq<Child>, k: int, j: int)
    requires Sorted(cs)
    ensures Sorted(RemoveChild(cs, k))
    ensures FindChild(RemoveChild(cs, k), j) == if j == k then None else FindChild(cs, j)
    decreases |cs|
  {
    NameOrderFacts();
    if cs != [] {
      var r := RemoveChild(cs, k);
      if cs[0].key == k {
        assert forall i :: 0 <= i < |r| ==> NameBelow(k, r[i].key) by {
          forall i | 0 <= i < |r|
            ensures NameBelow(k, r[i].key)
          {
            assert r[i] == cs[i + 1];
          }
        }
        if j == k {
          assert !HasKey(r, k);
        }
      } else {
        RemoveChildFacts(cs[1..], k, j);
        RemoveMembers(cs[1..], k);
        forall i, m | 0 <= i < m < |r|
          ensures NameBelow(r[i].key, r[m].key)
        {
          if i == 0 {
            assert r[m] in cs[1..];
            var q :| 0 <= q < |cs[1..]| && cs[1..][q] == r[m];
            assert cs[q + 1] == r[m];
          }
        }
      }
    }
  }

  /** A sorted list finds each of its children under that child's name. */
  lemma {:induction false} FindSortedMember(cs: seq<Child>, i: int)
    requires Sorted(cs) && 0 <= i < |cs|
    ensures FindChild(cs, cs[i].key) == Some(cs[i].group)
    decreases |cs|
  {
    if i > 0 {
      assert NameBelow(cs[0].key, cs[i].key);
      NameBelowIrreflexive(cs[i].key);
      assert cs[1..][i - 1] == cs[i];
      assert Sorted(cs[1..]) by {
        assert forall j :: 0 <= j < |cs| - 1 ==> cs[1..][j] == cs[j + 1];
      }
      FindSortedMember(cs[1..], i - 1);
    }
  }
}

=== FILE: h5.dfy ===
/** The darkframe tree operations of h5darkframes/h5.py: listing the stored
    parameters, descending to (or creating) the group of a parameter tuple,
    adding an image and removing one. The tree is an immutable value; every
    mutating operation returns the new root. */
module H5 {
  import opened Outcomes
  import opened Names
  import opened Tuples
  import opened Groups

  /** The group reached by following `path` from `g`, one child per component. */
  function Sub(g: Group, path: Param): Option<Group>
    decreases |path|
  {
    if path == [] then Some(g)
    else match FindChild(g.children, path[0])
      case None => None
      case Some(c) => Sub(c, path[1..])
  }

  /** The image and configuration stored at `path`, if any. */
  function Lookup(g: Group, path: Param): Option<Leaf>
  {
    match Sub(g, path)
    case None => None
    case Some(h) => h.data
  }

  // ---------------------------------------------------------------------
  // get_params

  /** Every path of exactly `depth` groups below `g`, children visited in
      name order. */
  function Walk(g: Group, depth: nat): (r: seq<Param>)
    ensures forall p :: p in r ==> |p| == depth
    decreases depth, 1
  {
    if depth == 0 then [[]] else WalkChildren(g.children, depth)
  }

  function WalkChildren(cs: seq<Child>, depth: nat): (r: seq<Param>)
    requires depth > 0
    ensures forall p :: p in r ==> |p| == depth
    decreases depth, 0, |cs|
  {
    if cs == [] then []
    else Prepend(cs[0].key, Walk(cs[0].group, depth - 1)) + WalkChildren(cs[1..], depth)
  }

  /** No group above depth `n` holds an image. Above that depth the walk
      reads every member name as an integer, and an image is stored as a
      member named "image". */
  predicate Clean(g: Group, n: nat)
    decreases n
  {
    n == 0 || (g.data.None? && forall c | c in g.children :: Clean(c.group, n - 1))
  }

  /** `get_params`: the walk as deep as there are controllables, or the
      ValueError of `int("image")` when a group above that depth holds an
      image. */
  function GetParams(g: Group, controllables: seq<string>): (r: Result<seq<Param>>)
    ensures r.Failure? <==> !Clean(g, |controllables|)
    ensures r.Failure? ==> r.error == ValueError
    ensures r.Success? ==> forall p :: p in r.value ==> |p| == |controllables|
  {
    if Clean(g, |controllables|) then Success(Walk(g, |controllables|)) else Failure(ValueError)
  }

  /** The walk lists a tuple iff it is a complete path of the tree. */
  lemma {:induction false} WalkMembers(g: Group, n: nat, p: Param)
    requires WellFormed(g)
    ensures p in Walk(g, n) <==> |p| == n && Sub(g, p).Some?
    decreases n, 1
  {
    if n > 0 {
      WalkChildrenMembers(g.children, n, p);
    }
  }

  /** In a sorted list the first name is below every later one, so it
      does not occur again. */
  lemma SortedTail(cs: seq<Child>)
    requires Sorted(cs) && cs != []
    ensures Sorted(cs[1..])
    ensures !HasKey(cs[1..], cs[0].key)
    ensures forall i :: 0 <= i < |cs[1..]| ==> NameBelow(cs[0].key, cs[1..][i].key)
  {
    var rest := cs[1..];
    forall i | 0 <= i < |rest| ensures NameBelow(cs[0].key, rest[i].key) && rest[i].key != cs[0].key {
      assert rest[i] == cs[i + 1];
      NameBelowIrreflexive(cs[0].key);
    }
  }

  predicate AllWellFormed(cs: seq<Child>)
  {
    forall i :: 0 <= i < |cs| ==> WellFormed(cs[i].group)
  }

  lemma AllWellFormedTail(cs: seq<Child>)
    requires AllWellFormed(cs) && cs != []
    ensures AllWellFormed(cs[1..]) && WellFormed(cs[0].group)
  {
    forall i | 0 <= i < |cs[1..]| ensures WellFormed(cs[1..][i].group) {
      assert cs[1..][i] == cs[i + 1];
    }
  }

  lemma {:induction false} PrependWalk(k: int, g: Group, n: nat, p: Param)
    requires WellFormed(g) && |p| == n + 1 && p[0] == k
    ensures p in Prepend(k, Walk(g, n)) <==> Sub(g, p[1..]).Some?
    decreases n, 2
  {
    PrependMember(k, Walk(g, n), p);
    WalkMembers(g, n, p[1..]);
  }

  lemma {:induction false} WalkChildrenMembers(cs: seq<Child>, n: nat, p: Param)
    requires n > 0 && Sorted(cs) && AllWellFormed(cs)
    ensures p in WalkChildren(cs, n) <==>
      |p| == n && FindChild(cs, p[0]).Some? && Sub(FindChild(cs, p[0]).value, p[1..]).Some?
    decreases n, 0, |cs|
  {
    if cs != [] {
      var rest := cs[1..];
      var k0 := cs[0].key;
      var w := Walk(cs[0].group, n - 1);
      assert WalkChildren(cs, n) == Prepend(k0, w) + WalkChildren(rest, n);
      SortedTail(cs);
      AllWellFormedTail(cs);
      if |p| == n {
        WalkChildrenMembers(rest, n, p);
        PrependMember(k0, w, p);
        if p[0] == k0 {
          PrependWalk(k0, cs[0].group, n - 1, p);
          assert FindChild(rest, k0).None?;
          assert FindChild(cs, p[0]) == Some(cs[0].group);
          assert p !in WalkChildren(rest, n);
        } else {
          assert FindChild(cs, p[0]) == FindChild(rest, p[0]);
          assert p !in Prepend(k0, w);
        }
      } else {
        assert p !in WalkChildren(cs, n);
      }
    }
  }

  /** Children listed in increasing `below` order at every level. */
  predicate DeepSortedBy(g: Group, below: (int, int) -> bool)
    decreases g
  {
    && (forall i, j :: 0 <= i < j < |g.children| ==> below(g.children[i].key, g.children[j].key))
    && (forall i :: 0 <= i < |g.children| ==> DeepSortedBy(g.children[i].group, below))
  }

  lemma {:induction false} WellFormedSortedByName(g: Group)
    requires WellFormed(g)
    ensures DeepSortedBy(g, NameBelow)
    decreases g
  {
    forall i | 0 <= i < |g.children| ensures DeepSortedBy(g.children[i].group, NameBelow) {
      WellFormedSortedByName(g.children[i].group);
    }
  }

  /** The walk lists tuples in strictly increasing name order, hence each
      complete path exactly once. */
  lemma WalkSorted(g: Group, n: nat)
    requires WellFormed(g)
    ensures StrictlySorted(Walk(g, n), NameBelow)
    ensures Distinct(Walk(g, n))
  {
    WellFormedSortedByName(g);
    forall a ensures !NameBelow(a, a) {
      NameBelowIrreflexive(a);
    }
    WalkSortedBy(g, n, NameBelow);
    SortedDistinct(Walk(g, n), NameBelow);
  }

  /** The same, for any irreflexive order the children are sorted by. */
  lemma {:induction false} WalkSortedBy(g: Group, n: nat, below: (int, int) -> bool)
    requires DeepSortedBy(g, below)
    requires forall a :: !below(a, a)
    ensures StrictlySorted(Walk(g, n), below)
    decreases n, 1
  {
    if n > 0 {
      WalkChildrenSortedBy(g.children, n, below);
    }
  }

  lemma {:induction false} WalkChildrenSortedBy(cs: seq<Child>, n: nat, below: (int, int) -> bool)
    requires n > 0
    requires forall i, j :: 0 <= i < j < |cs| ==> below(cs[i].key, cs[j].key)
    requires forall i :: 0 <= i < |cs| ==> DeepSortedBy(cs[i].group, below)
    requires forall a :: !below(a, a)
    ensures StrictlySorted(WalkChildren(cs, n), below)
    decreases n, 0, |cs|
  {
    if cs != [] {
      var rest := cs[1..];
      var k := cs[0].key;
      var w := Walk(cs[0].group, n - 1);
      var a := Prepend(k, w);
      var b := WalkChildren(rest, n);
      WalkSortedBy(cs[0].group, n - 1, below);
      PrependKeepsOrder(k, w, below);
      TailSortedBy(cs, below);
      WalkChildrenSortedBy(rest, n, below);
      HeadBelowRest(cs, n, below, w, a, b);
      ConcatSorted(a, b, below);
    }
  }

  lemma TailSortedBy(cs: seq<Child>, below: (int, int) -> bool)
    requires cs != []
    requires forall i, j :: 0 <= i < j < |cs| ==> below(cs[i].key, cs[j].key)
    requires forall i :: 0 <= i < |cs| ==> DeepSortedBy(cs[i].group, below)
    ensures forall i, j :: 0 <= i < j < |cs[1..]| ==> below(cs[1..][i].key, cs[1..][j].key)
    ensures forall i :: 0 <= i < |cs[1..]| ==> DeepSortedBy(cs[1..][i].group, below)
  {
    var rest := cs[1..];
    forall i, j | 0 <= i < j < |rest| ensures below(rest[i].key, rest[j].key) {
      assert rest[i] == cs[i + 1] && rest[j] == cs[j + 1];
    }
    forall i | 0 <= i < |rest| ensures DeepSortedBy(rest[i].group, below) {
      assert rest[i] == cs[i + 1];
    }
  }

  /** The tuples under the first child come before those under the
      others. */
  lemma HeadBelowRest(cs: seq<Child>, n: nat, below: (int, int) -> bool, w: seq<Param>, a: seq<Param>, b: seq<Param>)
    requires n > 0 && cs != []
    requires forall i, j :: 0 <= i < j < |cs| ==> below(cs[i].key, cs[j].key)
    requires forall a :: !below(a, a)
    requires a == Prepend(cs[0].key, w) && b == WalkChildren(cs[1..], n)
    ensures forall i, j :: 0 <= i < |a| && 0 <= j < |b| ==> LexBelow(a[i], b[j], below)
  {
    var rest := cs[1..];
    var k := cs[0].key;
    forall i, j | 0 <= i < |a| && 0 <= j < |b|
      ensures LexBelow(a[i], b[j], below)
    {
      HeadBelowOther(cs, n, below, b[j], w[i]);
    }
  }

  /** Every tuple under a later child starts with a name after the first
      child's. */
  lemma HeadBelowOther(cs: seq<Child>, n: nat, below: (int, int) -> bool, p: Param, t: Param)
    requires n > 0 && cs != []
    requires forall i, j :: 0 <= i < j < |cs| ==> below(cs[i].key, cs[j].key)
    requires forall a :: !below(a, a)
    requires p in WalkChildren(cs[1..], n)
    ensures LexBelow([cs[0].key] + t, p, below)
  {
    var rest := cs[1..];
    WalkChildrenHeads(rest, n, p);
    var m :| 0 <= m < |rest| && rest[m].key == p[0];
    assert rest[m] == cs[m + 1];
    assert p == [p[0]] + p[1..];
    PrependBelow(cs[0].key, t, p[0], p[1..], below);
  }

  /** Every listed tuple starts with the name of one of the children. */
  lemma {:induction false} WalkChildrenHeads(cs: seq<Child>, n: nat, p: Param)
    requires n > 0 && p in WalkChildren(cs, n)
    ensures |p| > 0 && HasKey(cs, p[0])
    decreases |cs|
  {
    if cs != [] {
      var rest := cs[1..];
      if p in WalkChildren(rest, n) {
        WalkChildrenHeads(rest, n, p);
        var m :| 0 <= m < |rest| && rest[m].key == p[0];
        assert cs[m + 1].key == p[0];
      } else {
        assert p in Prepend(cs[0].key, Walk(cs[0].group, n - 1));
        PrependMember(cs[0].key, Walk(cs[0].group, n - 1), p);
      }
    }
  }

  // ---------------------------------------------------------------------
  // get_group

  /** The outcome of `get_group`: the (possibly grown) tree, the group of
      the parameters if it exists afterwards, and whether some level had to
      be created. */
  datatype Descent = Descent(root: Group, group: Option<Group>, created: bool)

  /** `get_group(h5, param, create)`. Without `create` a missing level
      yields `(None, False)`; with it, missing levels are created empty. */
  function GetGroup(g: Group, param: Param, create: bool): (r: Descent)
    ensures !create ==> r == Descent(g, Sub(g, param), false)
    ensures create ==> r.group.Some? && Sub(r.root, param) == r.group
    ensures create ==> (r.created <==> Sub(g, param).None?)
    decreases |param|
  {
    if param == [] then Descent(g, Some(g), false)
    else
      var k := param[0];
      match FindChild(g.children, k)
      case Some(c) =>
        var d := GetGroup(c, param[1..], create);
        FindSetChild(g.children, k, d.root, k);
        SetChildSame(g.children, k);
        Descent(g.(children := SetChild(g.children, k, d.root)), d.group, d.created)
      case None =>
        if create then
          var d := GetGroup(EmptyGroup, param[1..], true);
          FindSetChild(g.children, k, d.root, k);
          Descent(g.(children := SetChild(g.children, k, d.root)), d.group, true)
        else Descent(g, None, false)
  }

  /** Writes `d` as the data of the group at `path`, creating missing
      levels on the way. */
  function Put(g: Group, path: Param, d: Option<Leaf>): Group
    decreases |path|
  {
    if path == [] then g.(data := d)
    else
      var c := match FindChild(g.children, path[0]) case Some(c) => c case None => EmptyGroup;
      g.(children := SetChild(g.children, path[0], Put(c, path[1..], d)))
  }

  lemma {:induction false} EmptyLookup(q: Param)
    ensures Lookup(EmptyGroup, q) == None
  {
  }

  /** Writing at `path` changes the data there and nowhere else. */
  lemma {:induction false} PutLookup(g: Group, path: Param, d: Option<Leaf>, q: Param)
    ensures Lookup(Put(g, path, d), q) == if q == path then d else Lookup(g, q)
    decreases |path|
  {
    if path != [] && q != [] {
      var k := path[0];
      var c := match FindChild(g.children, k) case Some(c) => c case None => EmptyGroup;
      FindSetChild(g.children, k, Put(c, path[1..], d), q[0]);
      if q[0] == k {
        PutLookup(c, path[1..], d, q[1..]);
        assert q == path <==> q[1..] == path[1..] by {
          assert q == [q[0]] + q[1..] && path == [path[0]] + path[1..];
        }
      }
    }
  }

  lemma {:induction false} PutWellFormed(g: Group, path: Param, d: Option<Leaf>)
    requires WellFormed(g)
    ensures WellFormed(Put(g, path, d))
    decreases |path|
  {
    if path != [] {
      var k := path[0];
      var c := match FindChild(g.children, k) case Some(c) => c case None => EmptyGroup;
      var c' := Put(c, path[1..], d);
      PutWellFormed(c, path[1..], d);
      var cs := SetChild(g.children, k, c');
      SetChildSorted(g.children, k, c');
      SetChildMembers(g.children, k, c');
      forall i | 0 <= i < |cs| ensures WellFormed(cs[i].group) {
        assert cs[i] in cs;
        if cs[i] != Child(k, c') {
          var j :| 0 <= j < |g.children| && g.children[j] == cs[i];
        }
      }
    }
  }

  lemma SetChildTwice(cs: seq<Child>, k: int, x: Group, y: Group)
    ensures SetChild(SetChild(cs, k, x), k, y) == SetChild(cs, k, y)
  {
    if HasKey(cs, k) {
      ReplaceTwice(cs, k, x, y);
      FindReplace(cs, k, x, k);
    } else {
      FindInsert(cs, k, x, k);
      ReplaceInsert(cs, k, x, y);
    }
  }

  lemma {:induction false} ReplaceTwice(cs: seq<Child>, k: int, x: Group, y: Group)
    ensures Replace(Replace(cs, k, x), k, y) == Replace(cs, k, y)
    decreases |cs|
  {
    if cs != [] && cs[0].key != k {
      ReplaceTwice(cs[1..], k, x, y);
    }
  }

  lemma {:induction false} ReplaceInsert(cs: seq<Child>, k: int, x: Group, y: Group)
    requires !HasKey(cs, k)
    ensures Replace(Insert(cs, k, x), k, y) == Insert(cs, k, y)
    decreases |cs|
  {
    if cs != [] && !NameBelow(k, cs[0].key) {
      assert !HasKey(cs[1..], k);
      ReplaceInsert(cs[1..], k, x, y);
    }
  }

  /** Writing after `get_group(create=True)` is the same as writing
      directly: the created levels are exactly the ones the write needs. */
  lemma {:induction false} GetGroupThenPut(g: Group, param: Param, d: Option<Leaf>)
    ensures Put(GetGroup(g, param, true).root, param, d) == Put(g, param, d)
    decreases |param|
  {
    if param != [] {
      var k := param[0];
      var c := match FindChild(g.children, k) case Some(c) => c case None => EmptyGroup;
      var dd := GetGroup(c, param[1..], true);
      assert GetGroup(g, param, true).root == g.(children := SetChild(g.children, k, dd.root));
      FindSetChild(g.children, k, dd.root, k);
      GetGroupThenPut(c, param[1..], d);
      SetChildTwice(g.children, k, dd.root, Put(dd.root, param[1..], d));
    }
  }

  /** `get_group` never changes a stored image, with or without `create`. */
  lemma GetGroupKeepsLeaves(g: Group, param: Param, create: bool, q: Param)
    ensures Lookup(GetGroup(g, param, create).root, q) == Lookup(g, q)
  {
    if create {
      var r := GetGroup(g, param, true);
      var d := Lookup(r.root, param);
      GetGroupThenPut(g, param, d);
      PutLookup(r.root, param, d, q);
      PutLookup(g, param, d, q);
      if q == param {
        if Sub(g, param).None? {
          GetGroupCreatedEmpty(g, param);
        } else {
          GetGroupRootUnchanged(g, param);
        }
      }
    }
  }

  /** A level created by `get_group` holds no image. */
  lemma {:induction false} GetGroupCreatedEmpty(g: Group, param: Param)
    requires Sub(g, param).None?
    ensures Lookup(GetGroup(g, param, true).root, param) == None
    decreases |param|
  {
    var k := param[0];
    match FindChild(g.children, k)
    case Some(c) =>
      GetGroupCreatedEmpty(c, param[1..]);
    case None =>
      var d := GetGroup(EmptyGroup, param[1..], true);
      FindSetChild(g.children, k, d.root, k);
      if param[1..] == [] {
      } else {
        GetGroupCreatedEmpty(EmptyGroup, param[1..]);
      }
  }

  /** The member names of a group written by `add`: its children and, when
      it holds an image, the dataset "image". The configuration is an
      attribute, never a member. */
  predicate HasMember(h: Group, name: string)
  {
    (name == "image" && h.data.Some?) || exists c | c in h.children :: name == Name(c.key)
  }

  /** A name starting with a letter is never the name of a child group. */
  lemma WordNotChild(h: Group, name: string)
    requires |name| > 0 && 'a' <= name[0] <= 'z'
    ensures forall c | c in h.children :: name != Name(c.key)
  {
    forall c | c in h.children
      ensures name != Name(c.key)
    {
      assert Name(c.key)[0] == '-' || '0' <= Name(c.key)[0] <= '9';
    }
  }

  lemma ConfigNotMember(h: Group)
    ensures !HasMember(h, "camera_config")
  {
    WordNotChild(h, "camera_config");
  }

  /** The member "image" exists exactly when the group holds an image. */
  lemma ImageMember(h: Group)
    ensures HasMember(h, "image") <==> h.data.Some?
  {
    WordNotChild(h, "image");
  }

  // ---------------------------------------------------------------------
  // add

  datatype Added = Added(root: Group, added: bool)

  /** `add(h5, param, img, camera_config, overwrite)`: writes the image
      unless the group of `param` already existed and `overwrite` is off. */
  function Add(g: Group, param: Param, image: seq<int>, config: map<string, int>, overwrite: bool): (r: Added)
    ensures !overwrite && Sub(g, param).Some? ==> r == Added(g, false)
    ensures overwrite || Sub(g, param).None? ==> r.added && Lookup(r.root, param) == Some(Leaf(image, config))
    ensures forall q :: q != param ==> Lookup(r.root, q) == Lookup(g, q)
  {
    var d := GetGroup(g, param, true);
    if !d.created && !overwrite then
      assert d.root == g by {
        GetGroupRootUnchanged(g, param);
      }
      Added(d.root, false)
    else
      var leaf := Some(Leaf(image, config));
      GetGroupThenPut(g, param, leaf);
      assert forall q :: Lookup(Put(g, param, leaf), q) == if q == param then leaf else Lookup(g, q) by {
        forall q { PutLookup(g, param, leaf, q); }
      }
      Added(Put(d.root, param, leaf), true)
  }

  /** When every level exists, `get_group(create=True)` leaves the tree as it was. */
  lemma {:induction false} GetGroupRootUnchanged(g: Group, param: Param)
    requires Sub(g, param).Some?
    ensures GetGroup(g, param, true).root == g
    decreases |param|
  {
    if param != [] {
      var k := param[0];
      var c := FindChild(g.children, k).value;
      GetGroupRootUnchanged(c, param[1..]);
      SetChildSame(g.children, k);
    }
  }

  /** `add` as the code does it: `create_dataset("image")` raises
      ValueError when the group of `param` already holds an image, which is
      exactly the case `overwrite` is meant for. */
  function AddAsWritten(g: Group, param: Param, image: seq<int>, config: map<string, int>, overwrite: bool): (r: Result<Added>)
    ensures r.Failure? <==> overwrite && Lookup(g, param).Some?
    ensures r.Failure? ==> r.error == ValueError
    ensures r.Success? ==> r.value == Add(g, param, image, config, overwrite)
  {
    var d := GetGroup(g, param, true);
    assert Sub(g, param).Some? ==> d.root == g by {
      if Sub(g, param).Some? { GetGroupRootUnchanged(g, param); }
    }
    assert Sub(g, param).None? ==> Lookup(d.root, param) == None by {
      if Sub(g, param).None? { GetGroupCreatedEmpty(g, param); }
    }
    if !d.created && !overwrite then Success(Added(d.root, false))
    else
      ImageMember(d.group.value);
      if HasMember(d.group.value, "image") then Failure(ValueError)
      else Success(Added(Put(d.root, param, Some(Leaf(image, config))), true))
  }

  /** One image stored at (1,): adding at (1,) again with `overwrite` raises
      as written, and replaces the image with the intended `add`. */
  lemma AddAsWrittenCounterexample()
    ensures var g := Group([Child(1, Group([], Some(Leaf([], map[]))))], None);
      && AddAsWritten(g, [1], [7], map[], true) == Failure(ValueError)
      && Lookup(Add(g, [1], [7], map[], true).root, [1]) == Some(Leaf([7], map[]))
  {
    var g := Group([Child(1, Group([], Some(Leaf([], map[]))))], None);
    assert FindChild(g.children, 1) == Some(Group([], Some(Leaf([], map[]))));
  }

  // ---------------------------------------------------------------------
  // rm

  /** The tuple removed together with its image and configuration. */
  datatype Removed = Removed(param: Param, image: seq<int>, config: map<string, int>)

  datatype Removal = Removal(root: Group, removed: Option<Removed>)

  /** Clears the data at `path`, then unlinks every group of the path that
      is left with no member, deepest first; the root is never unlinked. */
  function Prune(g: Group, path: Param): Group
    requires Sub(g, path).Some?
    decreases |path|
  {
    if path == [] then g.(data := None)
    else
      var k := path[0];
      var c' := Prune(FindChild(g.children, k).value, path[1..]);
      if c' == EmptyGroup then g.(children := RemoveChild(g.children, k))
      else g.(children := SetChild(g.children, k, c'))
  }

  /** `rm(h5, param)` with the pruning of empty groups its final loop
      intends. */
  function Rm(g: Group, param: Param): (r: Removal)
    ensures Lookup(g, param).None? ==> r == Removal(g, None)
    ensures Lookup(g, param).Some? ==>
      r.removed == Some(Removed(param, Lookup(g, param).value.image, Lookup(g, param).value.config))
  {
    match Sub(g, param)
    case None => Removal(g, None)
    case Some(h) =>
      match h.data
      case None => Removal(g, None)
      case Some(leaf) => Removal(Prune(g, param), Some(Removed(param, leaf.image, leaf.config)))
  }

  lemma ChildWellFormed(g: Group, k: int)
    requires WellFormed(g) && HasKey(g.children, k)
    ensures WellFormed(FindChild(g.children, k).value)
  {
    var c := FindChild(g.children, k).value;
    var i :| 0 <= i < |g.children| && g.children[i] == Child(k, c);
  }

  /** Linking `c'` as the child named `k` affects exactly the paths
      through `k`. */
  lemma RelinkLookup(g: Group, k: int, c': Group, q: Param)
    requires WellFormed(g) && WellFormed(c')
    ensures WellFormed(g.(children := SetChild(g.children, k, c')))
    ensures Lookup(g.(children := SetChild(g.children, k, c')), q) ==
      if q != [] && q[0] == k then Lookup(c', q[1..]) else Lookup(g, q)
  {
    var cs := SetChild(g.children, k, c');
    SetChildSorted(g.children, k, c');
    SetChildMembers(g.children, k, c');
    forall i | 0 <= i < |cs| ensures WellFormed(cs[i].group) {
      assert cs[i] in cs;
      if cs[i] != Child(k, c') {
        var j :| 0 <= j < |g.children| && g.children[j] == cs[i];
      }
    }
    if q != [] {
      FindSetChild(g.children, k, c', q[0]);
    }
  }

  /** Unlinking the child named `k` empties exactly the paths through `k`. */
  lemma UnlinkLookup(g: Group, k: int, q: Param)
    requires WellFormed(g)
    ensures WellFormed(g.(children := RemoveChild(g.children, k)))
    ensures Lookup(g.(children := RemoveChild(g.children, k)), q) ==
      if q != [] && q[0] == k then None else Lookup(g, q)
  {
    var cs := RemoveChild(g.children, k);
    RemoveChildFacts(g.children, k, if q != [] then q[0] else k);
    RemoveMembers(g.children, k);
    forall i | 0 <= i < |cs| ensures WellFormed(cs[i].group) {
      assert cs[i] in cs;
      var j :| 0 <= j < |g.children| && g.children[j] == cs[i];
    }
  }

  /** Pruning removes exactly the data at `path` and keeps names unique. */
  lemma {:induction false} PruneLookup(g: Group, path: Param, q: Param)
    requires WellFormed(g) && Sub(g, path).Some?
    ensures WellFormed(Prune(g, path))
    ensures Lookup(Prune(g, path), q) == if q == path then None else Lookup(g, q)
    decreases |path|
  {
    if path != [] {
      var k := path[0];
      ChildWellFormed(g, k);
      var c := FindChild(g.children, k).value;
      var c' := Prune(c, path[1..]);
      var tail := if q != [] && q[0] == k then q[1..] else [];
      PruneLookup(c, path[1..], tail);
      if q != [] && q[0] == k {
        assert q == path <==> q[1..] == path[1..] by {
          assert q == [q[0]] + q[1..] && path == [path[0]] + path[1..];
        }
        assert Lookup(g, q) == Lookup(c, q[1..]);
      }
      if c' == EmptyGroup {
        UnlinkLookup(g, k, q);
        if q != [] && q[0] == k {
          EmptyLookup(q[1..]);
        }
      } else {
        RelinkLookup(g, k, c', q);
      }
    }
  }

  /** After `rm`, nothing is stored at `param` and every other image is
      where it was. */
  lemma RmLookup(g: Group, param: Param, q: Param)
    requires WellFormed(g)
    ensures WellFormed(Rm(g, param).root)
    ensures Lookup(Rm(g, param).root, q) == if q == param then None else Lookup(g, q)
  {
    if Lookup(g, param).Some? {
      PruneLookup(g, param, q);
    }
  }

  // ---------------------------------------------------------------------
  // The shape of a library file

  /** The depth shape of a library tree over `n` controllables: images
      exactly at depth `n`, and no group below the root left without a
      member. */
  predicate Shaped(g: Group, n: nat)
    decreases n, 0
  {
    && (n == 0 ==> g.children == [] && g.data.Some?)
    && (n > 0 ==> g.data.None? && forall c | c in g.children :: ShapedBelow(c.group, n - 1))
  }

  /** A group below the root: shaped, and not empty unless it holds an
      image. */
  predicate ShapedBelow(h: Group, m: nat)
    decreases m, 1
  {
    Shaped(h, m) && (m == 0 || h.children != [])
  }

  /** A library tree: names unique at every level, and shaped. */
  predicate Stored(g: Group, n: nat)
  {
    WellFormed(g) && Shaped(g, n)
  }

  lemma ShapedChild(g: Group, n: nat, k: int)
    requires Shaped(g, n) && n > 0 && HasKey(g.children, k)
    ensures ShapedBelow(FindChild(g.children, k).value, n - 1)
  {
    assert Child(k, FindChild(g.children, k).value) in g.children;
  }

  /** In a library tree every complete path ends at an image. */
  lemma {:induction false} ShapedPathHasImage(g: Group, n: nat, p: Param)
    requires Shaped(g, n) && |p| == n && Sub(g, p).Some?
    ensures Lookup(g, p).Some?
    decreases n
  {
    if n > 0 {
      var c := FindChild(g.children, p[0]).value;
      ShapedChild(g, n, p[0]);
      ShapedPathHasImage(c, n - 1, p[1..]);
    }
  }

  /** In a library tree, `get_params` lists exactly the tuples that have an
      image. */
  lemma StoredWalk(g: Group, n: nat, p: Param)
    requires Stored(g, n)
    ensures p in Walk(g, n) <==> |p| == n && Lookup(g, p).Some?
  {
    WalkMembers(g, n, p);
    if |p| == n && Sub(g, p).Some? {
      ShapedPathHasImage(g, n, p);
    }
  }

  /** A library tree has no image above its depth, so `get_params` on it
      does not raise. */
  lemma {:induction false} ShapedClean(g: Group, n: nat)
    requires Shaped(g, n)
    ensures Clean(g, n)
    decreases n
  {
    if n > 0 {
      forall c | c in g.children
        ensures Clean(c.group, n - 1)
      {
        ShapedClean(c.group, n - 1);
      }
    }
  }

  /** When `get_params` succeeds it lists exactly the complete paths. */
  lemma GetParamsMembers(g: Group, controllables: seq<string>, p: Param)
    requires WellFormed(g)
    ensures GetParams(g, controllables).Success? ==>
              (p in GetParams(g, controllables).value <==> |p| == |controllables| && Sub(g, p).Some?)
  {
    WalkMembers(g, |controllables|, p);
  }

  /** On a library tree `get_params` succeeds and lists exactly the tuples
      holding an image. */
  lemma StoredGetParams(g: Group, controllables: seq<string>, p: Param)
    requires Stored(g, |controllables|)
    ensures GetParams(g, controllables).Success?
    ensures p in GetParams(g, controllables).value <==> |p| == |controllables| && Lookup(g, p).Some?
  {
    ShapedClean(g, |controllables|);
    StoredWalk(g, |controllables|, p);
  }

  /** An image stored at the root of a one-controllable file: the walk meets
      the member "image" where it expects an integer. */
  lemma GetParamsRaisesExample()
    ensures GetParams(Group([], Some(Leaf([], map[]))), ["exposure"]) == Failure(ValueError)
  {
  }

  lemma SetChildShaped(g: Group, n: nat, k: int, c: Group)
    requires Shaped(g, n) || g == EmptyGroup
    requires n > 0 && ShapedBelow(c, n - 1)
    ensures Shaped(g.(children := SetChild(g.children, k, c)), n)
  {
    SetChildMembers(g.children, k, c);
  }

  lemma {:induction false} PutShaped(g: Group, n: nat, path: Param, leaf: Leaf)
    requires Shaped(g, n) || g == EmptyGroup
    requires |path| == n
    ensures Shaped(Put(g, path, Some(leaf)), n)
    decreases n
  {
    if n > 0 {
      var k := path[0];
      var c := match FindChild(g.children, k) case Some(c) => c case None => EmptyGroup;
      if FindChild(g.children, k).Some? {
        ShapedChild(g, n, k);
      }
      var c' := Put(c, path[1..], Some(leaf));
      PutShaped(c, n - 1, path[1..], leaf);
      if n - 1 > 0 {
        var c2 := match FindChild(c.children, path[1]) case Some(x) => x case None => EmptyGroup;
        SetChildMembers(c.children, path[1], Put(c2, path[2..], Some(leaf)));
      }
      SetChildShaped(g, n, k, c');
    }
  }

  /** Writing an image at a full-length path keeps the library shape. */
  lemma PutStored(g: Group, n: nat, path: Param, leaf: Leaf)
    requires Stored(g, n) && |path| == n
    ensures Stored(Put(g, path, Some(leaf)), n)
  {
    PutWellFormed(g, path, Some(leaf));
    PutShaped(g, n, path, leaf);
  }

  lemma {:induction false} PruneShaped(g: Group, n: nat, path: Param)
    requires Shaped(g, n) && n > 0 && |path| == n && Sub(g, path).Some?
    ensures Shaped(Prune(g, path), n)
    decreases n
  {
    var k := path[0];
    ShapedChild(g, n, k);
    var c := FindChild(g.children, k).value;
    var c' := Prune(c, path[1..]);
    if n > 1 {
      PruneShaped(c, n - 1, path[1..]);
    }
    if c' == EmptyGroup {
      RemoveMembers(g.children, k);
    } else {
      SetChildShaped(g, n, k, c');
    }
  }

  /** On a library, a successful `add` keeps its shape and adds exactly
      `param` to the listed tuples; an unsuccessful one changes nothing. */
  lemma AddParams(g: Group, n: nat, param: Param, image: seq<int>, config: map<string, int>, overwrite: bool)
    requires Stored(g, n) && |param| == n
    ensures Stored(Add(g, param, image, config, overwrite).root, n)
    ensures forall q :: q in Walk(Add(g, param, image, config, overwrite).root, n) <==>
      q in Walk(g, n) || (q == param && Add(g, param, image, config, overwrite).added)
  {
    var r := Add(g, param, image, config, overwrite);
    if r.added {
      var leaf := Leaf(image, config);
      GetGroupThenPut(g, param, Some(leaf));
      PutStored(g, n, param, leaf);
      forall q ensures q in Walk(r.root, n) <==> q in Walk(g, n) || q == param {
        StoredWalk(g, n, q);
        StoredWalk(r.root, n, q);
      }
    } else {
      assert r.root == g by {
        GetGroupRootUnchanged(g, param);
      }
    }
  }

  /** On a library with at least one controllable, `rm` keeps its shape and
      removes exactly `param` from the listed tuples. */
  lemma RmParams(g: Group, n: nat, param: Param)
    requires Stored(g, n) && n > 0 && |param| == n
    ensures Stored(Rm(g, param).root, n)
    ensures forall q :: q in Walk(Rm(g, param).root, n) <==> q in Walk(g, n) && q != param
  {
    var r := Rm(g, param);
    RmLookup(g, param, param);
    if Lookup(g, param).Some? {
      PruneShaped(g, n, param);
    }
    forall q ensures q in Walk(r.root, n) <==> q in Walk(g, n) && q != param {
      RmLookup(g, param, q);
      StoredWalk(g, n, q);
      StoredWalk(r.root, n, q);
    }
  }

  // ---------------------------------------------------------------------
  // rm as written. The configuration is stored as an attribute of the
  // image's group (see `add`), but `rm` reads it as a member of that group:
  // the read raises KeyError, which `rm` turns into `None` before deleting
  // anything.

  /** `rm(h5, param)` as the code does it: a missing path or a missing image
      gives `None`; otherwise the configuration is read as a member, and
      only if that read succeeds is anything deleted. */
  function RmAsWritten(g: Group, param: Param): (r: Removal)
    ensures r.removed.None? ==> r.root == g
    ensures r.removed.Some? ==> r.removed.value.param == param
    ensures r.removed.Some? ==> Lookup(g, param) == Some(Leaf(r.removed.value.image, r.removed.value.config))
  {
    match Sub(g, param)
    case None => Removal(g, None)
    case Some(h) =>
      match h.data
      case None => Removal(g, None)
      case Some(leaf) =>
        if HasMember(h, "camera_config") then Removal(Prune(g, param), Some(Removed(param, leaf.image, leaf.config)))
        else Removal(g, None)
  }

  /** As written, `rm` never changes the tree and never reports a removal,
      even for a stored tuple, where the intended `rm` returns the stored
      image and configuration. */
  lemma RmAsWrittenRemovesNothing(g: Group, param: Param)
    ensures RmAsWritten(g, param) == Removal(g, None)
    ensures Lookup(g, param).Some? ==> Rm(g, param).removed.Some?
  {
    if Sub(g, param).Some? {
      ConfigNotMember(Sub(g, param).value);
    }
  }

  /** A one-image library: as written, `rm` reports nothing and the library
      keeps its tuple; the intended `rm` returns the image and leaves no
      tuple listed. */
  lemma RmAsWrittenCounterexample()
    ensures var g := Group([Child(1, Group([], Some(Leaf([], map[]))))], None);
      && Walk(g, 1) == [[1]]
      && RmAsWritten(g, [1]) == Removal(g, None)
      && Walk(RmAsWritten(g, [1]).root, 1) == [[1]]
      && Rm(g, [1]) == Removal(Group([], None), Some(Removed([1], [], map[])))
      && Walk(Rm(g, [1]).root, 1) == []
  {
    var g := Group([Child(1, Group([], Some(Leaf([], map[]))))], None);
    assert FindChild(g.children, 1) == Some(Group([], Some(Leaf([], map[]))));
    assert Walk(g, 1) == [[1]] by {
      assert Walk(g.children[0].group, 0) == [[]];
      PrependSingle(1);
    }
    RmAsWrittenRemovesNothing(g, [1]);
    assert Rm(g, [1]).root == Group([], None) by {
      assert RemoveChild(g.children, 1) == [];
    }
  }

  // ---------------------------------------------------------------------
  // rm with the configuration read repaired, final loop as written: the
  // image and configuration are deleted but the loop only rebinds a local
  // name, so no group is ever unlinked.

  function RmUnpruned(g: Group, param: Param): (r: Removal)
    ensures r.removed == Rm(g, param).removed
  {
    match Sub(g, param)
    case None => Removal(g, None)
    case Some(h) =>
      match h.data
      case None => Removal(g, None)
      case Some(leaf) => Removal(Put(g, param, None), Some(Removed(param, leaf.image, leaf.config)))
  }

  lemma {:induction false} PutSub(g: Group, path: Param, d: Option<Leaf>)
    ensures Sub(Put(g, path, d), path).Some?
    decreases |path|
  {
    if path != [] {
      var k := path[0];
      var c := match FindChild(g.children, k) case Some(c) => c case None => EmptyGroup;
      FindSetChild(g.children, k, Put(c, path[1..], d), k);
      PutSub(c, path[1..], d);
    }
  }

  /** Without pruning, a removed tuple is still listed by `get_params`. */
  lemma RmUnprunedStillListed(g: Group, n: nat, param: Param)
    requires WellFormed(g) && param in Walk(g, n)
    ensures param in Walk(RmUnpruned(g, param).root, n)
  {
    WalkMembers(g, n, param);
    var r := RmUnpruned(g, param);
    if Lookup(g, param).Some? {
      PutWellFormed(g, param, None);
      PutSub(g, param, None);
    }
    WalkMembers(r.root, n, param);
  }

  lemma PrependSingle(k: int)
    ensures Prepend(k, [[]]) == [[k]]
  {
    var r := Prepend(k, [[]]);
    assert |r| == 1 && r[0] == [k] + [];
    assert [k] + [] == [k];
    assert r == [r[0]];
  }

  /** A one-image library: without pruning, removing its image leaves its
      tuple listed; with pruning, the library lists nothing. */
  lemma RmUnprunedCounterexample()
    ensures var g := Group([Child(1, Group([], Some(Leaf([], map[]))))], None);
      && Walk(g, 1) == [[1]]
      && Walk(RmUnpruned(g, [1]).root, 1) == [[1]]
      && Walk(Rm(g, [1]).root, 1) == []
  {
    var g := Group([Child(1, Group([], Some(Leaf([], map[]))))], None);
    assert FindChild(g.children, 1) == Some(Group([], Some(Leaf([], map[]))));
    assert Walk(g, 1) == [[1]] by {
      assert Walk(g.children[0].group, 0) == [[]];
      PrependSingle(1);
    }
    var after := RmUnpruned(g, [1]).root;
    assert after == Group([Child(1, Group([], None))], None) by {
      assert Put(g, [1], None) == Group([Child(1, Group([], None))], None) by {
        assert HasKey(g.children, 1);
        assert Replace(g.children, 1, Group([], None)) == [Child(1, Group([], None))];
      }
    }
    assert Walk(after, 1) == [[1]] by {
      PrependSingle(1);
    }
    assert Rm(g, [1]).root == Group([], None) by {
      assert RemoveChild(g.children, 1) == [];
    }
  }
}

=== FILE: image_library.dfy ===
/** A darkframe library as it is opened for reading
    (h5darkframes/image_library.py): the controllables it was built over,
    the parameters it stores, their observed per-axis bounds, its name, and
    retrieval of an image in one of three modes. */
module ImageLibrary {
  import opened Outcomes
  import opened Tuples
  import opened ControlRanges
  import opened Groups
  import opened H5
  import opened Neighbors
  import Names

  // ---------------------------------------------------------------------
  // _get_controllables

  /** One entry of a map of ranges: a controllable and its range. */
  datatype Axis = Axis(name: string, range: ControlRange)

  /** The evaluated `controls` attribute of a library: an ordered map of
      ranges, a plain dict of them, a list (the provenance of a fused
      library) whose entries are again any of these, or a list of named
      parameter tuples as `params()` returns it (one ordered mapping from
      `controllables` to each tuple of `params`). */
  datatype Ranges =
    | Ordered(axes: seq<Axis>)
    | Plain(axes: seq<Axis>)
    | Listed(parts: seq<Ranges>)
    | NamedList(controllables: seq<string>, params: seq<Param>)

  /** The controllables of a map of ranges, in its order. */
  function AxisNames(axes: seq<Axis>): (r: seq<string>)
    ensures |r| == |axes|
    ensures forall i :: 0 <= i < |axes| ==> r[i] == axes[i].name
  {
    seq(|axes|, i requires 0 <= i < |axes| => axes[i].name)
  }

  /** `_get_controllables`: the keys of an ordered map; for anything else,
      the keys of its entry 0. A plain dict has no key 0 (KeyError), an
      empty list no entry 0 (IndexError), and a list has no `keys`
      (AttributeError). */
  function GetControllables(ranges: Ranges): (r: Result<seq<string>>)
    ensures r.Success? <==>
      || ranges.Ordered?
      || (ranges.Listed? && |ranges.parts| > 0 && (ranges.parts[0].Ordered? || ranges.parts[0].Plain?))
      || (ranges.NamedList? && ranges.params != [])
  {
    match ranges
    case Ordered(axes) => Success(AxisNames(axes))
    case Plain(_) => Failure(KeyError)
    case Listed(parts) =>
      if parts == [] then Failure(IndexError)
      else (match parts[0]
        case Ordered(axes) => Success(AxisNames(axes))
        case Plain(axes) => Success(AxisNames(axes))
        case Listed(_) => Failure(AttributeError)
        case NamedList(_, _) => Failure(AttributeError))
    case NamedList(cs, ps) =>
      if ps == [] then Failure(IndexError) else Success(cs)
  }

  /** A list of ranges has the controllables of its first entry, so the
      provenance list a fusion stores keeps the first source's
      controllables; and the failures are the ones named above. */
  lemma ControllablesFacts(ranges: Ranges)
    ensures ranges.Ordered? ==> GetControllables(ranges) == Success(AxisNames(ranges.axes))
    ensures ranges.Plain? ==> GetControllables(ranges) == Failure(KeyError)
    ensures ranges == Listed([]) ==> GetControllables(ranges) == Failure(IndexError)
    ensures ranges.Listed? && ranges.parts != [] && (ranges.parts[0].Listed? || ranges.parts[0].NamedList?) ==>
      GetControllables(ranges) == Failure(AttributeError)
    ensures ranges.Listed? && ranges.parts != [] && (ranges.parts[0].Ordered? || ranges.parts[0].Plain?) ==>
      GetControllables(ranges) == Success(AxisNames(ranges.parts[0].axes))
  {
  }

  // ---------------------------------------------------------------------
  // _get_params, and the tuple `get` builds from a mapping

  /** `set(controllables)`. */
  function NameSet(cs: seq<string>): set<string>
  {
    set i | 0 <= i < |cs| :: cs[i]
  }

  /** The names are pairwise different, as the keys of a map are. */
  predicate UniqueNames(cs: seq<string>)
  {
    forall i, j :: 0 <= i < j < |cs| ==> cs[i] != cs[j]
  }

  /** The mapping `_get_params` builds for one stored tuple: `cs[i]` to
      `p[i]`, a later occurrence of a name overwriting an earlier one. */
  function Named(cs: seq<string>, p: Param): (r: map<string, int>)
    requires |p| == |cs|
    ensures r.Keys == NameSet(cs)
    decreases |cs|
  {
    if cs == [] then map[]
    else
      var init := Named(cs[..|cs| - 1], p[..|p| - 1]);
      assert forall i :: 0 <= i < |cs| - 1 ==> cs[..|cs| - 1][i] == cs[i];
      init[cs[|cs| - 1] := p[|p| - 1]]
  }

  /** With unique names, each name maps to its own component. */
  lemma {:induction false} NamedAt(cs: seq<string>, p: Param, i: int)
    requires |p| == |cs| && UniqueNames(cs) && 0 <= i < |cs|
    ensures Named(cs, p)[cs[i]] == p[i]
    decreases |cs|
  {
    if i < |cs| - 1 {
      var cs', p' := cs[..|cs| - 1], p[..|p| - 1];
      assert cs'[i] == cs[i] && p'[i] == p[i];
      assert cs[i] != cs[|cs| - 1];
      NamedAt(cs', p', i);
    }
  }

  /** `tuple(controls[c] for c in controllables)`: the values of the named
      controls in controllable order; KeyError when one is missing. */
  function Values(controls: map<string, int>, cs: seq<string>): (r: Result<Param>)
    ensures r.Success? <==> forall i :: 0 <= i < |cs| ==> cs[i] in controls
    ensures r.Success? ==> |r.value| == |cs| && forall i :: 0 <= i < |cs| ==> r.value[i] == controls[cs[i]]
    ensures r.Failure? ==> r.error == KeyError
    decreases |cs|
  {
    if cs == [] then Success([])
    else if cs[0] !in controls then Failure(KeyError)
    else
      var rest := Values(controls, cs[1..]);
      if rest.Failure? then
        assert forall i :: 0 <= i < |cs[1..]| ==> cs[1..][i] == cs[i + 1];
        rest
      else Success([controls[cs[0]]] + rest.value)
  }

  /** A named tuple has every name it was named by. */
  lemma NamedValues(cs: seq<string>, p: Param)
    requires |p| == |cs|
    ensures Values(Named(cs, p), cs).Success?
  {
    assert forall i :: 0 <= i < |cs| ==> cs[i] in NameSet(cs);
  }

  /** Reading back a named tuple gives the tuple again. */
  lemma NamedRoundTrip(cs: seq<string>, p: Param)
    requires |p| == |cs| && UniqueNames(cs)
    ensures Values(Named(cs, p), cs) == Success(p)
  {
    var m := Named(cs, p);
    forall i | 0 <= i < |cs| ensures cs[i] in m && m[cs[i]] == p[i] {
      NamedAt(cs, p, i);
    }
    var r := Values(m, cs);
    assert r.Success?;
    assert r.value == p;
  }

  /** `_get_params`: one mapping per stored tuple, in walk order; like
      `get_params` it raises ValueError on an image above the depth. */
  function NamedParams(g: Group, cs: seq<string>): (r: Result<seq<map<string, int>>>)
    ensures r.Failure? <==> !Clean(g, |cs|)
    ensures r.Success? ==> |r.value| == |Walk(g, |cs|)|
  {
    var ps :- GetParams(g, cs);
    Success(seq(|ps|, j requires 0 <= j < |ps| => Named(cs, ps[j])))
  }

  /** Each mapping has exactly the controllables as keys, and reading it in
      controllable order gives back the stored tuple it was made from. */
  lemma NamedParamsFacts(g: Group, cs: seq<string>, j: int)
    requires UniqueNames(cs) && NamedParams(g, cs).Success? && 0 <= j < |NamedParams(g, cs).value|
    ensures NamedParams(g, cs).value[j].Keys == NameSet(cs)
    ensures Values(NamedParams(g, cs).value[j], cs) == Success(Walk(g, |cs|)[j])
  {
    var p := Walk(g, |cs|)[j];
    assert p in Walk(g, |cs|);
    NamedRoundTrip(cs, p);
  }

  // ---------------------------------------------------------------------
  // The observed bounds

  function MinOf(xs: seq<int>): (m: int)
    requires xs != []
    ensures m in xs && forall x :: x in xs ==> m <= x
    decreases |xs|
  {
    if |xs| == 1 then xs[0]
    else
      var rest := MinOf(xs[1..]);
      assert xs == [xs[0]] + xs[1..];
      if xs[0] <= rest then xs[0] else rest
  }

  function MaxOf(xs: seq<int>): (m: int)
    requires xs != []
    ensures m in xs && forall x :: x in xs ==> x <= m
    decreases |xs|
  {
    if |xs| == 1 then xs[0]
    else
      var rest := MaxOf(xs[1..]);
      assert xs == [xs[0]] + xs[1..];
      if rest <= xs[0] then xs[0] else rest
  }

  /** Component `i` of every tuple. */
  function Column(ps: seq<Param>, i: nat): (r: seq<int>)
    requires forall p :: p in ps ==> i < |p|
    ensures |r| == |ps|
    ensures forall j :: 0 <= j < |ps| ==> r[j] == ps[j][i]
  {
    seq(|ps|, j requires 0 <= j < |ps| => ps[j][i])
  }

  /** `params_points.min(axis=0)`. */
  function Mins(ps: seq<Param>, n: nat): (r: Param)
    requires ps != [] && AllFit(ps, n)
    ensures |r| == n
  {
    seq(n, i requires 0 <= i < n => MinOf(Column(ps, i)))
  }

  /** `params_points.max(axis=0)`. */
  function Maxs(ps: seq<Param>, n: nat): (r: Param)
    requires ps != [] && AllFit(ps, n)
    ensures |r| == n
  {
    seq(n, i requires 0 <= i < n => MaxOf(Column(ps, i)))
  }

  /** The observed bounds hold every stored tuple between them, component
      by component, and each bound is reached by some stored tuple. */
  lemma BoundsFacts(ps: seq<Param>, n: nat, i: int)
    requires ps != [] && AllFit(ps, n) && 0 <= i < n
    ensures forall p :: p in ps ==> Mins(ps, n)[i] <= p[i] <= Maxs(ps, n)[i]
    ensures exists p :: p in ps && p[i] == Mins(ps, n)[i]
    ensures exists p :: p in ps && p[i] == Maxs(ps, n)[i]
  {
    var col := Column(ps, i);
    forall p | p in ps ensures Mins(ps, n)[i] <= p[i] <= Maxs(ps, n)[i] {
      var j :| 0 <= j < |ps| && ps[j] == p;
      assert col[j] == p[i] && col[j] in col;
    }
    var lo :| 0 <= lo < |col| && col[lo] == MinOf(col);
    assert ps[lo] in ps && ps[lo][i] == Mins(ps, n)[i];
    var hi :| 0 <= hi < |col| && col[hi] == MaxOf(col);
    assert ps[hi] in ps && ps[hi][i] == Maxs(ps, n)[i];
  }

  // ---------------------------------------------------------------------
  // ImageLibrary.__init__ and name

  /** An opened library: its tree, its `controls` and `name` attributes,
      and what `__init__` derives from them. */
  datatype Library = Library(
    root: Group,
    ranges: Ranges,
    nameAttr: Option<string>,
    controllables: seq<string>,
    params: seq<Param>,
    mins: Param,
    maxs: Param)

  /** What opening establishes: the parameters are the complete paths as
      deep as there are controllables, there is at least one, and the
      bounds are theirs. */
  predicate Valid(lib: Library)
  {
    var n := |lib.controllables|;
    && WellFormed(lib.root)
    && GetControllables(lib.ranges) == Success(lib.controllables)
    && lib.params == Walk(lib.root, n)
    && lib.params != []
    && lib.mins == Mins(lib.params, n)
    && lib.maxs == Maxs(lib.params, n)
  }

  /** `ImageLibrary(path)` over a container whose root group is `root`,
      with the parameters kept as tuples. A missing `controls` attribute
      raises KeyError; an image above the depth of the controllables, and
      the reduction of the bounds over no parameters, raise ValueError. */
  function Open(root: Group, controls: Option<Ranges>, name: Option<string>): (r: Result<Library>)
    requires WellFormed(root)
    ensures r.Success? ==> Valid(r.value)
  {
    if controls.None? then Failure(KeyError)
    else
      var cs :- GetControllables(controls.value);
      var ps :- GetParams(root, cs);
      if ps == [] then Failure(ValueError)
      else Success(Library(root, controls.value, name, cs, ps, Mins(ps, |cs|), Maxs(ps, |cs|)))
  }

  /** Opening fails exactly when the attribute is missing, the
      controllables cannot be read, an image sits above their depth, or
      nothing is stored; otherwise the library lists every stored tuple,
      with the controllables of its ranges. */
  lemma OpenFacts(root: Group, controls: Option<Ranges>, name: Option<string>)
    requires WellFormed(root)
    ensures controls.None? ==> Open(root, controls, name) == Failure(KeyError)
    ensures controls.Some? && GetControllables(controls.value).Failure? ==>
      Open(root, controls, name) == Failure(GetControllables(controls.value).error)
    ensures controls.Some? && GetControllables(controls.value).Success? ==>
      var cs := GetControllables(controls.value).value;
      && (Open(root, controls, name).Failure? <==> !Clean(root, |cs|) || Walk(root, |cs|) == [])
      && (Open(root, controls, name).Failure? ==> Open(root, controls, name).error == ValueError)
      && (Open(root, controls, name).Success? ==>
            Open(root, controls, name).value.controllables == cs
            && Open(root, controls, name).value.params == Walk(root, |cs|))
  {
  }

  /** `ImageLibrary(path)` as the code does it: `_params` holds one
      parameter mapping per stored tuple, and `np.array(...).min(axis=0)`
      over two or more mappings compares them, which raises TypeError. The
      result is the list of mappings when construction gets past the
      bounds. */
  function OpenAsWritten(root: Group, controls: Option<Ranges>): (r: Result<seq<map<string, int>>>)
    ensures controls.None? ==> r == Failure(KeyError)
    ensures r.Success? ==> |r.value| == 1
  {
    if controls.None? then Failure(KeyError)
    else
      var cs :- GetControllables(controls.value);
      var ms :- NamedParams(root, cs);
      if ms == [] then Failure(ValueError)
      else if |ms| >= 2 then Failure(TypeError)
      else Success(ms)
  }

  /** As written, opening fails wherever the tuple-based opening fails, with
      the same error, and also, with TypeError, on every library holding
      more than one image. */
  lemma OpenAsWrittenFacts(root: Group, controls: Option<Ranges>, name: Option<string>)
    requires WellFormed(root)
    ensures Open(root, controls, name).Failure? ==>
      OpenAsWritten(root, controls) == Failure(Open(root, controls, name).error)
    ensures Open(root, controls, name).Success? ==>
      (OpenAsWritten(root, controls).Failure? <==> |Open(root, controls, name).value.params| >= 2)
    ensures Open(root, controls, name).Success? && OpenAsWritten(root, controls).Failure? ==>
      OpenAsWritten(root, controls).error == TypeError
  {
  }

  lemma PrependSingles(a: int, b: int)
    ensures Prepend(a, [[]]) + Prepend(b, [[]]) == [[a], [b]]
  {
    PrependSingle(a);
    PrependSingle(b);
  }

  /** The tree of two dark frames, at exposure 0 and 5. */
  lemma TwoFramesWalk(root: Group)
    requires root == Group([Child(0, Group([], Some(Leaf([], map[])))), Child(5, Group([], Some(Leaf([], map[]))))], None)
    ensures WellFormed(root) && Clean(root, 1) && Walk(root, 1) == [[0], [5]]
  {
    var leaf := Group([], Some(Leaf([], map[])));
    assert Names.Name(0) == "0" && Names.Name(5) == "5";
    assert Names.NameBelow(0, 5);
    assert Walk(leaf, 0) == [[]];
    assert WalkChildren(root.children[1..], 1) == Prepend(5, [[]]) + [] by {
      assert root.children[1..][1..] == [];
    }
    PrependSingles(0, 5);
  }

  /** Two dark frames, at exposure 0 and 5: the tuple-based opening
      succeeds with both, and as written opening raises TypeError. */
  lemma OpenAsWrittenCounterexample()
    ensures var leaf := Group([], Some(Leaf([], map[])));
      var root := Group([Child(0, leaf), Child(5, leaf)], None);
      var controls := Some(Ordered([Axis("exposure", ControlRange(0, 5, 5, 1, 0.0))]));
      && WellFormed(root)
      && Open(root, controls, None).Success?
      && Open(root, controls, None).value.params == [[0], [5]]
      && OpenAsWritten(root, controls) == Failure(TypeError)
  {
    var leaf := Group([], Some(Leaf([], map[])));
    var root := Group([Child(0, leaf), Child(5, leaf)], None);
    TwoFramesWalk(root);
  }

  lemma {:induction false} DistinctCount(s: seq<Param>)
    requires Distinct(s)
    ensures |set p | p in s| == |s|
    decreases |s|
  {
    if s != [] {
      var init := s[..|s| - 1];
      assert forall i, j :: 0 <= i < j < |init| ==> init[i] == s[i] && init[j] == s[j];
      DistinctCount(init);
      assert (set p | p in s) == (set p | p in init) + {s[|s| - 1]};
      assert s[|s| - 1] !in init;
    }
  }

  /** `nb_pics()`: the number of stored tuples, each counted once. */
  function NbPics(lib: Library): (r: nat)
    ensures Valid(lib) ==> r == |set p | p in lib.params|
  {
    if Valid(lib) then
      WalkSorted(lib.root, |lib.controllables|);
      DistinctCount(lib.params);
      |lib.params|
    else |lib.params|
  }

  /** `name()`: the stored name, or a fixed placeholder without one. */
  function Name(lib: Library): (r: string)
    ensures lib.nameAttr.Some? ==> r == lib.nameAttr.value
    ensures lib.nameAttr.None? ==> r == "(not named)"
  {
    match lib.nameAttr
    case Some(s) => s
    case None => "(not named)"
  }

  // ---------------------------------------------------------------------
  // Closest retrieval: a greedy descent, one axis at a time

  /** How far `k` is from `x`. */
  function Gap(k: int, x: int): nat
  {
    if k >= x then k - x else x - k
  }

  /** `a` is preferred to `b` as the value nearest `x`: nearer, or as near
      and smaller. */
  predicate Preferred(a: int, b: int, x: int)
  {
    Gap(a, x) < Gap(b, x) || (Gap(a, x) == Gap(b, x) && a < b)
  }

  /** The position of the child whose name is nearest `x`, the smaller
      name on a tie. */
  function NearestChild(cs: seq<Child>, x: int): (k: nat)
    requires cs != []
    ensures k < |cs|
    ensures forall j :: 0 <= j < |cs| ==> !Preferred(cs[j].key, cs[k].key, x)
    decreases |cs|
  {
    if |cs| == 1 then 0
    else
      var k := NearestChild(cs[1..], x) + 1;
      assert forall j :: 1 <= j < |cs| ==> cs[j] == cs[1..][j - 1];
      if Preferred(cs[k].key, cs[0].key, x) then k else 0
  }

  /** The closest stored tuple to `t`: at each level, the child nearest
      the target's component on that axis, then on into it. A level with
      no child, or a final group without an image, is ImageNotFound. */
  function Descend(g: Group, t: Param): (r: Result<Param>)
    ensures r.Success? ==> |r.value| == |t|
    ensures r.Failure? ==> r.error == ImageNotFound
    decreases |t|
  {
    if t == [] then
      if g.data.Some? then Success([]) else Failure(ImageNotFound)
    else if g.children == [] then Failure(ImageNotFound)
    else
      var c := g.children[NearestChild(g.children, t[0])];
      var rest :- Descend(c.group, t[1..]);
      Success([c.key] + rest)
  }

  /** One step of the descent: into the child nearest the first
      component. */
  lemma DescendStep(g: Group, t: Param)
    requires t != [] && g.children != []
    ensures var c := g.children[NearestChild(g.children, t[0])];
      && (Descend(g, t).Success? <==> Descend(c.group, t[1..]).Success?)
      && (Descend(g, t).Success? ==> Descend(g, t).value == [c.key] + Descend(c.group, t[1..]).value)
  {
  }

  /** The first component of the descent's result names a child that no
      other child is preferred to, and the rest is the descent into that
      child. */
  lemma DescendGreedy(g: Group, t: Param)
    requires WellFormed(g) && |t| > 0 && Descend(g, t).Success?
    ensures var p := Descend(g, t).value;
      && HasKey(g.children, p[0])
      && (forall j :: 0 <= j < |g.children| ==> !Preferred(g.children[j].key, p[0], t[0]))
      && Descend(FindChild(g.children, p[0]).value, t[1..]) == Success(p[1..])
  {
    var k := NearestChild(g.children, t[0]);
    var c := g.children[k];
    FindSortedMember(g.children, k);
    DescendStep(g, t);
  }

  /** What the descent finds is stored. */
  lemma {:induction false} DescendStored(g: Group, t: Param)
    requires WellFormed(g) && Descend(g, t).Success?
    ensures Lookup(g, Descend(g, t).value).Some?
    decreases |t|
  {
    if t != [] {
      var k := NearestChild(g.children, t[0]);
      var c := g.children[k];
      FindSortedMember(g.children, k);
      ChildWellFormed(g, c.key);
      DescendStep(g, t);
      DescendStored(c.group, t[1..]);
      var p := Descend(g, t).value;
      assert p[0] == c.key && p[1..] == Descend(c.group, t[1..]).value;
    }
  }

  /** In a tree whose paths all have the target's length and end in an
      image, the descent cannot fail once there is a child to start
      from. */
  lemma {:induction false} DescendSucceeds(g: Group, t: Param)
    requires ShapedBelow(g, |t|)
    ensures Descend(g, t).Success?
    decreases |t|
  {
    if t != [] {
      var k := NearestChild(g.children, t[0]);
      var c := g.children[k];
      assert c in g.children;
      DescendStep(g, t);
      DescendSucceeds(c.group, t[1..]);
    }
  }

  /** The child named `x` is the one nearest `x`. */
  lemma NearestIsExact(g: Group, x: int)
    requires WellFormed(g) && HasKey(g.children, x)
    ensures g.children[NearestChild(g.children, x)] == Child(x, FindChild(g.children, x).value)
  {
    var cs := g.children;
    var i :| 0 <= i < |cs| && cs[i].key == x;
    var k := NearestChild(cs, x);
    assert !Preferred(cs[i].key, cs[k].key, x);
    FindSortedMember(cs, k);
  }

  /** A stored target is its own closest tuple. */
  lemma {:induction false} DescendExact(g: Group, t: Param)
    requires WellFormed(g) && Lookup(g, t).Some?
    ensures Descend(g, t) == Success(t)
    decreases |t|
  {
    if t != [] {
      var h := FindChild(g.children, t[0]).value;
      NearestIsExact(g, t[0]);
      ChildWellFormed(g, t[0]);
      DescendExact(h, t[1..]);
      DescendStep(g, t);
      assert [t[0]] + t[1..] == t;
    }
  }

  // ---------------------------------------------------------------------
  // get

  /** `GetType`: exact, closest, or the neighbours of the target. */
  datatype GetType = Exact | Closest | Neighbors

  /** What `get` hands back: the image stored for one tuple, or the tuples
      whose images are averaged. */
  datatype Retrieved = Image(param: Param, leaf: Leaf) | Average(params: seq<Param>)

  /** Exact retrieval: the image stored for `t`, or ImageNotFound. */
  function ExactImage(g: Group, t: Param): (r: Result<Retrieved>)
    ensures r.Success? <==> Lookup(g, t).Some?
    ensures r.Success? ==> r.value.Image? && r.value.param == t && Some(r.value.leaf) == Lookup(g, t)
    ensures r.Failure? ==> r.error == ImageNotFound
  {
    match Lookup(g, t)
    case None => Failure(ImageNotFound)
    case Some(leaf) => Success(Image(t, leaf))
  }

  /** Closest retrieval: the image of the tuple the descent reaches. */
  function ClosestImage(g: Group, t: Param): (r: Result<Retrieved>)
    ensures r.Success? ==> r.value.Image? && |r.value.param| == |t| && Some(r.value.leaf) == Lookup(g, r.value.param)
    ensures r.Failure? ==> r.error == ImageNotFound
  {
    var p :- Descend(g, t);
    ExactImage(g, p)
  }

  /** `ImageLibrary.get`: the tuple of the named controls, in controllable
      order, retrieved in the requested mode; in the neighbours mode, an
      empty list of neighbours falls back to the closest image. */
  function Get(lib: Library, controls: map<string, int>, mode: GetType): (r: Result<Retrieved>)
    requires Valid(lib)
    ensures mode != Neighbors && r.Success? ==> r.value.Image?
  {
    var t :- Values(controls, lib.controllables);
    match mode
    case Exact => ExactImage(lib.root, t)
    case Closest => ClosestImage(lib.root, t)
    case Neighbors =>
      ValidWithin(lib);
      var ns := NpGetNeighbors(lib.params, lib.mins, lib.maxs, t);
      if ns == [] then ClosestImage(lib.root, t) else Success(Average(ns))
  }

  /** The stored tuples of an opened library lie within its bounds. */
  lemma ValidWithin(lib: Library)
    requires Valid(lib)
    ensures Within(lib.params, Bounds(lib.mins, lib.maxs))
  {
    var n := |lib.controllables|;
    forall i | 0 <= i < n
      ensures forall p :: p in lib.params ==> lib.mins[i] <= p[i] <= lib.maxs[i]
    {
      BoundsFacts(lib.params, n, i);
    }
  }

  /** A missing controllable is KeyError in every mode. */
  lemma GetMissing(lib: Library, controls: map<string, int>, mode: GetType)
    requires Valid(lib) && exists i :: 0 <= i < |lib.controllables| && lib.controllables[i] !in controls
    ensures Get(lib, controls, mode) == Failure(KeyError)
  {
  }

  /** Exact retrieval gives the image stored for the tuple of the named
      controls, or ImageNotFound. */
  lemma GetExact(lib: Library, controls: map<string, int>)
    requires Valid(lib) && Values(controls, lib.controllables).Success?
    ensures var t := Values(controls, lib.controllables).value;
      Get(lib, controls, Exact) ==
        if Lookup(lib.root, t).Some? then Success(Image(t, Lookup(lib.root, t).value)) else Failure(ImageNotFound)
  {
  }

  /** Closest retrieval gives the image of the stored tuple the greedy
      descent reaches, or ImageNotFound when the descent fails. */
  lemma GetClosest(lib: Library, controls: map<string, int>)
    requires Valid(lib) && Values(controls, lib.controllables).Success?
    ensures var t := Values(controls, lib.controllables).value;
      && (Get(lib, controls, Closest).Success? <==> Descend(lib.root, t).Success?)
      && (Get(lib, controls, Closest).Failure? ==> Get(lib, controls, Closest).error == ImageNotFound)
      && (Get(lib, controls, Closest).Success? ==>
            var p := Descend(lib.root, t).value;
            Lookup(lib.root, p).Some? && Get(lib, controls, Closest).value == Image(p, Lookup(lib.root, p).value))
  {
    var t := Values(controls, lib.controllables).value;
    if Descend(lib.root, t).Success? {
      DescendStored(lib.root, t);
    }
  }

  /** The neighbours mode of an opened library: a stored target averages
      itself; otherwise the neighbours are averaged, unless there are none,
      which happens exactly when every axis is flat (a single stored
      tuple, so every rescaled coordinate is nan), and then `get` falls
      back to the closest image. */
  lemma NeighborsFallBack(lib: Library, controls: map<string, int>)
    requires Valid(lib) && Values(controls, lib.controllables).Success?
    ensures var t := Values(controls, lib.controllables).value;
      t in lib.params ==> Get(lib, controls, Neighbors) == Success(Average([t]))
    ensures var t := Values(controls, lib.controllables).value;
      var flat := forall i :: 0 <= i < |t| ==> lib.mins[i] == lib.maxs[i];
      && (t !in lib.params && flat ==> Get(lib, controls, Neighbors) == ClosestImage(lib.root, t))
      && (!(t !in lib.params && flat) ==>
            && Get(lib, controls, Neighbors).Success?
            && Get(lib, controls, Neighbors).value.Average?
            && Get(lib, controls, Neighbors).value.params != []
            && forall q :: q in Get(lib, controls, Neighbors).value.params ==> q in lib.params)
  {
    var t := Values(controls, lib.controllables).value;
    ValidWithin(lib);
    NpNeighborsFacts(lib.params, lib.mins, lib.maxs, t);
  }

  /** The bounds of a library holding a single tuple are that tuple. */
  lemma SingleBounds(lib: Library, p: Param)
    requires Valid(lib) && lib.params == [p]
    ensures lib.mins == p && lib.maxs == p
  {
    var n := |lib.controllables|;
    assert p in lib.params;
    forall i | 0 <= i < n ensures lib.mins[i] == p[i] && lib.maxs[i] == p[i] {
      BoundsFacts(lib.params, n, i);
    }
  }

  /** One dark frame at (60, 10) and the target (70, 10): the neighbours
      mode falls back to the closest image, the one stored at (60, 10). */
  lemma NeighborsFallBackExample(lib: Library, controls: map<string, int>)
    requires Valid(lib) && Shaped(lib.root, |lib.controllables|) && lib.params == [[60, 10]]
    requires Values(controls, lib.controllables) == Success([70, 10])
    ensures Get(lib, controls, Neighbors).Success?
    ensures Get(lib, controls, Neighbors) == ExactImage(lib.root, [60, 10])
  {
    var t := [70, 10];
    SingleBounds(lib, [60, 10]);
    assert t !in lib.params;
    NeighborsFallBack(lib, controls);
    assert Get(lib, controls, Neighbors) == ClosestImage(lib.root, t);
    ClosestInLibrary(lib, t);
    assert Descend(lib.root, t) == Success([60, 10]);
    StoredWalk(lib.root, 2, [60, 10]);
  }

  /** Once a tuple is removed its exact retrieval is ImageNotFound; adding
      an image back there (with `overwrite`) succeeds even as written, and
      its exact retrieval gives it back. With the corrected `add`, the same
      holds for an overwrite without the removal. */
  lemma EditThenGet(g: Group, p: Param, image: seq<int>, config: map<string, int>)
    requires WellFormed(g)
    ensures ExactImage(Rm(g, p).root, p) == Failure(ImageNotFound)
    ensures AddAsWritten(Rm(g, p).root, p, image, config, true).Success?
    ensures ExactImage(Add(Rm(g, p).root, p, image, config, true).root, p) == Success(Image(p, Leaf(image, config)))
    ensures ExactImage(Add(g, p, image, config, true).root, p) == Success(Image(p, Leaf(image, config)))
  {
    RmLookup(g, p, p);
  }

  /** A library tree over `n > 0` controllables with something stored
      has a child below its root. */
  lemma StoredNotEmpty(g: Group, n: nat)
    requires Shaped(g, n) && Walk(g, n) != []
    ensures ShapedBelow(g, n)
  {
  }

  /** A stored library always answers a closest query with a stored
      tuple, and a stored target with itself. */
  lemma ClosestInLibrary(lib: Library, t: Param)
    requires Valid(lib) && Shaped(lib.root, |lib.controllables|) && |t| == |lib.controllables|
    ensures Descend(lib.root, t).Success?
    ensures Descend(lib.root, t).value in lib.params
    ensures t in lib.params ==> Descend(lib.root, t) == Success(t)
  {
    var n := |t|;
    var g := lib.root;
    StoredNotEmpty(g, n);
    DescendSucceeds(g, t);
    DescendStored(g, t);
    StoredWalk(g, n, Descend(g, t).value);
    if t in lib.params {
      StoredWalk(g, n, t);
      DescendExact(g, t);
    }
  }

  // ---------------------------------------------------------------------
  // The 3 x 4 test grid

  function GridLeaf(w: int, h: int): Group
  {
    Group([], Some(Leaf([], map["width" := w, "height" := h])))
  }

  /** The heights 10 to 13 below one width. */
  function GridColumn(w: int): Group
  {
    Group([Child(10, GridLeaf(w, 10)), Child(11, GridLeaf(w, 11)), Child(12, GridLeaf(w, 12)), Child(13, GridLeaf(w, 13))], None)
  }

  /** The library of the tests: widths 60, 80, 100 by heights 10 to 13,
      the widths listed in name order. */
  function GridTree(): Group
  {
    Group([Child(100, GridColumn(100)), Child(60, GridColumn(60)), Child(80, GridColumn(80))], None)
  }

  /** A descent of two levels, spelled out. */
  lemma DescendTwo(g: Group, x: int, y: int)
    requires g.children != []
    requires var c := g.children[NearestChild(g.children, x)];
      c.group.children != [] && c.group.children[NearestChild(c.group.children, y)].group.data.Some?
    ensures var c := g.children[NearestChild(g.children, x)];
      Descend(g, [x, y]) == Success([c.key, c.group.children[NearestChild(c.group.children, y)].key])
  {
    var c := g.children[NearestChild(g.children, x)];
    var d := c.group.children[NearestChild(c.group.children, y)];
    assert Descend(d.group, []) == Success([]);
    assert [y][1..] == [];
    DescendStep(c.group, [y]);
    assert [d.key] + [] == [d.key];
    assert Descend(c.group, [y]) == Success([d.key]);
    assert [x, y][1..] == [y];
    DescendStep(g, [x, y]);
    assert [c.key] + [d.key] == [c.key, d.key];
  }

  /** The preferred of two values. */
  function Better(a: int, b: int, x: int): int
  {
    if Preferred(b, a, x) then b else a
  }

  /** The name `NearestChild` picks, computed from the names alone. */
  function BestKey(keys: seq<int>, x: int): int
    requires keys != []
    decreases |keys|
  {
    if |keys| == 1 then keys[0] else Better(keys[0], BestKey(keys[1..], x), x)
  }

  function Keys(cs: seq<Child>): (r: seq<int>)
    ensures |r| == |cs| && forall i :: 0 <= i < |cs| ==> r[i] == cs[i].key
  {
    seq(|cs|, i requires 0 <= i < |cs| => cs[i].key)
  }

  lemma {:induction false} NearestKey(cs: seq<Child>, x: int)
    requires cs != []
    ensures cs[NearestChild(cs, x)].key == BestKey(Keys(cs), x)
    decreases |cs|
  {
    if |cs| > 1 {
      NearestKey(cs[1..], x);
      assert Keys(cs)[1..] == Keys(cs[1..]);
    }
  }

  /** The width the first level of the grid picks for `x`. */
  lemma GridWidth(x: int, w: int)
    requires BestKey([100, 60, 80], x) == w
    ensures var c := GridTree().children[NearestChild(GridTree().children, x)];
      c.key == w && c.group == GridColumn(w)
  {
    var cs := GridTree().children;
    NearestKey(cs, x);
    assert Keys(cs) == [100, 60, 80];
  }

  /** The height the second level of the grid picks for `y`. */
  lemma GridHeight(w: int, y: int, h: int)
    requires BestKey([10, 11, 12, 13], y) == h
    ensures var d := GridColumn(w).children[NearestChild(GridColumn(w).children, y)];
      d.key == h && d.group == GridLeaf(w, h)
  {
    var cs := GridColumn(w).children;
    NearestKey(cs, y);
    assert Keys(cs) == [10, 11, 12, 13];
  }

  /** The descent through the grid picks width `w` and height `h`. */
  lemma GridDescend(x: int, y: int, w: int, h: int)
    requires BestKey([100, 60, 80], x) == w
    requires BestKey([10, 11, 12, 13], y) == h
    ensures Descend(GridTree(), [x, y]) == Success([w, h])
  {
    GridWidth(x, w);
    GridHeight(w, y, h);
    DescendTwo(GridTree(), x, y);
  }

  /** The closest tuples the tests expect: (61, 11) to (60, 11),
      (75, 11) to (80, 11), (75, 14) to (80, 13) and (75, 9) to
      (80, 10); on a tie, (70, 11) goes to the smaller width. */
  lemma GridClosest()
    ensures Descend(GridTree(), [61, 11]) == Success([60, 11])
    ensures Descend(GridTree(), [75, 11]) == Success([80, 11])
    ensures Descend(GridTree(), [75, 14]) == Success([80, 13])
    ensures Descend(GridTree(), [75, 9]) == Success([80, 10])
    ensures Descend(GridTree(), [70, 11]) == Success([60, 11])
  {
    GridDescend(61, 11, 60, 11);
    GridDescend(75, 11, 80, 11);
    GridDescend(75, 14, 80, 13);
    GridDescend(75, 9, 80, 10);
    GridDescend(70, 11, 60, 11);
  }
}

=== FILE: iteration.dfy ===
/** Every combination of control values, in `itertools.product` order
    (h5darkframes/iteration.py). */
module Iteration {
  import opened Outcomes
  import opened Tuples
  import opened ControlRanges

  /** Each value of `xs` in turn, followed by every tail. */
  function Spread(xs: seq<int>, tails: seq<Param>): (r: seq<Param>)
    decreases |xs|
  {
    if xs == [] then [] else Prepend(xs[0], tails) + Spread(xs[1..], tails)
  }

  /** `iterate_ints(*lists)`: the Cartesian product, first list slowest. */
  function IterateInts(lists: seq<seq<int>>): (r: seq<Param>)
    ensures forall t :: t in r ==> |t| == |lists|
    decreases |lists|
  {
    if lists == [] then [[]]
    else
      var tails := IterateInts(lists[1..]);
      SpreadMembersAll(lists[0], tails);
      Spread(lists[0], tails)
  }

  /** The number of combinations. */
  function Combinations(lists: seq<seq<int>>): nat
    decreases |lists|
  {
    if lists == [] then 1 else |lists[0]| * Combinations(lists[1..])
  }

  // ---------------------------------------------------------------------

  lemma {:induction false} SpreadMember(xs: seq<int>, tails: seq<Param>, t: Param)
    ensures t in Spread(xs, tails) <==> |t| > 0 && t[0] in xs && t[1..] in tails
    decreases |xs|
  {
    if xs != [] {
      PrependMember(xs[0], tails, t);
      SpreadMember(xs[1..], tails, t);
      assert xs == [xs[0]] + xs[1..];
    }
  }

  lemma SpreadMembersAll(xs: seq<int>, tails: seq<Param>)
    ensures forall t :: t in Spread(xs, tails) <==> |t| > 0 && t[0] in xs && t[1..] in tails
  {
    forall t ensures t in Spread(xs, tails) <==> |t| > 0 && t[0] in xs && t[1..] in tails {
      SpreadMember(xs, tails, t);
    }
  }

  /** A tuple is produced iff it has one component per list and each
      component is a value of its list. */
  lemma {:induction false} IterateIntsMembers(lists: seq<seq<int>>, t: Param)
    ensures t in IterateInts(lists) <==>
      |t| == |lists| && forall i :: 0 <= i < |t| ==> t[i] in lists[i]
    decreases |lists|
  {
    if lists != [] {
      var tails := IterateInts(lists[1..]);
      SpreadMember(lists[0], tails, t);
      if |t| > 0 {
        IterateIntsMembers(lists[1..], t[1..]);
        if |t| == |lists| && forall i :: 0 <= i < |t| ==> t[i] in lists[i] {
          assert forall i :: 0 <= i < |t[1..]| ==> t[1..][i] == t[i + 1];
        }
        if t in IterateInts(lists) {
          forall i | 0 <= i < |t| ensures t[i] in lists[i] {
            if i > 0 {
              assert t[i] == t[1..][i - 1];
            }
          }
        }
      }
    } else {
      assert t in [[]] <==> t == [];
    }
  }

  lemma {:induction false} SpreadLength(xs: seq<int>, tails: seq<Param>)
    ensures |Spread(xs, tails)| == |xs| * |tails|
    decreases |xs|
  {
    if xs != [] {
      SpreadLength(xs[1..], tails);
      assert |xs| * |tails| == |tails| + (|xs| - 1) * |tails|;
    }
  }

  /** There are as many combinations as the product of the list lengths. */
  lemma {:induction false} IterateIntsCount(lists: seq<seq<int>>)
    ensures |IterateInts(lists)| == Combinations(lists)
    decreases |lists|
  {
    if lists != [] {
      IterateIntsCount(lists[1..]);
      SpreadLength(lists[0], IterateInts(lists[1..]));
    }
  }

  /** An empty list leaves nothing to combine. */
  lemma {:induction false} IterateIntsEmpty(lists: seq<seq<int>>, i: int)
    requires 0 <= i < |lists| && lists[i] == []
    ensures IterateInts(lists) == []
    decreases |lists|
  {
    IterateIntsCount(lists);
    CombinationsZero(lists, i);
  }

  lemma {:induction false} CombinationsZero(lists: seq<seq<int>>, i: int)
    requires 0 <= i < |lists| && lists[i] == []
    ensures Combinations(lists) == 0
    decreases |lists|
  {
    if i > 0 {
      CombinationsZero(lists[1..], i - 1);
    }
  }

  // ---------------------------------------------------------------------
  // Order

  /** Every earlier value is strictly below every later one. */
  predicate Ascending(xs: seq<int>, below: (int, int) -> bool)
  {
    forall i, j :: 0 <= i < j < |xs| ==> below(xs[i], xs[j]) && xs[i] != xs[j]
  }

  lemma {:induction false} SpreadSorted(xs: seq<int>, tails: seq<Param>, below: (int, int) -> bool)
    requires Ascending(xs, below) && StrictlySorted(tails, below)
    ensures StrictlySorted(Spread(xs, tails), below)
    decreases |xs|
  {
    if xs != [] {
      var a, b := Prepend(xs[0], tails), Spread(xs[1..], tails);
      PrependKeepsOrder(xs[0], tails, below);
      SpreadSorted(xs[1..], tails, below);
      forall i, j | 0 <= i < |a| && 0 <= j < |b|
        ensures LexBelow(a[i], b[j], below)
      {
        assert b[j] in b;
        SpreadMember(xs[1..], tails, b[j]);
        var m :| 0 <= m < |xs[1..]| && xs[1..][m] == b[j][0];
        assert xs[m + 1] == b[j][0];
        assert b[j] == [b[j][0]] + b[j][1..];
        PrependBelow(xs[0], tails[i], b[j][0], b[j][1..], below);
      }
      ConcatSorted(a, b, below);
    }
  }

  /** When every list ascends, the combinations come out in strictly
      ascending lexicographic order, so none is produced twice. */
  lemma {:induction false} IterateIntsSorted(lists: seq<seq<int>>, below: (int, int) -> bool)
    requires forall i :: 0 <= i < |lists| ==> Ascending(lists[i], below)
    ensures StrictlySorted(IterateInts(lists), below)
    ensures Distinct(IterateInts(lists))
    decreases |lists|
  {
    if lists != [] {
      IterateIntsSorted(lists[1..], below);
      assert Ascending(lists[0], below);
      SpreadSorted(lists[0], IterateInts(lists[1..]), below);
    }
    SortedDistinct(IterateInts(lists), below);
  }

  // ---------------------------------------------------------------------
  // iterate_controls

  /** The value lists of the ranges, in order; the first range with a zero
      step raises ValueError. */
  function AllValues(ranges: seq<ControlRange>): (r: Result<seq<seq<int>>>)
    ensures r.Success? <==> forall i :: 0 <= i < |ranges| ==> ranges[i].step != 0
    ensures r.Success? ==>
      && |r.value| == |ranges|
      && forall i :: 0 <= i < |ranges| ==> r.value[i] == GetValues(ranges[i]).value
    ensures r.Failure? ==> r.error == ValueError
    decreases |ranges|
  {
    if ranges == [] then Success([])
    else
      var head :- GetValues(ranges[0]);
      var rest := AllValues(ranges[1..]);
      if rest.Failure? then
        assert forall i :: 0 <= i < |ranges[1..]| ==> ranges[1..][i] == ranges[i + 1];
        Failure(rest.error)
      else
        Success([head] + rest.value)
  }

  /** `iterate_controls`: every combination of the ranges' values. */
  function IterateControls(ranges: seq<ControlRange>): (r: Result<seq<Param>>)
    ensures r.Failure? <==> exists i :: 0 <= i < |ranges| && ranges[i].step == 0
    ensures r.Success? ==> forall t :: t in r.value ==> |t| == |ranges|
  {
    var lists :- AllValues(ranges);
    Success(IterateInts(lists))
  }

  predicate Less(a: int, b: int)
  {
    a < b
  }

  /** With positive steps, the combinations of the ranges are exactly the
      tuples of range values, produced once each in ascending
      lexicographic order, and there are as many as the product of the
      range lengths. */
  lemma IterateControlsFacts(ranges: seq<ControlRange>, t: Param)
    requires forall i :: 0 <= i < |ranges| ==> ranges[i].step > 0
    ensures IterateControls(ranges).Success?
    ensures t in IterateControls(ranges).value <==>
      |t| == |ranges| && forall i :: 0 <= i < |t| ==> t[i] in GetValues(ranges[i]).value
    ensures StrictlySorted(IterateControls(ranges).value, Less)
    ensures Distinct(IterateControls(ranges).value)
    ensures |IterateControls(ranges).value| == Combinations(AllValues(ranges).value)
  {
    var lists := AllValues(ranges).value;
    IterateIntsMembers(lists, t);
    IterateIntsCount(lists);
    forall i | 0 <= i < |lists| ensures Ascending(lists[i], Less) {
      assert lists[i] == GetValues(ranges[i]).value;
    }
    IterateIntsSorted(lists, Less);
  }

  /** The first three controllables of the library tests. */
  function TestRanges(): seq<ControlRange>
  {
    [NewRange(0, 10, 5), NewRange(0, 3, 1), NewRange(0, 15, 3)]
  }

  lemma TestValues()
    ensures AllValues(TestRanges()) == Success([[0, 5, 10], [0, 1, 2, 3], [0, 3, 6, 9, 12, 15]])
  {
    ValuesExamples();
    var ranges := TestRanges();
    forall i | 0 <= i < |ranges| ensures ranges[i].step != 0 {
      if i == 0 {} else if i == 1 {} else {}
    }
    var v := AllValues(ranges).value;
    assert |v| == 3;
    assert v[0] == GetValues(ranges[0]).value == [0, 5, 10];
    assert v[1] == GetValues(ranges[1]).value == [0, 1, 2, 3];
    assert v[2] == GetValues(ranges[2]).value == [0, 3, 6, 9, 12, 15];
    assert AllValues(ranges).Success?;
    assert v == [[0, 5, 10], [0, 1, 2, 3], [0, 3, 6, 9, 12, 15]];
  }

  /** The test ranges give 3 x 4 x 6 combinations. */
  lemma ExampleCount()
    ensures IterateControls(TestRanges()).Success?
    ensures |IterateControls(TestRanges()).value| == 72
  {
    TestValues();
    var lists := AllValues(TestRanges()).value;
    assert |lists| == 3 && |lists[0]| == 3 && |lists[1]| == 4 && |lists[2]| == 6;
    ListsCount(lists);
  }

  lemma ListsCount(lists: seq<seq<int>>)
    requires |lists| == 3 && |lists[0]| == 3 && |lists[1]| == 4 && |lists[2]| == 6
    ensures |IterateInts(lists)| == 72
  {
    IterateIntsCount(lists);
    CombinationsOfThree(lists);
  }

  lemma CombinationsOfThree(lists: seq<seq<int>>)
    requires |lists| == 3
    ensures Combinations(lists) == |lists[0]| * |lists[1]| * |lists[2]|
  {
    var tail := lists[1..];
    assert tail[1..][1..] == [];
    assert Combinations(tail[1..]) == |lists[2]|;
    assert Combinations(tail) == |lists[1]| * |lists[2]|;
  }

  lemma ExampleTuples(lists: seq<seq<int>>)
    requires lists == [[0, 5, 10], [0, 1, 2, 3], [0, 3, 6, 9, 12, 15]]
    ensures [10, 3, 15] in IterateInts(lists)
  {
    var t := [10, 3, 15];
    forall i | 0 <= i < |t| ensures t[i] in lists[i] {
      if i == 0 {
        assert t[0] == lists[0][2];
      } else if i == 1 {
        assert t[1] == lists[1][3];
      } else {
        assert t[2] == lists[2][5];
      }
    }
    IterateIntsMembers(lists, t);
  }

  /** (10, 3, 15) is one of the combinations; (10, 3, 16) is not, since 16
      is beyond the last range's maximum. */
  lemma ExampleMembers()
    ensures [10, 3, 15] in IterateControls(TestRanges()).value
    ensures [10, 3, 16] !in IterateControls(TestRanges()).value
  {
    TestValues();
    ExampleTuples([[0, 5, 10], [0, 1, 2, 3], [0, 3, 6, 9, 12, 15]]);
    ExampleExcluded();
  }

  lemma ExampleExcluded()
    ensures IterateControls(TestRanges()).Success?
    ensures [10, 3, 16] !in IterateControls(TestRanges()).value
  {
    var ranges := TestRanges();
    forall i | 0 <= i < |ranges| ensures ranges[i].step != 0 {
      if i == 0 {} else if i == 1 {} else {}
    }
    var lists := AllValues(ranges).value;
    var t := [10, 3, 16];
    assert lists[2] == GetValues(ranges[2]).value;
    assert t[2] !in lists[2];
    IterateIntsMembers(lists, t);
  }
}

=== FILE: names.dfy ===
/** Group names. The container names every group by the decimal string of
    its integer (`str(p)`), reads it back with `int(key)`, and lists a
    group's children in the order of those strings. This module defines the
    decimal string, its parser and Python's order on strings. */
module Names {

  function DigitChar(d: nat): (c: char)
    requires d < 10
    ensures '0' <= c <= '9'
  {
    ('0' as int + d) as char
  }

  function DigitValue(c: char): int
  {
    c as int - '0' as int
  }

  /** Decimal digits of a natural number, most significant first, without
      leading zeros. */
  function Digits(n: nat): (s: string)
    ensures |s| >= 1
    ensures forall i :: 0 <= i < |s| ==> '0' <= s[i] <= '9'
    decreases n
  {
    if n < 10 then [DigitChar(n)] else Digits(n / 10) + [DigitChar(n % 10)]
  }

  /** `str(k)` for an int `k`: a minus sign exactly when `k` is negative,
      then decimal digits. */
  function Name(k: int): (r: string)
    ensures |r| >= 1 && (r[0] == '-' <==> k < 0)
    ensures forall i :: (if k < 0 then 1 else 0) <= i < |r| ==> '0' <= r[i] <= '9'
  {
    if k < 0 then "-" + Digits(-k) else Digits(k)
  }

  function ParseDigits(s: string): (r: int)
    ensures (forall i :: 0 <= i < |s| ==> '0' <= s[i] <= '9') ==> r >= 0
    decreases |s|
  {
    if s == [] then 0 else ParseDigits(s[..|s| - 1]) * 10 + DigitValue(s[|s| - 1])
  }

  /** `int(s)` restricted to the strings `Name` produces: a string of
      digits reads as a natural number, and one with a leading minus sign
      as its negation. */
  function ParseName(s: string): (r: int)
    ensures (forall i :: 0 <= i < |s| ==> '0' <= s[i] <= '9') ==> r >= 0
    ensures |s| > 0 && s[0] == '-' && (forall i :: 1 <= i < |s| ==> '0' <= s[i] <= '9') ==> r <= 0
  {
    if |s| > 0 && s[0] == '-' then -ParseDigits(s[1..]) else ParseDigits(s)
  }

  lemma {:induction false} DigitsRoundTrip(n: nat)
    ensures ParseDigits(Digits(n)) == n
    decreases n
  {
    if n >= 10 {
      var s := Digits(n / 10) + [DigitChar(n % 10)];
      assert s[..|s| - 1] == Digits(n / 10);
      DigitsRoundTrip(n / 10);
    }
  }

  /** Reading back the name of a group yields its integer: `int(str(k)) == k`. */
  lemma NameRoundTrip(k: int)
    ensures ParseName(Name(k)) == k
  {
    if k < 0 {
      assert ("-" + Digits(-k))[1..] == Digits(-k);
      DigitsRoundTrip(-k);
    } else {
      DigitsRoundTrip(k);
    }
  }

  lemma NameInjective(a: int, b: int)
    requires Name(a) == Name(b)
    ensures a == b
  {
    NameRoundTrip(a);
    NameRoundTrip(b);
  }

  /** Python's `<` on strings: code point by code point, a proper prefix first. */
  predicate StrBelow(a: string, b: string)
    decreases |a|
  {
    if |b| == 0 then false
    else if |a| == 0 then true
    else if a[0] != b[0] then a[0] < b[0]
    else StrBelow(a[1..], b[1..])
  }

  lemma {:induction false} StrBelowAsymmetric(a: string, b: string)
    ensures StrBelow(a, b) ==> !StrBelow(b, a)
    decreases |a|
  {
    if |a| > 0 && |b| > 0 && a[0] == b[0] {
      StrBelowAsymmetric(a[1..], b[1..]);
    }
  }

  lemma {:induction false} StrBelowTransitive(a: string, b: string, c: string)
    requires StrBelow(a, b) && StrBelow(b, c)
    ensures StrBelow(a, c)
    decreases |a|
  {
    if |a| > 0 && a[0] == b[0] && b[0] == c[0] {
      StrBelowTransitive(a[1..], b[1..], c[1..]);
    }
  }

  lemma {:induction false} StrBelowTotal(a: string, b: string)
    requires a != b
    ensures StrBelow(a, b) || StrBelow(b, a)
    decreases |a|
  {
    if |a| > 0 && |b| > 0 && a[0] == b[0] {
      assert a == [a[0]] + a[1..] && b == [b[0]] + b[1..];
      StrBelowTotal(a[1..], b[1..]);
    }
  }

  /** The order in which a group lists its children: by name string. */
  predicate NameBelow(a: int, b: int)
  {
    StrBelow(Name(a), Name(b))
  }

  lemma NameBelowIrreflexive(a: int)
    ensures !NameBelow(a, a)
  {
    StrBelowAsymmetric(Name(a), Name(a));
  }

  /** Name order is a strict total order on integers. */
  lemma NameOrderFacts()
    ensures forall a, b {:trigger NameBelow(a, b)} :: NameBelow(a, b) ==> a != b
    ensures forall a, b {:trigger NameBelow(a, b), NameBelow(b, a)} :: NameBelow(a, b) ==> !NameBelow(b, a)
    ensures forall a, b {:trigger NameBelow(a, b), NameBelow(b, a)} :: a != b ==> NameBelow(a, b) || NameBelow(b, a)
    ensures forall a, b, c {:trigger NameBelow(a, b), NameBelow(b, c)} :: NameBelow(a, b) && NameBelow(b, c) ==> NameBelow(a, c)
  {
    forall a, b
      ensures NameBelow(a, b) ==> !NameBelow(b, a)
    {
      StrBelowAsymmetric(Name(a), Name(b));
    }
    forall a, b | a != b
      ensures NameBelow(a, b) || NameBelow(b, a)
    {
      if Name(a) == Name(b) {
        NameInjective(a, b);
      }
      StrBelowTotal(Name(a), Name(b));
    }
    forall a, b, c | NameBelow(a, b) && NameBelow(b, c)
      ensures NameBelow(a, c)
    {
      StrBelowTransitive(Name(a), Name(b), Name(c));
    }
  }

  /** Name order is not numeric order once names differ in length. */
  lemma NameOrderIsNotNumeric()
    ensures NameBelow(100, 60) && 60 < 100
  {
    assert Name(100) == "100" by {
      assert Digits(100) == Digits(10) + [DigitChar(0)];
      assert Digits(10) == Digits(1) + [DigitChar(0)];
    }
    assert Name(60) == "60" by {
      assert Digits(60) == Digits(6) + [DigitChar(0)];
    }
  }
}

=== FILE: neighbors.dfy ===
/** Selection of the stored parameters that surround a target
    (h5darkframes/neighbors.py). Each axis is rescaled by the observed
    minimum and maximum of the library; for every axis and each side of
    the target along it, the stored parameter nearest to the target is
    kept. Coordinates are exact reals and distances are compared squared:
    on exact reals the square root the library takes is monotone, so it
    does not change which parameter is nearest. Ties that floating-point
    rounding would make or break are not modelled. `get_neighbors` is
    modelled twice: on Python integers, where an axis whose minimum equals
    its maximum raises ZeroDivisionError, and on the numpy bounds an opened
    library holds, where that division gives nan or an infinity. */
module Neighbors {
  import opened Outcomes
  import opened Tuples

  /** The observed per-axis minimum and maximum of a library. */
  datatype Bounds = Bounds(mins: Param, maxs: Param)

  /** One bound per axis. */
  predicate Fits(b: Bounds, n: nat)
  {
    |b.mins| == n && |b.maxs| == n
  }

  /** No axis has its minimum equal to its maximum, so every axis can be
      rescaled. */
  predicate NonFlat(b: Bounds)
  {
    forall i :: 0 <= i < |b.mins| && i < |b.maxs| ==> b.mins[i] != b.maxs[i]
  }

  predicate AllFit(ps: seq<Param>, n: nat)
  {
    forall p :: p in ps ==> |p| == n
  }

  // ---------------------------------------------------------------------
  // _normalize and _distance

  /** `_normalize`: `(v - min) / (max - min)` on every axis. */
  function Normalize(v: Param, b: Bounds): (r: seq<real>)
    requires Fits(b, |v|) && NonFlat(b)
    ensures |r| == |v|
    ensures forall i :: 0 <= i < |v| ==>
      r[i] * (b.maxs[i] - b.mins[i]) as real == (v[i] - b.mins[i]) as real
  {
    seq(|v|, i requires 0 <= i < |v| => (v[i] - b.mins[i]) as real / (b.maxs[i] - b.mins[i]) as real)
  }

  /** The squared Euclidean distance. */
  function SqDist(a: seq<real>, c: seq<real>): (r: real)
    requires |a| == |c|
    ensures r >= 0.0
    decreases |a|
  {
    if a == [] then 0.0 else (a[0] - c[0]) * (a[0] - c[0]) + SqDist(a[1..], c[1..])
  }

  /** The distance is symmetric and vanishes between equal points. */
  lemma {:induction false} SqDistSymmetric(a: seq<real>, c: seq<real>)
    requires |a| == |c|
    ensures SqDist(a, c) == SqDist(c, a)
    ensures a == c ==> SqDist(a, c) == 0.0
    decreases |a|
  {
    if a != [] {
      SqDistSymmetric(a[1..], c[1..]);
      assert (a[0] - c[0]) * (a[0] - c[0]) == (c[0] - a[0]) * (c[0] - a[0]);
    }
  }

  /** The squared distance between two parameters once rescaled. */
  function Dist(t: Param, p: Param, b: Bounds): real
    requires Fits(b, |t|) && |p| == |t| && NonFlat(b)
  {
    SqDist(Normalize(t, b), Normalize(p, b))
  }

  /** Along an axis whose maximum exceeds its minimum, rescaling maps the
      minimum to 0 and the maximum to 1, and keeps the order of values;
      along an axis whose maximum is below its minimum it reverses it. */
  lemma NormalizeAxis(v: Param, w: Param, b: Bounds, i: int)
    requires Fits(b, |v|) && |w| == |v| && NonFlat(b) && 0 <= i < |v|
    ensures v[i] == b.mins[i] ==> Normalize(v, b)[i] == 0.0
    ensures v[i] == b.maxs[i] ==> Normalize(v, b)[i] == 1.0
    ensures b.mins[i] < b.maxs[i] ==> (Normalize(v, b)[i] < Normalize(w, b)[i] <==> v[i] < w[i])
    ensures b.maxs[i] < b.mins[i] ==> (Normalize(v, b)[i] < Normalize(w, b)[i] <==> w[i] < v[i])
  {
    var d := (b.maxs[i] - b.mins[i]) as real;
    var nv, nw := (v[i] - b.mins[i]) as real, (w[i] - b.mins[i]) as real;
    assert Normalize(v, b)[i] == nv / d;
    assert Normalize(w, b)[i] == nw / d;
    ScaleEnds(nv, d);
    ScaleOrder(nv, nw, d);
  }

  lemma ScaleEnds(num: real, d: real)
    requires d != 0.0
    ensures num == 0.0 ==> num / d == 0.0
    ensures num == d ==> num / d == 1.0
  {
  }

  /** Dividing by a positive number keeps the order; by a negative one it
      reverses it. */
  lemma ScaleOrder(a: real, c: real, d: real)
    requires d != 0.0
    ensures d > 0.0 ==> (a / d < c / d <==> a < c)
    ensures d < 0.0 ==> (a / d < c / d <==> c < a)
  {
    assert c / d - a / d == (c - a) / d;
    if d > 0.0 {
      assert (c - a) / d > 0.0 <==> c - a > 0.0;
    } else {
      assert (c - a) / d > 0.0 <==> c - a < 0.0;
    }
  }

  // ---------------------------------------------------------------------
  // _closest and _side_neighbor, over candidates whose distance to the
  // target and side are already known

  /** A stored parameter with its distance to the target and whether it
      lies on the side being searched. */
  datatype Candidate = Candidate(param: Param, dist: real, on: bool)

  /** The position the stable sort by distance puts first: a nearest
      candidate, and the earliest of equally near ones. */
  function ClosestIndex(cs: seq<Candidate>): (k: nat)
    requires cs != []
    ensures k < |cs|
    ensures forall j :: 0 <= j < |cs| ==> cs[k].dist <= cs[j].dist
    ensures forall j :: 0 <= j < k ==> cs[j].dist > cs[k].dist
    decreases |cs|
  {
    if |cs| == 1 then 0
    else
      var init := cs[..|cs| - 1];
      assert forall j :: 0 <= j < |init| ==> init[j] == cs[j];
      var k := ClosestIndex(init);
      if cs[|cs| - 1].dist < cs[k].dist then |cs| - 1 else k
  }

  /** The candidates on the searched side, in their original order. */
  function Subparams(cs: seq<Candidate>): (r: seq<Candidate>)
    ensures forall c :: c in r <==> c in cs && c.on
    decreases |cs|
  {
    if cs == [] then []
    else
      var init, last := cs[..|cs| - 1], cs[|cs| - 1];
      assert cs == init + [last];
      Subparams(init) + if last.on then [last] else []
  }

  /** `_closest` over the candidates on the side: the first of the
      stable sort by distance, if any candidate is on the side. */
  function NearestOn(cs: seq<Candidate>): Option<Candidate>
  {
    var sub := Subparams(cs);
    if sub == [] then None else Some(sub[ClosestIndex(sub)])
  }

  /** `_side_neighbor`: the parameter of the nearest candidate on the
      side, if any. */
  function SideNeighbor(cs: seq<Candidate>): (r: Option<Param>)
    ensures r.None? <==> forall j :: 0 <= j < |cs| ==> !cs[j].on
    ensures r.Some? ==> exists j :: 0 <= j < |cs| && cs[j].on && cs[j].param == r.value
  {
    match NearestOn(cs)
    case None => None
    case Some(c) => Some(c.param)
  }

  /** Appending a candidate changes the nearest one only when the new
      candidate is on the side and strictly nearer than the previous
      nearest. */
  lemma NearestOnSnoc(cs: seq<Candidate>)
    requires cs != []
    ensures var init, x := cs[..|cs| - 1], cs[|cs| - 1];
      NearestOn(cs) ==
        if !x.on then NearestOn(init)
        else if NearestOn(init).None? || x.dist < NearestOn(init).value.dist then Some(x)
        else NearestOn(init)
  {
    var init, x := cs[..|cs| - 1], cs[|cs| - 1];
    var sub := Subparams(init);
    var all := Subparams(cs);
    assert all == sub + if x.on then [x] else [];
    if x.on {
      if sub == [] {
        assert all == [x];
        assert ClosestIndex(all) == 0;
      } else {
        assert all[..|all| - 1] == sub;
        var k := ClosestIndex(sub);
        assert ClosestIndex(all) == if x.dist < sub[k].dist then |all| - 1 else k;
        assert all[k] == sub[k] && all[|all| - 1] == x;
      }
    } else {
      assert all == sub;
    }
  }

  /** A reference definition of the nearest candidate on the side, one
      candidate at a time: the position of the current choice, which a
      later candidate replaces only when it is strictly nearer. */
  function Scan(cs: seq<Candidate>): (r: Option<nat>)
    ensures r.Some? ==> r.value < |cs|
    decreases |cs|
  {
    if cs == [] then None
    else
      var prev, x := Scan(cs[..|cs| - 1]), cs[|cs| - 1];
      if !x.on then prev
      else if prev.None? || x.dist < cs[prev.value].dist then Some(|cs| - 1)
      else prev
  }

  /** The candidate at the position a scan chose. */
  function Chosen(cs: seq<Candidate>, o: Option<nat>): Option<Candidate>
  {
    if o.Some? && o.value < |cs| then Some(cs[o.value]) else None
  }

  /** Filtering then taking the first of the stable sort is the scan. */
  lemma {:induction false} NearestOnIsScan(cs: seq<Candidate>)
    ensures NearestOn(cs) == Chosen(cs, Scan(cs))
    decreases |cs|
  {
    if cs != [] {
      var init := cs[..|cs| - 1];
      NearestOnIsScan(init);
      NearestOnSnoc(cs);
      var prev := Scan(init);
      if prev.Some? {
        assert cs[prev.value] == init[prev.value];
      }
    }
  }

  /** `cs[k]` is on the side, no candidate on the side is nearer, and
      every earlier one on the side is farther. */
  predicate IsFirstNearest(cs: seq<Candidate>, k: int)
  {
    && 0 <= k < |cs| && cs[k].on
    && (forall j :: 0 <= j < |cs| && cs[j].on ==> cs[k].dist <= cs[j].dist)
    && (forall j :: 0 <= j < k && cs[j].on ==> cs[j].dist > cs[k].dist)
  }

  lemma ExtendFirstNearest(cs: seq<Candidate>, k: int)
    requires cs != [] && IsFirstNearest(cs[..|cs| - 1], k)
    requires cs[|cs| - 1].on ==> cs[|cs| - 1].dist >= cs[k].dist
    ensures IsFirstNearest(cs, k)
  {
    var init := cs[..|cs| - 1];
    assert forall j :: 0 <= j < |init| ==> init[j] == cs[j];
  }

  lemma NewFirstNearest(cs: seq<Candidate>)
    requires cs != [] && cs[|cs| - 1].on
    requires forall j :: 0 <= j < |cs| - 1 && cs[j].on ==> cs[j].dist > cs[|cs| - 1].dist
    ensures IsFirstNearest(cs, |cs| - 1)
  {
  }

  /** The scan picks the earliest of the nearest candidates on the side;
      it picks none iff no candidate is on the side. */
  lemma {:induction false} ScanSpec(cs: seq<Candidate>)
    ensures Scan(cs).None? <==> forall j :: 0 <= j < |cs| ==> !cs[j].on
    ensures Scan(cs).Some? ==> IsFirstNearest(cs, Scan(cs).value)
    decreases |cs|
  {
    if cs != [] {
      var init, x := cs[..|cs| - 1], cs[|cs| - 1];
      ScanSpec(init);
      assert forall j :: 0 <= j < |init| ==> init[j] == cs[j];
      var prev := Scan(init);
      if prev.Some? {
        var k := prev.value;
        if x.on && x.dist < cs[k].dist {
          NewFirstNearest(cs);
        } else {
          ExtendFirstNearest(cs, k);
        }
      } else if x.on {
        NewFirstNearest(cs);
      }
    }
  }

  /** The side neighbour is the parameter of the candidate on the side
      that is nearest, the earliest of equally near ones; there is none iff
      no candidate is on the side. */
  lemma SideNeighborSpec(cs: seq<Candidate>)
    ensures SideNeighbor(cs).None? <==> forall j :: 0 <= j < |cs| ==> !cs[j].on
    ensures SideNeighbor(cs).Some? ==>
      exists k :: IsFirstNearest(cs, k) && cs[k].param == SideNeighbor(cs).value
  {
    NearestOnIsScan(cs);
    ScanSpec(cs);
    if Scan(cs).Some? {
      var k := Scan(cs).value;
      assert IsFirstNearest(cs, k) && cs[k].param == SideNeighbor(cs).value;
    }
  }

  // ---------------------------------------------------------------------
  // get_neighbors

  /** Whether `p`, along `axis`, lies at or above the target (`above`) or
      strictly below it, once rescaled. */
  predicate OnSide(t: Param, p: Param, b: Bounds, axis: int, above: bool)
    requires Fits(b, |t|) && |p| == |t| && NonFlat(b) && 0 <= axis < |t|
  {
    if above then Normalize(p, b)[axis] >= Normalize(t, b)[axis]
    else Normalize(p, b)[axis] < Normalize(t, b)[axis]
  }

  /** The stored parameters as candidates for one side of one axis. */
  function Candidates(t: Param, ps: seq<Param>, b: Bounds, axis: int, above: bool): (r: seq<Candidate>)
    requires Fits(b, |t|) && AllFit(ps, |t|) && NonFlat(b) && 0 <= axis < |t|
    ensures |r| == |ps|
    ensures forall j :: 0 <= j < |ps| ==>
      r[j] == Candidate(ps[j], Dist(t, ps[j], b), OnSide(t, ps[j], b, axis, above))
  {
    seq(|ps|, j requires 0 <= j < |ps| => Candidate(ps[j], Dist(t, ps[j], b), OnSide(t, ps[j], b, axis, above)))
  }

  function Side(t: Param, ps: seq<Param>, b: Bounds, axis: int, above: bool): Option<Param>
    requires Fits(b, |t|) && AllFit(ps, |t|) && NonFlat(b) && 0 <= axis < |t|
  {
    SideNeighbor(Candidates(t, ps, b, axis, above))
  }

  /** A side of an axis has a neighbour iff some stored parameter lies on
      it; the neighbour is a stored parameter on that side, none on that
      side is nearer, and none of equal distance comes before it. */
  lemma SideSpec(t: Param, ps: seq<Param>, b: Bounds, axis: int, above: bool)
    requires Fits(b, |t|) && AllFit(ps, |t|) && NonFlat(b) && 0 <= axis < |t|
    ensures var cs := Candidates(t, ps, b, axis, above);
      && (Side(t, ps, b, axis, above).None? <==> forall j :: 0 <= j < |cs| ==> !cs[j].on)
      && (Side(t, ps, b, axis, above).Some? ==>
            exists k :: IsFirstNearest(cs, k) && ps[k] == Side(t, ps, b, axis, above).value)
  {
    var cs := Candidates(t, ps, b, axis, above);
    SideNeighborSpec(cs);
    if SideNeighbor(cs).Some? {
      var k :| IsFirstNearest(cs, k) && cs[k].param == SideNeighbor(cs).value;
      assert ps[k] == cs[k].param;
    }
  }

  /** At most one position is the first of the nearest. */
  lemma FirstNearestUnique(cs: seq<Candidate>, k: int, m: int)
    requires IsFirstNearest(cs, k) && IsFirstNearest(cs, m)
    ensures k == m
  {
  }

  /** Conversely, the first of the nearest stored parameters on a side is
      that side's neighbour. */
  lemma SideAt(t: Param, ps: seq<Param>, b: Bounds, axis: int, above: bool, k: int)
    requires Fits(b, |t|) && AllFit(ps, |t|) && NonFlat(b) && 0 <= axis < |t|
    requires IsFirstNearest(Candidates(t, ps, b, axis, above), k)
    ensures Side(t, ps, b, axis, above) == Some(ps[k])
  {
    var cs := Candidates(t, ps, b, axis, above);
    NearestOnIsScan(cs);
    ScanSpec(cs);
    assert cs[k].on;
    FirstNearestUnique(cs, Scan(cs).value, k);
  }

  /** The values of the options that are present, in order. */
  function Somes(os: seq<Option<Param>>): (r: seq<Param>)
    ensures |r| <= |os|
    decreases |os|
  {
    if os == [] then []
    else (if os[0].Some? then [os[0].value] else []) + Somes(os[1..])
  }

  lemma {:induction false} SomesMember(os: seq<Option<Param>>, q: Param)
    ensures q in Somes(os) <==> Some(q) in os
    decreases |os|
  {
    if os != [] {
      SomesMember(os[1..], q);
      assert os == [os[0]] + os[1..];
    }
  }

  /** Options that all hold members of `ps` give members of `ps`. */
  lemma SomesIn(os: seq<Option<Param>>, ps: seq<Param>)
    requires forall i :: 0 <= i < |os| && os[i].Some? ==> os[i].value in ps
    ensures forall q :: q in Somes(os) ==> q in ps
  {
    forall q | q in Somes(os) ensures q in ps {
      SomesMember(os, q);
    }
  }

  lemma {:induction false} SomesNone(os: seq<Option<Param>>)
    requires forall i :: 0 <= i < |os| ==> os[i].None?
    ensures Somes(os) == []
    decreases |os|
  {
    if os != [] {
      SomesNone(os[1..]);
    }
  }

  /** The side searches in the order the library makes them: for each
      axis, the side at or above the target, then the side below it. */
  function Searches(t: Param, ps: seq<Param>, b: Bounds): (r: seq<Option<Param>>)
    requires Fits(b, |t|) && AllFit(ps, |t|) && NonFlat(b)
    ensures |r| == 2 * |t|
  {
    seq(2 * |t|, i requires 0 <= i < 2 * |t| => Side(t, ps, b, i / 2, i % 2 == 0))
  }

  /** Search `i` is the side `above` of axis `axis` exactly when
      `i` is `2 * axis`, or `2 * axis + 1` for the side below. */
  lemma SearchPosition(i: int, axis: int, above: bool)
    ensures i / 2 == axis && (i % 2 == 0) == above <==> i == 2 * axis + (if above then 0 else 1)
  {
  }

  /** The search results that are present are exactly the side
      neighbours. */
  lemma SearchesMember(t: Param, ps: seq<Param>, b: Bounds, q: Param)
    requires Fits(b, |t|) && AllFit(ps, |t|) && NonFlat(b)
    ensures q in Somes(Searches(t, ps, b)) <==>
      exists axis, above :: 0 <= axis < |t| && Side(t, ps, b, axis, above) == Some(q)
  {
    var r := Searches(t, ps, b);
    SomesMember(r, q);
    if Some(q) in r {
      var i :| 0 <= i < |r| && r[i] == Some(q);
      SearchAt(t, ps, b, i);
    }
    if exists axis, above :: 0 <= axis < |t| && Side(t, ps, b, axis, above) == Some(q) {
      var axis, above :| 0 <= axis < |t| && Side(t, ps, b, axis, above) == Some(q);
      var i := 2 * axis + (if above then 0 else 1);
      SearchPosition(i, axis, above);
      SearchAt(t, ps, b, i);
    }
  }

  lemma SearchAt(t: Param, ps: seq<Param>, b: Bounds, i: int)
    requires Fits(b, |t|) && AllFit(ps, |t|) && NonFlat(b) && 0 <= i < 2 * |t|
    ensures 0 <= i / 2 < |t| && Searches(t, ps, b)[i] == Side(t, ps, b, i / 2, i % 2 == 0)
  {
  }

  /** Every side neighbour is a stored parameter. */
  lemma SideStored(t: Param, ps: seq<Param>, b: Bounds, axis: int, above: bool)
    requires Fits(b, |t|) && AllFit(ps, |t|) && NonFlat(b) && 0 <= axis < |t|
    ensures Side(t, ps, b, axis, above).Some? ==> Side(t, ps, b, axis, above).value in ps
  {
    SideSpec(t, ps, b, axis, above);
  }

  lemma SearchesStored(t: Param, ps: seq<Param>, b: Bounds)
    requires Fits(b, |t|) && AllFit(ps, |t|) && NonFlat(b)
    ensures forall q :: q in Somes(Searches(t, ps, b)) ==> q in ps
  {
    forall q | q in Somes(Searches(t, ps, b)) ensures q in ps {
      SearchesMember(t, ps, b, q);
      var axis, above :| 0 <= axis < |t| && Side(t, ps, b, axis, above) == Some(q);
      SideStored(t, ps, b, axis, above);
    }
  }

  /** `get_neighbors`: the target itself when it is stored; otherwise
      the side neighbours of every axis. Rescaling divides by `max - min`,
      so an axis whose minimum equals its maximum raises
      ZeroDivisionError. */
  function GetNeighbors(ps: seq<Param>, mins: Param, maxs: Param, t: Param): (r: Result<seq<Param>>)
    requires |mins| == |t| && |maxs| == |t| && AllFit(ps, |t|)
    ensures t in ps ==> r == Success([t])
    ensures r.Failure? <==> t !in ps && !NonFlat(Bounds(mins, maxs))
    ensures r.Failure? ==> r.error == ZeroDivisionError
    ensures r.Success? ==> |r.value| <= if t in ps then 1 else 2 * |t|
    ensures r.Success? ==> forall q :: q in r.value ==> q in ps
  {
    if t in ps then Success([t])
    else if !NonFlat(Bounds(mins, maxs)) then Failure(ZeroDivisionError)
    else
      SearchesStored(t, ps, Bounds(mins, maxs));
      Success(Somes(Searches(t, ps, Bounds(mins, maxs))))
  }

  /** Unless the target is stored, the neighbours are exactly the side
      neighbours; there are some iff some parameter is stored, since every
      parameter lies on one side or the other of the first axis. */
  lemma NeighborsFacts(ps: seq<Param>, mins: Param, maxs: Param, t: Param, q: Param)
    requires |mins| == |t| && |maxs| == |t| && AllFit(ps, |t|)
    requires t !in ps && NonFlat(Bounds(mins, maxs))
    ensures q in GetNeighbors(ps, mins, maxs, t).value <==>
      exists axis, above :: 0 <= axis < |t| && Side(t, ps, Bounds(mins, maxs), axis, above) == Some(q)
    ensures GetNeighbors(ps, mins, maxs, t).value == [] <==> ps == []
  {
    var b := Bounds(mins, maxs);
    SearchesMember(t, ps, b, q);
    if ps != [] {
      assert ps[0] in ps;
      if |t| == 0 {
        assert false;
      } else {
        var above := OnSide(t, ps[0], b, 0, true);
        SideSpec(t, ps, b, 0, above);
        var cs := Candidates(t, ps, b, 0, above);
        assert cs[0].on;
        var q0 := Side(t, ps, b, 0, above).value;
        SearchesMember(t, ps, b, q0);
        assert q0 in GetNeighbors(ps, mins, maxs, t).value;
      }
    } else {
      var os := Searches(t, ps, b);
      forall i | 0 <= i < |os| ensures os[i].None? {
        SideSpec(t, ps, b, i / 2, i % 2 == 0);
      }
      SomesNone(os);
    }
  }

  // ---------------------------------------------------------------------
  // get_neighbors on the bounds of an opened library. Those bounds are
  // numpy integers, so rescaling along an axis whose minimum equals its
  // maximum divides by a numpy zero: 0/0 is nan and x/0 an infinity,
  // where Python integers would raise.

  /** A float64 as the rescaling can produce it: a number, an infinity of
      either sign, or nan. */
  datatype Coord = Num(x: real) | Inf(positive: bool) | NaN

  /** numpy's true division of two integers. */
  function Quotient(n: int, d: int): (r: Coord)
    ensures d != 0 ==> r == Num(n as real / d as real)
    ensures d == 0 ==> (r.NaN? <==> n == 0)
    ensures d == 0 && n != 0 ==> r.Inf? && (r.positive <==> n > 0)
  {
    if d != 0 then Num(n as real / d as real) else if n == 0 then NaN else Inf(n > 0)
  }

  /** `>=` on floats: false whenever nan is involved. */
  predicate AtLeast(a: Coord, c: Coord)
  {
    match (a, c)
    case (NaN, _) => false
    case (_, NaN) => false
    case (Num(x), Num(y)) => x >= y
    case (Inf(s), Num(_)) => s
    case (Num(_), Inf(s)) => !s
    case (Inf(s), Inf(s')) => s || !s'
  }

  /** `<` on floats: false whenever nan is involved, otherwise the negation
      of `>=`. */
  predicate Below(a: Coord, c: Coord)
  {
    !a.NaN? && !c.NaN? && !AtLeast(a, c)
  }

  /** Float subtraction, squaring and addition. */
  function Minus(a: Coord, c: Coord): Coord
  {
    match (a, c)
    case (NaN, _) => NaN
    case (_, NaN) => NaN
    case (Num(x), Num(y)) => Num(x - y)
    case (Inf(s), Num(_)) => Inf(s)
    case (Num(_), Inf(s)) => Inf(!s)
    case (Inf(s), Inf(s')) => if s == s' then NaN else Inf(s)
  }

  function Square(a: Coord): Coord
  {
    match a
    case Num(x) => Num(x * x)
    case Inf(_) => Inf(true)
    case NaN => NaN
  }

  function Plus(a: Coord, c: Coord): Coord
  {
    match (a, c)
    case (NaN, _) => NaN
    case (_, NaN) => NaN
    case (Num(x), Num(y)) => Num(x + y)
    case (Inf(s), Num(_)) => Inf(s)
    case (Num(_), Inf(s)) => Inf(s)
    case (Inf(s), Inf(s')) => if s == s' then Inf(s) else NaN
  }

  /** `_normalize` on numpy bounds. */
  function NpNormalize(v: Param, b: Bounds): (r: seq<Coord>)
    requires Fits(b, |v|)
    ensures |r| == |v|
    ensures forall i :: 0 <= i < |v| ==> r[i] == Quotient(v[i] - b.mins[i], b.maxs[i] - b.mins[i])
  {
    seq(|v|, i requires 0 <= i < |v| => Quotient(v[i] - b.mins[i], b.maxs[i] - b.mins[i]))
  }

  /** A float that is not below zero: nan, +inf or a non-negative number. */
  predicate NotNegative(k: Coord)
  {
    match k
    case Num(x) => x >= 0.0
    case Inf(s) => s
    case NaN => true
  }

  /** The squared distance in floats. The terms are squares, so the order
      of the sum changes nothing: nan absorbs, and no two infinities of
      opposite sign meet. */
  function NpSqDist(a: seq<Coord>, c: seq<Coord>): (r: Coord)
    requires |a| == |c|
    ensures NotNegative(r)
    decreases |a|
  {
    if a == [] then Num(0.0) else Plus(Square(Minus(a[0], c[0])), NpSqDist(a[1..], c[1..]))
  }

  function Nums(xs: seq<real>): (r: seq<Coord>)
    ensures |r| == |xs| && forall i :: 0 <= i < |xs| ==> r[i] == Num(xs[i])
  {
    seq(|xs|, i requires 0 <= i < |xs| => Num(xs[i]))
  }

  /** On numbers, the float distance is the distance. */
  lemma {:induction false} NpSqDistNums(a: seq<real>, c: seq<real>)
    requires |a| == |c|
    ensures NpSqDist(Nums(a), Nums(c)) == Num(SqDist(a, c))
    decreases |a|
  {
    if a != [] {
      assert Nums(a)[1..] == Nums(a[1..]);
      assert Nums(c)[1..] == Nums(c[1..]);
      NpSqDistNums(a[1..], c[1..]);
      assert Square(Minus(Num(a[0]), Num(c[0]))) == Num((a[0] - c[0]) * (a[0] - c[0]));
    }
  }

  /** One nan coordinate makes the distance nan. */
  lemma {:induction false} NpSqDistNaN(a: seq<Coord>, c: seq<Coord>, i: int)
    requires |a| == |c| && 0 <= i < |c| && c[i].NaN?
    ensures NpSqDist(a, c).NaN?
    decreases |a|
  {
    if i > 0 {
      NpSqDistNaN(a[1..], c[1..], i - 1);
    }
  }

  /** Every stored parameter lies within the bounds, as the observed bounds
      of a library guarantee. */
  predicate Within(ps: seq<Param>, b: Bounds)
  {
    forall p, i :: p in ps && 0 <= i < |p| && i < |b.mins| && i < |b.maxs| ==> b.mins[i] <= p[i] <= b.maxs[i]
  }

  /** Along an axis with distinct bounds, the numpy rescaling is the exact
      one. */
  lemma NpNormalizeNonFlat(v: Param, b: Bounds)
    requires Fits(b, |v|) && NonFlat(b)
    ensures NpNormalize(v, b) == Nums(Normalize(v, b))
  {
  }

  /** The sort key of a stored parameter within the bounds: its distance
      when no axis is flat, and nan when one is, since the stored
      coordinate along a flat axis is 0/0. */
  lemma NpKey(t: Param, p: Param, b: Bounds)
    requires Fits(b, |t|) && |p| == |t| && Within([p], b)
    ensures NonFlat(b) ==> NpSqDist(NpNormalize(t, b), NpNormalize(p, b)) == Num(Dist(t, p, b))
    ensures !NonFlat(b) ==> NpSqDist(NpNormalize(t, b), NpNormalize(p, b)).NaN?
  {
    if NonFlat(b) {
      NpNormalizeNonFlat(t, b);
      NpNormalizeNonFlat(p, b);
      NpSqDistNums(Normalize(t, b), Normalize(p, b));
    } else {
      var i :| 0 <= i < |b.mins| && i < |b.maxs| && b.mins[i] == b.maxs[i];
      assert p in [p];
      NpSqDistNaN(NpNormalize(t, b), NpNormalize(p, b), i);
    }
  }

  /** The key the stable sort orders a candidate by. With every key nan no
      key is below another, so the sort keeps the order, as it does for
      equal keys: nan keys all get the same value. */
  function SortKey(k: Coord): real
  {
    if k.Num? then k.x else 0.0
  }

  predicate NpOnSide(t: Param, p: Param, b: Bounds, axis: int, above: bool)
    requires Fits(b, |t|) && |p| == |t| && 0 <= axis < |t|
  {
    var np, nt := NpNormalize(p, b)[axis], NpNormalize(t, b)[axis];
    if above then AtLeast(np, nt) else Below(np, nt)
  }

  function NpCandidates(t: Param, ps: seq<Param>, b: Bounds, axis: int, above: bool): (r: seq<Candidate>)
    requires Fits(b, |t|) && AllFit(ps, |t|) && 0 <= axis < |t|
    ensures |r| == |ps|
    ensures forall j :: 0 <= j < |ps| ==> r[j].param == ps[j] && r[j].on == NpOnSide(t, ps[j], b, axis, above)
    ensures forall j :: 0 <= j < |ps| ==> r[j].dist == SortKey(NpSqDist(NpNormalize(t, b), NpNormalize(ps[j], b)))
  {
    seq(|ps|, j requires 0 <= j < |ps| =>
      Candidate(ps[j], SortKey(NpSqDist(NpNormalize(t, b), NpNormalize(ps[j], b))), NpOnSide(t, ps[j], b, axis, above)))
  }

  /** `_side_neighbor` on the numpy rescaling: nothing when no stored
      parameter passes the float side test, otherwise one that does. */
  function NpSide(t: Param, ps: seq<Param>, b: Bounds, axis: int, above: bool): (r: Option<Param>)
    requires Fits(b, |t|) && AllFit(ps, |t|) && 0 <= axis < |t|
    ensures r.None? <==> forall j :: 0 <= j < |ps| ==> !NpOnSide(t, ps[j], b, axis, above)
    ensures r.Some? ==> r.value in ps && NpOnSide(t, r.value, b, axis, above)
  {
    SideNeighbor(NpCandidates(t, ps, b, axis, above))
  }

  function NpSearches(t: Param, ps: seq<Param>, b: Bounds): (r: seq<Option<Param>>)
    requires Fits(b, |t|) && AllFit(ps, |t|)
    ensures |r| == 2 * |t|
    ensures forall i :: 0 <= i < 2 * |t| ==> r[i] == NpSide(t, ps, b, i / 2, i % 2 == 0)
  {
    seq(2 * |t|, i requires 0 <= i < 2 * |t| => NpSide(t, ps, b, i / 2, i % 2 == 0))
  }

  /** `get_neighbors` on the bounds of an opened library: the target itself
      when it is stored, otherwise the side neighbours of every axis, the
      comparisons and distances taken in floats. */
  function NpGetNeighbors(ps: seq<Param>, mins: Param, maxs: Param, t: Param): (r: seq<Param>)
    requires |mins| == |t| && |maxs| == |t| && AllFit(ps, |t|) && Within(ps, Bounds(mins, maxs))
    ensures t in ps ==> r == [t]
    ensures forall q :: q in r ==> q in ps
    ensures |r| <= if t in ps then 1 else 2 * |t|
  {
    if t in ps then [t]
    else
      var os := NpSearches(t, ps, Bounds(mins, maxs));
      SomesIn(os, ps);
      Somes(os)
  }

  /** With no flat axis, the floats change nothing: the neighbours are the
      ones of the exact model. */
  lemma NpAgreesNonFlat(ps: seq<Param>, mins: Param, maxs: Param, t: Param)
    requires |mins| == |t| && |maxs| == |t| && AllFit(ps, |t|) && Within(ps, Bounds(mins, maxs))
    requires NonFlat(Bounds(mins, maxs))
    ensures GetNeighbors(ps, mins, maxs, t) == Success(NpGetNeighbors(ps, mins, maxs, t))
  {
    var b := Bounds(mins, maxs);
    if t !in ps {
      NpNormalizeNonFlat(t, b);
      forall axis, above | 0 <= axis < |t|
        ensures NpCandidates(t, ps, b, axis, above) == Candidates(t, ps, b, axis, above)
      {
        forall j | 0 <= j < |ps|
          ensures NpCandidates(t, ps, b, axis, above)[j] == Candidates(t, ps, b, axis, above)[j]
        {
          assert ps[j] in ps;
          NpKey(t, ps[j], b);
          NpNormalizeNonFlat(ps[j], b);
        }
      }
      assert NpSearches(t, ps, b) == Searches(t, ps, b);
    }
  }

  /** The first candidate on the side, in the order given. */
  predicate FirstOn(cs: seq<Candidate>, k: int)
  {
    0 <= k < |cs| && cs[k].on && forall j :: 0 <= j < k ==> !cs[j].on
  }

  /** Once an axis is flat every key is nan, so each side's neighbour is
      the first stored parameter on that side, not the nearest one. */
  lemma NpSideFlat(t: Param, ps: seq<Param>, b: Bounds, axis: int, above: bool)
    requires Fits(b, |t|) && AllFit(ps, |t|) && Within(ps, b) && !NonFlat(b) && 0 <= axis < |t|
    ensures var cs := NpCandidates(t, ps, b, axis, above);
      && (NpSide(t, ps, b, axis, above).None? <==> forall j :: 0 <= j < |cs| ==> !cs[j].on)
      && (NpSide(t, ps, b, axis, above).Some? ==>
            exists k :: FirstOn(cs, k) && ps[k] == NpSide(t, ps, b, axis, above).value)
  {
    var cs := NpCandidates(t, ps, b, axis, above);
    forall j | 0 <= j < |cs| ensures cs[j].dist == 0.0 {
      assert ps[j] in ps;
      NpKey(t, ps[j], b);
    }
    SideNeighborSpec(cs);
    if SideNeighbor(cs).Some? {
      var k :| IsFirstNearest(cs, k) && cs[k].param == SideNeighbor(cs).value;
      assert FirstOn(cs, k);
    }
  }

  /** Along a flat axis nothing is on either side: every stored coordinate
      is nan. */
  lemma NpFlatAxisEmpty(t: Param, ps: seq<Param>, b: Bounds, axis: int, above: bool)
    requires Fits(b, |t|) && AllFit(ps, |t|) && Within(ps, b) && 0 <= axis < |t|
    requires b.mins[axis] == b.maxs[axis]
    ensures NpSide(t, ps, b, axis, above).None?
  {
    var cs := NpCandidates(t, ps, b, axis, above);
    forall j | 0 <= j < |cs| ensures !cs[j].on {
      assert ps[j] in ps;
    }
    SideNeighborSpec(cs);
  }

  /** Along an axis with distinct bounds, a stored parameter is on one side
      or the other. */
  lemma NpNonFlatAxisFound(t: Param, ps: seq<Param>, b: Bounds, axis: int)
    requires Fits(b, |t|) && AllFit(ps, |t|) && ps != [] && 0 <= axis < |t|
    requires b.mins[axis] != b.maxs[axis]
    ensures NpSide(t, ps, b, axis, true).Some? || NpSide(t, ps, b, axis, false).Some?
  {
    var above := NpOnSide(t, ps[0], b, axis, true);
    var cs := NpCandidates(t, ps, b, axis, above);
    assert cs[0].on;
    SideNeighborSpec(cs);
  }

  lemma NpSearchesStored(t: Param, ps: seq<Param>, b: Bounds, q: Param)
    requires Fits(b, |t|) && AllFit(ps, |t|)
    requires q in Somes(NpSearches(t, ps, b))
    ensures q in ps
  {
    var os := NpSearches(t, ps, b);
    SomesMember(os, q);
    var i :| 0 <= i < |os| && os[i] == Some(q);
    var cs := NpCandidates(t, ps, b, i / 2, i % 2 == 0);
    SideNeighborSpec(cs);
    var k :| IsFirstNearest(cs, k) && cs[k].param == q;
  }

  lemma NpSearchesAllFlat(t: Param, ps: seq<Param>, b: Bounds)
    requires Fits(b, |t|) && AllFit(ps, |t|) && Within(ps, b)
    requires forall i :: 0 <= i < |t| ==> b.mins[i] == b.maxs[i]
    ensures Somes(NpSearches(t, ps, b)) == []
  {
    var os := NpSearches(t, ps, b);
    forall i | 0 <= i < |os| ensures os[i].None? {
      NpFlatAxisEmpty(t, ps, b, i / 2, i % 2 == 0);
    }
    SomesNone(os);
  }

  lemma NpSearchesFound(t: Param, ps: seq<Param>, b: Bounds, axis: int)
    requires Fits(b, |t|) && AllFit(ps, |t|) && ps != [] && 0 <= axis < |t|
    requires b.mins[axis] != b.maxs[axis]
    ensures Somes(NpSearches(t, ps, b)) != []
  {
    var os := NpSearches(t, ps, b);
    NpNonFlatAxisFound(t, ps, b, axis);
    var above := NpSide(t, ps, b, axis, true).Some?;
    var i := 2 * axis + (if above then 0 else 1);
    SearchPosition(i, axis, above);
    assert os[i] == NpSide(t, ps, b, axis, above);
    SomesMember(os, NpSide(t, ps, b, axis, above).value);
  }

  /** The neighbours are stored parameters, and there are none exactly
      when the target is not stored and every axis is flat (a library
      holding a single parameter): the case in which the library falls
      back to the closest image. */
  lemma NpNeighborsFacts(ps: seq<Param>, mins: Param, maxs: Param, t: Param)
    requires |mins| == |t| && |maxs| == |t| && AllFit(ps, |t|) && Within(ps, Bounds(mins, maxs))
    ensures t in ps ==> NpGetNeighbors(ps, mins, maxs, t) == [t]
    ensures forall q :: q in NpGetNeighbors(ps, mins, maxs, t) ==> q in ps
    ensures ps != [] ==>
      (NpGetNeighbors(ps, mins, maxs, t) == [] <==> t !in ps && forall i :: 0 <= i < |t| ==> mins[i] == maxs[i])
  {
    var b := Bounds(mins, maxs);
    if t !in ps {
      forall q | q in Somes(NpSearches(t, ps, b)) ensures q in ps {
        NpSearchesStored(t, ps, b, q);
      }
      if forall i :: 0 <= i < |t| ==> mins[i] == maxs[i] {
        NpSearchesAllFlat(t, ps, b);
      } else if ps != [] {
        var axis :| 0 <= axis < |t| && mins[axis] != maxs[axis];
        NpSearchesFound(t, ps, b, axis);
      }
    }
  }

  /** One stored parameter, (60, 10), and the target (70, 10): both axes
      are flat, so there are no neighbours. */
  lemma NpSingleExample()
    ensures NpGetNeighbors([[60, 10]], [60, 10], [60, 10], [70, 10]) == []
  {
    NpNeighborsFacts([[60, 10]], [60, 10], [60, 10], [70, 10]);
  }

  // ---------------------------------------------------------------------
  // The 3 x 4 test grid

  /** The grid of the library tests, widths 60, 80 and 100 by heights 10
      to 13, in the order the library lists them ("100" < "60" < "80"). */
  function Grid(): seq<Param>
  {
    [[100, 10], [100, 11], [100, 12], [100, 13],
     [60, 10], [60, 11], [60, 12], [60, 13],
     [80, 10], [80, 11], [80, 12], [80, 13]]
  }

  /** A stored target is its own only neighbour. */
  lemma GridStoredTargets()
    ensures GetNeighbors(Grid(), [60, 10], [100, 13], [60, 10]) == Success([[60, 10]])
    ensures GetNeighbors(Grid(), [60, 10], [100, 13], [80, 12]) == Success([[80, 12]])
  {
    assert Grid()[4] == [60, 10] && Grid()[10] == [80, 12];
  }

  const GridBounds := Bounds([60, 10], [100, 13])

  /** The rescaled squared distances from (70, 11) to the grid points, in
      the order of `Grid()`. */
  function GridDists(): seq<real>
  {
    [0.5625 + 1.0 / 9.0, 0.5625, 0.5625 + 1.0 / 9.0, 0.5625 + 4.0 / 9.0,
     0.0625 + 1.0 / 9.0, 0.0625, 0.0625 + 1.0 / 9.0, 0.0625 + 4.0 / 9.0,
     0.0625 + 1.0 / 9.0, 0.0625, 0.0625 + 1.0 / 9.0, 0.0625 + 4.0 / 9.0]
  }

  /** Which grid points lie on each side of (70, 11): along the width,
      at or above 70 are the widths 80 and 100; along the height, at or
      above 11 are the heights 11 to 13. */
  predicate GridOn(axis: int, above: bool, j: int)
  {
    if axis == 0 then (above <==> !(4 <= j < 8)) else (above <==> j % 4 != 0)
  }

  /** Rescaling on the grid's bounds. */
  lemma GridNormal(p: Param)
    requires |p| == 2
    ensures Normalize(p, GridBounds) == [(p[0] - 60) as real / 40.0, (p[1] - 10) as real / 3.0]
  {
    var r := Normalize(p, GridBounds);
    assert r[0] == (p[0] - 60) as real / 40.0;
    assert r[1] == (p[1] - 10) as real / 3.0;
    assert r == [r[0], r[1]];
  }

  /** The squared distance from the rescaled target (1/4, 1/3) to a
      rescaled grid point. */
  lemma GridPointDist(x: real, y: real, d: real)
    requires x in {0.0, 0.5, 1.0} && y in {0.0, 1.0 / 3.0, 2.0 / 3.0, 1.0}
    requires d == (0.25 - x) * (0.25 - x) + (1.0 / 3.0 - y) * (1.0 / 3.0 - y)
    ensures SqDist([0.25, 1.0 / 3.0], [x, y]) == d
  {
    assert [0.25, 1.0 / 3.0][1..] == [1.0 / 3.0] && [x, y][1..] == [y];
  }

  lemma GridCandidates(axis: int, above: bool, j: int)
    requires 0 <= axis < 2 && 0 <= j < 12
    ensures Candidates([70, 11], Grid(), GridBounds, axis, above)[j].dist == GridDists()[j]
    ensures Candidates([70, 11], Grid(), GridBounds, axis, above)[j].on == GridOn(axis, above, j)
  {
    var p := Grid()[j];
    GridNormal(p);
    GridNormal([70, 11]);
    var x, y := (p[0] - 60) as real / 40.0, (p[1] - 10) as real / 3.0;
    GridPointDist(x, y, (0.25 - x) * (0.25 - x) + (1.0 / 3.0 - y) * (1.0 / 3.0 - y));
  }

  /** A grid point is the first nearest on a side when the table of
      distances says so. */
  lemma GridSide(axis: int, above: bool, k: int)
    requires 0 <= axis < 2 && 0 <= k < 12 && GridOn(axis, above, k)
    requires forall j :: 0 <= j < 12 && GridOn(axis, above, j) ==> GridDists()[k] <= GridDists()[j]
    requires forall j :: 0 <= j < k && GridOn(axis, above, j) ==> GridDists()[j] > GridDists()[k]
    ensures IsFirstNearest(Candidates([70, 11], Grid(), GridBounds, axis, above), k)
  {
    forall j | 0 <= j < 12
      ensures Candidates([70, 11], Grid(), GridBounds, axis, above)[j].dist == GridDists()[j]
      ensures Candidates([70, 11], Grid(), GridBounds, axis, above)[j].on == GridOn(axis, above, j)
    {
      GridCandidates(axis, above, j);
    }
  }

  /** Along the width, the nearest grid point at or above 70 is (80, 11);
      below it, (60, 11). Along the height, (60, 11) and (80, 11) are
      equally near at or above 11, and so are (60, 10) and (80, 10) below
      it: the ones listed first win. */
  lemma GridSides()
    ensures IsFirstNearest(Candidates([70, 11], Grid(), GridBounds, 0, true), 9)
    ensures IsFirstNearest(Candidates([70, 11], Grid(), GridBounds, 0, false), 5)
    ensures IsFirstNearest(Candidates([70, 11], Grid(), GridBounds, 1, true), 5)
    ensures IsFirstNearest(Candidates([70, 11], Grid(), GridBounds, 1, false), 4)
  {
    GridSide(0, true, 9);
    GridSide(0, false, 5);
    GridSide(1, true, 5);
    GridSide(1, false, 4);
  }

  /** The neighbours of (70, 11) on the test grid, one per axis and side. */
  lemma GridNeighbors()
    ensures GetNeighbors(Grid(), [60, 10], [100, 13], [70, 11]) == Success([[80, 11], [60, 11], [60, 11], [60, 10]])
  {
    var t, ps := [70, 11], Grid();
    assert t !in ps by {
      forall j | 0 <= j < |ps| ensures ps[j] != t {
        assert ps[j][0] != 70;
      }
    }
    var os := Searches(t, ps, GridBounds);
    GridSearches(t, ps, GridBounds, os);
    GridSomes(os);
  }

  lemma GridSearches(t: Param, ps: seq<Param>, b: Bounds, os: seq<Option<Param>>)
    requires t == [70, 11] && ps == Grid() && b == GridBounds
    requires os == Searches(t, ps, b)
    ensures os == [Some([80, 11]), Some([60, 11]), Some([60, 11]), Some([60, 10])]
  {
    GridFits();
    GridSideIs(0, true, 9, [80, 11]);
    GridSideIs(0, false, 5, [60, 11]);
    GridSideIs(1, true, 5, [60, 11]);
    GridSideIs(1, false, 4, [60, 10]);
    PlaneSearches(t, ps, b);
  }

  lemma GridSideIs(axis: int, above: bool, k: int, q: Param)
    requires || (axis == 0 && above && k == 9) || (axis == 0 && !above && k == 5)
             || (axis == 1 && above && k == 5) || (axis == 1 && !above && k == 4)
    requires q == Grid()[k]
    ensures Side([70, 11], Grid(), GridBounds, axis, above) == Some(q)
  {
    GridFits();
    GridSides();
    SideAt([70, 11], Grid(), GridBounds, axis, above, k);
  }

  lemma GridFits()
    ensures Fits(GridBounds, 2) && AllFit(Grid(), 2) && NonFlat(GridBounds)
  {
  }

  /** On a plane, the searches are the width's two sides, then the
      height's. */
  lemma PlaneSearches(t: Param, ps: seq<Param>, b: Bounds)
    requires Fits(b, |t|) && AllFit(ps, |t|) && NonFlat(b) && |t| == 2
    ensures Searches(t, ps, b) ==
      [Side(t, ps, b, 0, true), Side(t, ps, b, 0, false), Side(t, ps, b, 1, true), Side(t, ps, b, 1, false)]
  {
    var os := Searches(t, ps, b);
    SearchAt(t, ps, b, 0);
    SearchAt(t, ps, b, 1);
    SearchAt(t, ps, b, 2);
    SearchAt(t, ps, b, 3);
    FourElements(os, os[0], os[1], os[2], os[3]);
  }

  lemma FourElements(os: seq<Option<Param>>, w: Option<Param>, x: Option<Param>, y: Option<Param>, z: Option<Param>)
    requires |os| == 4 && os[0] == w && os[1] == x && os[2] == y && os[3] == z
    ensures os == [w, x, y, z]
  {
  }

  lemma {:induction false} SomesAll(os: seq<Option<Param>>)
    requires forall i :: 0 <= i < |os| ==> os[i].Some?
    ensures |Somes(os)| == |os|
    ensures forall i :: 0 <= i < |os| ==> Somes(os)[i] == os[i].value
    decreases |os|
  {
    if os != [] {
      SomesAll(os[1..]);
    }
  }

  lemma GridSomes(os: seq<Option<Param>>)
    requires os == [Some([80, 11]), Some([60, 11]), Some([60, 11]), Some([60, 10])]
    ensures Somes(os) == [[80, 11], [60, 11], [60, 11], [60, 10]]
  {
    SomesAll(os);
    var r := Somes(os);
    assert r[0] == [80, 11] && r[1] == [60, 11] && r[2] == [60, 11] && r[3] == [60, 10];
  }
}

=== FILE: outcomes.dfy ===
/** Failure-carrying wrappers shared by every module of the model. The error
    constructors name the Python exceptions the library raises (or lets
    escape) on each error path. */
module Outcomes {

  datatype Option<+T> = None | Some(value: T)

  /** The exceptions of the library, each named after what raises it. */
  datatype Error =
    | ValueError          // a range with step 0, a reduction over no params, a member
                          // name read as an integer, or a dataset name already taken
    | IndexError          // indexing an empty list of ranges or of libraries
    | KeyError            // a controllable missing from a query mapping
    | AttributeError      // a list of ranges whose first entry is itself a list
    | ZeroDivisionError   // normalising along an axis whose observed min equals its max
    | TypeError           // numpy comparing two parameter mappings
    | ImageNotFound       // no image stored for the requested parameters
    | TargetExists        // the ValueError raised when the fusion target already exists
    | Mismatch(index: nat) // the ValueError raised when libraries index and index+1
                           // use different controllables

  datatype Result<+T> = Success(value: T) | Failure(error: Error) {
    predicate IsFailure() {
      Failure?
    }

    function PropagateFailure<U>(): Result<U>
      requires Failure?
    {
      Failure(error)
    }

    function Extract(): T
      requires Success?
    {
      value
    }
  }
}

=== FILE: tuples.dfy ===
/** Parameter tuples: one integer per controllable, in controllable order. */
module Tuples {

  type Param = seq<int>

  /** Puts `h` in front of every tuple of `tails`, keeping their order. */
  function Prepend(h: int, tails: seq<Param>): (r: seq<Param>)
    ensures |r| == |tails|
    ensures forall i :: 0 <= i < |r| ==> r[i] == [h] + tails[i]
  {
    seq(|tails|, i requires 0 <= i < |tails| => [h] + tails[i])
  }

  /** A tuple is in `Prepend(h, tails)` iff it is `h` followed by one of
      the tails. */
  lemma PrependMember(h: int, tails: seq<Param>, p: Param)
    ensures p in Prepend(h, tails) <==> |p| > 0 && p[0] == h && p[1..] in tails
  {
    if |p| > 0 && p[0] == h && p[1..] in tails {
      var i :| 0 <= i < |tails| && tails[i] == p[1..];
      assert Prepend(h, tails)[i] == p;
    }
  }

  /** Lexicographic order on tuples induced by a strict order `below` on
      components; a proper prefix comes first. */
  predicate LexBelow(a: Param, b: Param, below: (int, int) -> bool)
    decreases |a|
  {
    if |b| == 0 then false
    else if |a| == 0 then true
    else if a[0] != b[0] then below(a[0], b[0])
    else LexBelow(a[1..], b[1..], below)
  }

  /** Every earlier tuple is lexicographically below every later one; in
      particular no tuple occurs twice when `below` is irreflexive. */
  predicate StrictlySorted(s: seq<Param>, below: (int, int) -> bool)
  {
    forall i, j :: 0 <= i < j < |s| ==> LexBelow(s[i], s[j], below)
  }

  predicate Distinct(s: seq<Param>)
  {
    forall i, j :: 0 <= i < j < |s| ==> s[i] != s[j]
  }

  lemma {:induction false} LexBelowIrreflexive(a: Param, below: (int, int) -> bool)
    ensures !LexBelow(a, a, below)
    decreases |a|
  {
    if |a| > 0 {
      LexBelowIrreflexive(a[1..], below);
    }
  }

  /** Strict lexicographic sortedness leaves no room for a repeated tuple. */
  lemma SortedDistinct(s: seq<Param>, below: (int, int) -> bool)
    requires StrictlySorted(s, below)
    ensures Distinct(s)
  {
    forall i, j | 0 <= i < j < |s|
      ensures s[i] != s[j]
    {
      if s[i] == s[j] {
        LexBelowIrreflexive(s[i], below);
        assert false;
      }
    }
  }

  /** Two blocks whose heads are ordered stay ordered once prepended. */
  lemma PrependBelow(h1: int, t1: Param, h2: int, t2: Param, below: (int, int) -> bool)
    requires below(h1, h2) && h1 != h2
    ensures LexBelow([h1] + t1, [h2] + t2, below)
  {
  }

  /** Prepending a common head keeps the order of the tails. */
  lemma PrependKeepsOrder(h: int, tails: seq<Param>, below: (int, int) -> bool)
    requires StrictlySorted(tails, below)
    ensures StrictlySorted(Prepend(h, tails), below)
  {
    var r := Prepend(h, tails);
    forall i, j | 0 <= i < j < |r|
      ensures LexBelow(r[i], r[j], below)
    {
      assert r[i][1..] == tails[i];
      assert r[j][1..] == tails[j];
    }
  }

  /** Concatenating two sorted runs, each element of the first below each
      element of the second, gives a sorted sequence. */
  lemma ConcatSorted(a: seq<Param>, b: seq<Param>, below: (int, int) -> bool)
    requires StrictlySorted(a, below) && StrictlySorted(b, below)
    requires forall i, j :: 0 <= i < |a| && 0 <= j < |b| ==> LexBelow(a[i], b[j], below)
    ensures StrictlySorted(a + b, below)
  {
    var s := a + b;
    forall i, j | 0 <= i < j < |s|
      ensures LexBelow(s[i], s[j], below)
    {
      if j < |a| {
        assert s[i] == a[i] && s[j] == a[j];
      } else if i >= |a| {
        assert s[i] == b[i - |a|] && s[j] == b[j - |a|];
      } else {
        assert s[i] == a[i] && s[j] == b[j - |a|];
      }
    }
  }
}
